=== FILE: README.md ===
# rEFIt boot-entry discovery, classification and dispatch in Dafny

This project models the decision logic of the rEFIt boot manager's `main.c` as pure
Dafny functions over immutable data, and proves properties of that logic. The model
covers:

- how loaders are found on the volumes;
- how each found loader is classified and turned into a main-menu entry with a
  submenu of boot-option variants;
- the legacy (BIOS) boot option record written to firmware storage;
- the gated sequences of firmware calls that start a loader, a tool or a legacy
  operating system;
- the main loop that dispatches the user's choices.

Release 0.5 (`tags/release-0.5/refit/refit/main.c`) is the version modelled in full. The
older trunk snapshot (`trunk/refit/refit/main.c`, which calls itself 0.4) is a
variant: it reuses the release definitions where its code is the same.

The firmware stays opaque. Its answers are inputs:
- the volume records;
- an abstract file system, i.e. the set of existing paths and the listing of each
  directory;
- the status each call returns;
- the user's choices, one per round of the main loop.

What the boot manager does is the output: menu entries, the transcript lines
`CheckError` reports, and the list of firmware calls it makes.

Files, one module each:

| file | module | models |
|---|---|---|
| `wrappers.dfy` | `Wrappers` | `Option`, for references that may be NULL |
| `text.dfy` | `Text` | case-insensitive comparison, the file name of a path, path depth |
| `firmware.dfy` | `Firmware` | statuses, `CheckError`, device paths, volumes, the file system, the recorded firmware calls |
| `menu.dfy` | `Menu` | menu actions (the `TAG_*` values with their entry fields), entries, screens |
| `loaders.dfy` | `Loaders` | `add_loader_entry`: classification and submenu variants |
| `scan.dfy` | `Scan` | `loader_scan_dir` and `loader_scan` |
| `discovery.dfy` | `Discovery` | `add_legacy_entry`, `legacy_scan`, `add_tool_entry`, `tool_scan`, and filling the main menu |
| `legacy_record.dfy` | `LegacyRecord` | the EFI_LOAD_OPTION encoding (section 3.1.3 of the UEFI Specification) and device path nodes (section 10.3), with decoder and round trip, and the two stored records |
| `dispatch.dfy` | `Dispatch` | `start_loader`, `start_tool`, `start_legacy` |
| `main_loop.dfy` | `MainLoop` | the `RefitMain` loop of release 0.5 |
| `trunk.dfy` | `Trunk` | trunk classification, scan, volume names and shell probe |
| `trunk_loop.dfy` | `TrunkLoop` | trunk dispatch, main menu and loop with its one-shot timeout |

## Model

| member | source | states |
|---|---|---|
| Firmware.CheckError | tags/release-0.5/refit/refit/main.c:105-106 | a transcript line is reported exactly when the status is an error (success and warning statuses are not), and at most one line per check |
| Text.Fold | tags/release-0.5/refit/refit/main.c:169-190 | case folding never yields a lower-case letter and maps a character to a backslash only if it is one, so matching up to case cannot create or remove path separators |
| Text.SameIgnoringCaseTrans | tags/release-0.5/refit/refit/main.c:169-190 | matching with `StriCmp` is an equivalence: two names equal up to case match the same constants |
| Text.NoCommonMatch | tags/release-0.5/refit/refit/main.c:174-189 | two constants that differ after folding at some position never both match one name |
| Text.Basename | tags/release-0.5/refit/refit/main.c:146 | the file name of a path contains no backslash and is no longer than the path |
| Text.BasenameIsSuffix | tags/release-0.5/refit/refit/main.c:146 | the file name is a suffix of the path, preceded by a backslash unless it is the whole path |
| Text.BasenameUnique | tags/release-0.5/refit/refit/main.c:146 | any backslash-free suffix that is the whole path or follows a backslash is the file name, so the file name is the part after the last backslash |
| Text.BasenameOfJoin | tags/release-0.5/refit/refit/main.c:339-343 | the file name of `<dir>\<name>` is the listed name itself |
| Text.BasenameIgnoresCase | tags/release-0.5/refit/refit/main.c:169-190 | paths equal up to case have file names equal up to case |
| Loaders.Classify | tags/release-0.5/refit/refit/main.c:167-192 | every path is classified, none is rejected; graphics mode is on exactly for the Mac OS X and xom kinds; a default-kind loader gets the hardware-test, Windows or unknown-OS icon |
| Loaders.MacPathBasename | tags/release-0.5/refit/refit/main.c:169-174 | a path equal up to case to the Mac OS X loader path has the file name boot.efi up to case |
| Loaders.ClassifyKinds | tags/release-0.5/refit/refit/main.c:167-192 | independently of the order of the tests: Mac OS X kind iff the whole path matches `MACOSX_LOADER_PATH` up to case; elilo kind iff the file name is `e.efi` or `elilo.efi`; xom kind iff it is `xom.efi`; graphics mode iff the Mac OS X path or `xom.efi` |
| Loaders.ClassifyIgnoresCase | tags/release-0.5/refit/refit/main.c:169-190 | two paths equal up to case get the same kind, graphics flag and icon |
| Loaders.Variants | tags/release-0.5/refit/refit/main.c:199-309 | one variant for a plain loader, three for Mac OS X, five for elilo, four for xom; the first is "Boot Mac OS X" or "Run <file name>", without options and with the parent's graphics flag; every later variant passes options, and no two variants pass the same options |
| Loaders.SubmenuEntries | tags/release-0.5/refit/refit/main.c:199-311 | one loader entry per variant, in order, each with the parent's path, volume name and device path and the variant's options and graphics flag, then the shared return entry |
| Loaders.AddLoaderEntry | tags/release-0.5/refit/refit/main.c:138-314 | the entry is titled "Boot <title, else the path without its leading backslash> from <volume>"; it sits in row 0; it boots the given path on the volume's device; its graphics flag is the classification's; it carries load options exactly for xom, and then they are `-s -h`; it has a submenu titled "Boot Options for <title, else the file name> on <volume>" with the entry's icon |
| Loaders.SubmenuShape | tags/release-0.5/refit/refit/main.c:199-311 | every submenu has the default entry first (no options, the parent's graphics flag) and the return entry last; every entry in between boots the same path, volume and device path as the parent |
| Loaders.SubmenuShowsVariants | tags/release-0.5/refit/refit/main.c:194-309 | the titles, options and graphics flags of the submenu entries are those of the kind's variants, in order, and the info lines are the kind's |
| Loaders.MacOSXSubmenu | tags/release-0.5/refit/refit/main.c:210-229 | Mac OS X: "Boot Mac OS X", then in verbose mode, then in single user mode; options none, `-v`, `-v -s`; graphics on, off, off |
| Loaders.EliloSubmenu | tags/release-0.5/refit/refit/main.c:231-273 | elilo: "Run <file name>", its interactive mode, then the 17"/15", 20" iMac and Mac Mini targets marked (*); options none, `-p`, `-d 0 i17`, `-d 0 i20`, `-d 0 mini`; graphics off, off, on, on, on; the two info lines of the note |
| Loaders.XomSubmenu | tags/release-0.5/refit/refit/main.c:275-308 | xom: "Run <file name>", "Boot Windows from Hard Disk", "Boot Windows from CD-ROM", "Run <file name> in text mode"; options none, `-s -h`, `-s -c`, `-v`; graphics on, on, on, off |
| Loaders.GenericSubmenu | tags/release-0.5/refit/refit/main.c:199-207 | any other loader: a single variant "Run <file name>", without options, in text mode |
| Scan.IsExcluded | tags/release-0.5/refit/refit/main.c:333-337 | a name the scan rejects as a helper binary (`TextMode.efi`, `ebounce.efi`, `GraphicsConsole.efi`, any case) ends in `.efi` up to case, so it is one the `*.EFI` filter lets through |
| Scan.AcceptedEntries | tags/release-0.5/refit/refit/main.c:333-337 | exactly the listed files that match `*.EFI` and are not one of the three helper binaries, in both directions |
| Scan.LoaderPathIn | tags/release-0.5/refit/refit/main.c:339-342 | every path the directory scan builds is absolute |
| Scan.BasenameOfLoaderPathIn | tags/release-0.5/refit/refit/main.c:339-343 | the file name of a built path is the listed name |
| Scan.ScanDir | tags/release-0.5/refit/refit/main.c:324-353 | one loader per accepted file, in iterator order, at `\<Path>\<name>` (or `\<name>` for the root) and without a title; the iterator's end status adds one transcript line exactly when it is an error other than `NotFound` |
| Scan.ScanDirLoop | tags/release-0.5/refit/refit/main.c:332-352 | the iterator loop computes exactly `ScanDir` |
| Scan.ScanDirNeverOffersExcluded | tags/release-0.5/refit/refit/main.c:333-337 | no loader found in a directory has the name `TextMode.efi`, `ebounce.efi` or `GraphicsConsole.efi` in any case, and every one ends in `.efi` |
| Scan.ScanDirOffersEveryAccepted | tags/release-0.5/refit/refit/main.c:333-343 | every accepted file of the scanned directory is offered |
| Scan.SubdirsNotSkipped | tags/release-0.5/refit/refit/main.c:399-409 | exactly the listed directories whose names the skip test does not reject, in both directions |
| Scan.GenericDirsSkipping | tags/release-0.5/refit/refit/main.c:391-409 | the root, `elilo` and `boot` are visited first, in that order, then the kept `\EFI` subdirectories |
| Scan.SubdirVisitedIff | tags/release-0.5/refit/refit/main.c:399-409 | `\EFI\<name>` is visited iff `\EFI` lists a directory of that name that the skip test does not reject |
| Scan.GenericDirs | tags/release-0.5/refit/refit/main.c:391-396 | the root, `elilo` and `boot` are scanned first, in that order |
| Scan.ScanDirs | tags/release-0.5/refit/refit/main.c:391-409 | everything the directory scans find comes from one of the visited directories, has no title and is an absolute path |
| Scan.ScanDirsConcat | tags/release-0.5/refit/refit/main.c:391-409 | scanning two runs of directories finds the first run's loaders then the second's, with the transcript lines in the same order |
| Scan.ScanDirsOffersEvery | tags/release-0.5/refit/refit/main.c:391-409 | every loader found in any visited directory is among the directory scan's finds |
| Scan.Probe | tags/release-0.5/refit/refit/main.c:371-389 | a fixed probe finds its path, with its fixed title, exactly when the file exists, and reports nothing |
| Scan.ScanVolume | tags/release-0.5/refit/refit/main.c:366-369 | a volume without a root directory or a name contributes nothing |
| Scan.ScanVolumeFindsProbes | tags/release-0.5/refit/refit/main.c:371-419 | on a scanned volume, `boot.efi`, `xom.efi`, `Bootmgfw.efi` and the hardware test are each found under their titles whenever they exist |
| Scan.ScanVolumeOrder | tags/release-0.5/refit/refit/main.c:366-419 | a scanned volume's finds are the Mac OS X, xom and Microsoft probes, then the generic directories, then the hardware test, and its transcript is the generic scan's followed by the `\EFI` status line |
| Scan.ProbesPrecedeGeneric | tags/release-0.5/refit/refit/main.c:371-419 | a titled find follows an untitled (generic) find on the same volume exactly when it is the hardware test: the other probes precede every generic find |
| Scan.ScanVolumeFound | tags/release-0.5/refit/refit/main.c:366-420 | everything a volume's scan finds is absolute; titled finds are the four fixed probe paths and untitled ones come from the directory scans |
| Scan.EfiSubdirScannedIff | tags/release-0.5/refit/refit/main.c:399-409 | `\EFI\<name>` is scanned iff `\EFI` lists a directory of that name that is not skipped |
| Scan.SkippedSubdirsNeverScanned | tags/release-0.5/refit/refit/main.c:401-404 | `TOOLS`, `REFIT`, `REFITL` (any case) and names starting with a dot are never scanned |
| Scan.ProbesNotExcluded | tags/release-0.5/refit/refit/main.c:371-419 | none of the four fixed probes names one of the three helper binaries |
| Scan.VolumeNeverOffersExcluded | tags/release-0.5/refit/refit/main.c:333-419 | no loader found on a volume, fixed probes included, has a denylisted file name |
| Scan.MacOSXFoundFirst | tags/release-0.5/refit/refit/main.c:371-376 | when the Mac OS X loader exists it is the first loader of its volume |
| Scan.DiagsFoundLast | tags/release-0.5/refit/refit/main.c:414-419 | when the hardware test exists it is the last loader of its volume |
| Scan.GenericScanMissesProbes | tags/release-0.5/refit/refit/main.c:391-409 | the directory scans never build one of the fixed probe paths: they build paths at most three components deep, and the probe paths are deeper |
| Scan.VolumeEntries | tags/release-0.5/refit/refit/main.c:366-420 | one entry per loader found on the volume; each sits in row 0 and boots from this volume's device under its name; there are none when the volume is skipped |
| Scan.VolumeEntryIs | tags/release-0.5/refit/refit/main.c:375-418 | entry `i` of a volume is titled "Boot <probe title, else the path without its leading backslash> from <volume name>" and boots the `i`-th loader found, addressed on this volume's device, in the graphics mode its classification gives |
| Scan.LoaderScanSkipsUnnamed | tags/release-0.5/refit/refit/main.c:366-369 | a machine whose volumes all lack a root directory or a name gets no loader entries and no transcript lines |
| Scan.LoaderScanEntries | tags/release-0.5/refit/refit/main.c:355-421 | every entry of the loader scan boots a loader on one of the volumes, and that volume has a root directory and a name |
| Scan.LoaderScanConcat | tags/release-0.5/refit/refit/main.c:366-420 | scanning two runs of volumes gives the first run's entries and transcript followed by the second's |
| Scan.LoaderScanStep | tags/release-0.5/refit/refit/main.c:366-369 | each further volume appends its entries and transcript lines, or nothing when it is skipped |
| Scan.LoaderScanLoop | tags/release-0.5/refit/refit/main.c:355-421 | the volume loop computes exactly `LoaderScan` |
| Discovery.VolumeDescription | tags/release-0.5/refit/refit/main.c:502-505 | the volume's name when it has one, otherwise "CD" for an optical medium and "HD" for any other |
| Discovery.AddLegacyEntry | tags/release-0.5/refit/refit/main.c:494-531 | the entry is titled "Boot <title, else Legacy OS> from <volume description>", boots the volume, sits in row 0 and shows the legacy icon; its submenu is titled "Boot Options for <title> on <volume description>", has that icon, a default entry "Boot <title>" booting the same volume, and the return entry |
| Discovery.LegacyScan | tags/release-0.5/refit/refit/main.c:533-546 | one entry per legacy volume, in volume order, each exactly the untitled legacy entry of that volume (title, submenu and action included) |
| Discovery.LegacyIndices | tags/release-0.5/refit/refit/main.c:540-545 | the positions of the legacy volumes: in range, strictly increasing, and every legacy volume's position is among them |
| Discovery.LegacyScanIff | tags/release-0.5/refit/refit/main.c:540-545 | a volume gets a legacy entry iff it is in the list and marked legacy |
| Discovery.NamelessLegacyDisk | tags/release-0.5/refit/refit/main.c:500-523 | a nameless non-optical volume is titled "Boot Legacy OS from HD", its submenu "Boot Options for Legacy OS on HD", and the default submenu entry "Boot Legacy OS" |
| Discovery.NamelessLegacyCd | tags/release-0.5/refit/refit/main.c:500-509 | a nameless optical volume is titled "Boot Legacy OS from CD" |
| Discovery.AddToolEntry | tags/release-0.5/refit/refit/main.c:575-590 | a tool entry sits in row 1, has no submenu, starts the tool at its path on the boot manager's own device, and its title past the first six characters is the tool's name |
| Discovery.ToolScreenTitle | tags/release-0.5/refit/refit/main.c:555 | the six characters `start_tool` skips are exactly the "Start " prefix `add_tool_entry` adds |
| Discovery.ToolScan | tags/release-0.5/refit/refit/main.c:599-616 | at most one entry; there is one iff the shell exists next to the boot manager or under `\efi\tools`; the one next to the boot manager wins; the entry is "Start EFI Shell", row 1, text mode, on the boot manager's device |
| Discovery.Discover | tags/release-0.5/refit/refit/main.c:638-648 | the main menu is titled "Main Menu", has no info lines and a 20-second "Automatic boot" timeout; the scan transcript is the loader scan's |
| Discovery.DiscoverParts | tags/release-0.5/refit/refit/main.c:638-648 | the main menu holds the loader entries, then the legacy entries, then the tool entries, then About and Restart, and nothing else |
| Discovery.MainMenuRows | tags/release-0.5/refit/refit/main.c:638-648 | every row-0 entry (operating systems) precedes every row-1 entry (tools and the fixed entries) |
| Discovery.NoExitEntry | tags/release-0.5/refit/refit/main.c:638-648 | no main-menu entry of release 0.5 carries the exit action |
| Discovery.LegacyOnlyMachine | tags/release-0.5/refit/refit/main.c:638-648 | a machine with one nameless internal legacy disk and no shell gets exactly "Boot Legacy OS from HD", About and Restart |
| Dispatch.StartLoader | tags/release-0.5/refit/refit/main.c:91-136 | the image is always loaded first; the attempt stops right after `LoadImage` iff loading fails, and then the error names the path and the volume; after a successful load a failed lookup (with options) is the one transcript line "while getting a LoadedImageProtocol handle", and otherwise there is a line "returned from loader" exactly when `StartImage` reports an error |
| Dispatch.StartLoaderUnloadsOnce | tags/release-0.5/refit/refit/main.c:129-131 | an image that was loaded is unloaded as the very last call; no unload happens at any other point, so an image that failed to load is never unloaded |
| Dispatch.StartLoaderRunsImage | tags/release-0.5/refit/refit/main.c:103-127 | `StartImage` is called iff loading succeeded and, when there are options, the loaded-image lookup also succeeded |
| Dispatch.StartLoaderPassesOptions | tags/release-0.5/refit/refit/main.c:109-121 | options are set only when there are options and both earlier calls succeeded; the string is `<file name> <options> ` and its size is that of its UCS-2 characters plus the terminator |
| Dispatch.StartLoaderSetsOptions | tags/release-0.5/refit/refit/main.c:103-131 | with options and a successful load and lookup, the calls are load, lookup, set options, start, unload |
| Dispatch.StartLoaderSteps | tags/release-0.5/refit/refit/main.c:91-136 | the straight-line code with its two `goto` exits computes exactly `StartLoader` |
| Dispatch.VerboseBootArguments | tags/release-0.5/refit/refit/main.c:109-121 | the Mac OS X verbose variant passes `boot.efi -v `, 26 bytes with the terminator |
| Dispatch.StartTool | tags/release-0.5/refit/refit/main.c:549-573 | the tool is loaded first; a failed load stops there with an error naming the path; otherwise it is started and then unloaded, and a start error is reported |
| Dispatch.ToolLikeLoader | tags/release-0.5/refit/refit/main.c:549-573 | for the same firmware answers, a tool makes the same calls as a loader without options |
| Dispatch.WriteBootOption | tags/release-0.5/refit/refit/main.c:462-476 | the write goes to `Boot` plus the option number's four hex digits, in the global-variable namespace, non-volatile with boot-service and runtime access; it holds the 0x4E-byte record, the CD one iff the medium is optical |
| Dispatch.WriteBootNext | tags/release-0.5/refit/refit/main.c:478-482 | the write goes to `BootNext` in the same namespace with the same attributes and holds two bytes that read little-endian as 0xC0DE |
| Dispatch.StartLegacy | tags/release-0.5/refit/refit/main.c:453-492 | `BootC0DE` is written first; `BootNext` is written, second, iff that write succeeded; a warm reset is issued, last, iff both writes succeeded; there is never a cold reset; exactly one transcript line on any failure or when the reset returns, none otherwise |
| Dispatch.BootNextNamesBootOption | tags/release-0.5/refit/refit/main.c:478-482 | `BootNext` holds the two bytes DE C0, which read little-endian give the `C0DE` of `BootC0DE` |
| Dispatch.LegacyWriteNamesMedium | tags/release-0.5/refit/refit/main.c:462-474 | the record written decodes to the legacy load option naming "CD" for an optical medium and "HD" otherwise |
| LegacyRecord.LE16RoundTrip | tags/release-0.5/refit/refit/main.c:479-482 | a 16-bit value written little-endian reads back unchanged |
| LegacyRecord.LE32RoundTrip | tags/release-0.5/refit/refit/main.c:428 | a 32-bit value written little-endian reads back unchanged |
| LegacyRecord.EncodeUcs2zCons | tags/release-0.5/refit/refit/main.c:428-430 | a UCS-2 string encodes as its first character, little-endian, then the rest |
| LegacyRecord.DecodeUcs2z | tags/release-0.5/refit/refit/main.c:428-430 | a decoded description consumes at least its terminator and never more than the input |
| LegacyRecord.Ucs2zRoundTrip | tags/release-0.5/refit/refit/main.c:428-430 | an encoded description decodes back to itself whatever follows it, consuming exactly its encoding |
| LegacyRecord.EncodeNode | tags/release-0.5/refit/refit/main.c:431-436 | a node's encoding is four header bytes longer than its payload |
| LegacyRecord.NodesRoundTrip | tags/release-0.5/refit/refit/main.c:431-436 | a list of nodes decodes back to itself from its encoding |
| LegacyRecord.EncodedHeader | tags/release-0.5/refit/refit/main.c:428 | the header of an encoded option holds its attributes and the length of its file path list |
| LegacyRecord.EncodedBody | tags/release-0.5/refit/refit/main.c:428-437 | after the header come the description, the nodes and the optional data, each decoding to what was encoded |
| LegacyRecord.LoadOptionRoundTrip | tags/release-0.5/refit/refit/main.c:427-438 | every well-formed load option decodes back to itself from its encoding |
| LegacyRecord.MemoryMappedBytes | tags/release-0.5/refit/refit/main.c:431-433 | the memory-mapped node encodes to rows 3-5 of the stored record |
| LegacyRecord.MemoryMappedFields | tags/release-0.5/refit/refit/main.c:431-433 | that node's payload is memory type 0x0B and the range 0xFFE00000 to 0xFFF9FFFF, little-endian |
| LegacyRecord.FirmwareFileBytes | tags/release-0.5/refit/refit/main.c:434-436 | the firmware-file node (type 4, subtype 6) encodes to its 20 stored bytes |
| LegacyRecord.EndBytes | tags/release-0.5/refit/refit/main.c:436 | the end node encodes to 7F FF 04 00 |
| LegacyRecord.LegacyNodesBytes | tags/release-0.5/refit/refit/main.c:431-436 | the three nodes fit, and their encoding is 0x18 + 0x14 + 0x04 bytes long |
| LegacyRecord.DescriptionBytes | tags/release-0.5/refit/refit/main.c:428-430 | "Mac OS X" encodes to the stored description bytes |
| LegacyRecord.MediumBytes | tags/release-0.5/refit/refit/main.c:437 | "HD" and "CD" encode to the stored optional-data bytes |
| LegacyRecord.LegacyOption | tags/release-0.5/refit/refit/main.c:424-450 | the structured legacy record is a well-formed load option for any UCS-2 medium name |
| LegacyRecord.LegacyEncoding | tags/release-0.5/refit/refit/main.c:427-438 | the legacy record encodes as header, description, the three nodes and the medium, in that order |
| LegacyRecord.RecordsDifferOnlyInMedium | tags/release-0.5/refit/refit/main.c:424-450 | both stored records are 0x4E bytes and differ at exactly one offset, 72, which holds 'H' in one and 'C' in the other |
| LegacyRecord.FilePathListLength | tags/release-0.5/refit/refit/main.c:428-436 | FilePathListLength (bytes 4-5) is 0x30, the sum of the three node lengths 0x18, 0x14 and 0x04 read from the node headers |
| LegacyRecord.StoredRecordsAreEncodings | tags/release-0.5/refit/refit/main.c:427-450 | each stored table is the encoding of the structured record naming its medium |
| LegacyRecord.SelectRecord | tags/release-0.5/refit/refit/main.c:462-469 | the selected record is 0x4E bytes, and it is the CD record iff the medium is optical |
| LegacyRecord.SelectedRecordNamesMedium | tags/release-0.5/refit/refit/main.c:462-469 | the selected record decodes to the load option naming "CD" for optical media and "HD" otherwise |
| MainLoop.EndingOf | tags/release-0.5/refit/refit/main.c:656-665 | a round leaves the loop iff it is an escape, the exit entry or the restart entry |
| MainLoop.RunRound | tags/release-0.5/refit/refit/main.c:659-683 | escape, About, Exit and the submenu return make no calls; Restart makes exactly one cold reset; a loader or tool is loaded from its device path before anything else; a legacy entry writes the boot option for its medium first |
| MainLoop.Run | tags/release-0.5/refit/refit/main.c:653-684 | the loop consumes no more rounds than given, all of them when the input runs out, and at least one when a choice ends it |
| MainLoop.RunStopsAtFirstEnding | tags/release-0.5/refit/refit/main.c:653-684 | the loop runs out of input iff no round ends it; otherwise it stops at the first round that ends it, for that round's reason |
| MainLoop.RunLoop | tags/release-0.5/refit/refit/main.c:653-684 | the `while` loop with its `break`s computes exactly `Run` |
| MainLoop.RoundNeverResetsCold | tags/release-0.5/refit/refit/main.c:659-683 | a round that does not end the loop never resets the machine cold |
| MainLoop.ColdResetIffResetChosen | tags/release-0.5/refit/refit/main.c:661-665 | a session resets cold iff it ended by the restart entry |
| MainLoop.RunConcat | tags/release-0.5/refit/refit/main.c:653-684 | rounds that do not end the loop are followed by the rest of the session unchanged |
| MainLoop.StoppingRound | tags/release-0.5/refit/refit/main.c:656-665 | a round that ends the loop ends it at once, whatever would have followed |
| MainLoop.NoExitInRelease | tags/release-0.5/refit/refit/main.c:644-657 | a session that only picks entries of the release main menu never ends by an exit entry |
| MainLoop.LoaderCounts | tags/release-0.5/refit/refit/main.c:103-131 | starting a loader loads one image and unloads at most one |
| MainLoop.ToolCounts | tags/release-0.5/refit/refit/main.c:558-570 | starting a tool loads one image and unloads at most one |
| MainLoop.LegacyCounts | tags/release-0.5/refit/refit/main.c:453-492 | a legacy boot loads and unloads no image |
| MainLoop.RoundUnloadsWhatItLoads | tags/release-0.5/refit/refit/main.c:659-683 | in every round, at most one image is loaded, and no more are unloaded than loaded |
| MainLoop.SessionUnloadsWhatItLoads | tags/release-0.5/refit/refit/main.c:653-684 | over a whole session no more images are unloaded than loaded, and at most one is loaded per round |
| Trunk.Decrement | trunk/refit/refit/main.c:142 | `i--` on a UINTN of either width (32 bits on IA32, 64 on x64) subtracts one from a positive index and wraps 0 to the largest UINTN |
| Trunk.StartIndex | trunk/refit/refit/main.c:142 | `StrLen(LoaderPath) - 1` is the UINTN one below the length, modulo the width, so the largest UINTN for the empty path |
| Trunk.IndexAfter | trunk/refit/refit/main.c:142-147 | every index the file-name loop reads is a UINTN, so the guard `i >= 0` never fails |
| Trunk.FileNameLoopOverruns | trunk/refit/refit/main.c:141-147 | on `boot.efi` the loop reads every character without finding a backslash, then wraps to the largest UINTN, whose CHAR16 address is the one just before the string (the code as written) |
| Trunk.IndexAfterWraps | trunk/refit/refit/main.c:142-147 | after reading a backslash-free path to index 0, round `|path| + j` reads index `2^width - 1 - j`: the count continues down from the largest UINTN |
| Trunk.RunawayReadsBackwards | trunk/refit/refit/main.c:142-147 | round `|path| + j` reads the character `j + 1` places before the start of the string, so the runaway loop walks backwards through the memory that precedes the buffer |
| Trunk.EmptyPathStartsOutside | trunk/refit/refit/main.c:142 | on the empty path the first index read is already the largest UINTN |
| Trunk.FileNameLoop | trunk/refit/refit/main.c:141-147 | with the loop stopping below index 0, the file name is the part after the last backslash, and the whole path when it has none (the corrected loop) |
| Trunk.Classify | trunk/refit/refit/main.c:160-171 | the Mac OS X image exactly for the Mac OS X path up to case, the Linux image exactly for `e.efi`/`elilo.efi` elsewhere, and the Windows image only for `Bootmgfw.efi` or `xom.efi`; the elilo kind only for the two elilo names (the trunk keeps no kind; it is there for comparison with release 0.5) |
| Trunk.GraphicsAgreesWithRelease | trunk/refit/refit/main.c:160-171 | graphics mode is on iff the path matches the Mac OS X path up to case or the file name is `xom.efi`; kind and graphics flag agree with release 0.5 for every path |
| Trunk.UnknownImage | trunk/refit/refit/main.c:154-171 | a file other than the Mac OS X loader, elilo, `Bootmgfw.efi` and `xom.efi` keeps the unknown image and text mode |
| Trunk.AddLoaderEntry | trunk/refit/refit/main.c:133-174 | a row-0 entry booting the given path on the given volume, without options and without a submenu, showing the classification's image |
| Trunk.EntryAgreesWithRelease | trunk/refit/refit/main.c:149-158 | title, row and boot action are those of release 0.5, except that the xom entry has no options |
| Trunk.EfiSubdirScannedIff | trunk/refit/refit/main.c:286-297 | `\EFI\<name>` is scanned iff `\EFI` lists a directory of that name other than `TOOLS`, `REFIT` or `REFITL` (any case) |
| Trunk.SkipListNarrower | trunk/refit/refit/main.c:288-292 | every `\EFI` subdirectory the release scans, the trunk scans too; a directory whose name starts with a dot is scanned by the trunk only |
| Trunk.VolumeName | trunk/refit/refit/main.c:248-257 | the volume label when the info query succeeds, otherwise "Unnamed Volume" |
| Trunk.ScanHandle | trunk/refit/refit/main.c:259-297 | the Mac OS X loader, when present, is the handle's first find; each of the three fixed loaders that exists is found |
| Trunk.ScanHandleOrder | trunk/refit/refit/main.c:259-300 | a handle's finds are the Mac OS X, xom and Microsoft probes, then the root, `elilo`, `boot` and kept `\EFI` subdirectory scans in that order; its transcript is the directory scans' followed by the `\EFI` status line |
| Trunk.ScanHandleFound | trunk/refit/refit/main.c:259-297 | everything a handle's scan finds is absolute, titled finds are the three probe paths, and untitled finds come from the directory scans |
| Trunk.HandleNeverOffersExcluded | trunk/refit/refit/main.c:193-203 | no find on a handle, probes included, is one of the three denylisted helpers: the same name test and `\<Path>\<name>` construction apply as in release 0.5 |
| Trunk.HandleEntries | trunk/refit/refit/main.c:238-304 | a handle whose root cannot be opened contributes nothing; otherwise one row-0 entry per find, without submenu, on this device and under this volume name |
| Trunk.HandleEntryIs | trunk/refit/refit/main.c:238-304 | entry `i` of a handle boots find `i` under "Boot <probe title or path without its leading backslash> from <volume name>", on the handle's device, with the classification's image and graphics mode |
| Trunk.ScanHandles | trunk/refit/refit/main.c:238-304 | every entry comes from one of the handles |
| Trunk.ScanHandlesConcat | trunk/refit/refit/main.c:238-304 | scanning two runs of handles gives the first run's entries and transcript followed by the second's |
| Trunk.ScanHandlesIncludeEvery | trunk/refit/refit/main.c:238-304 | every entry a handle contributes is among the entries of the handle loop |
| Trunk.LoaderScan | trunk/refit/refit/main.c:215-307 | no file systems (`NotFound`) ends the scan quietly; any other listing error yields one transcript line and no entries; otherwise every entry comes from a handle whose root could be opened |
| Trunk.LoaderScanIncludesEvery | trunk/refit/refit/main.c:215-307 | after a successful listing, every entry of every handle appears in the scan |
| Trunk.LoaderScanHandleOrder | trunk/refit/refit/main.c:215-307 | after a successful listing, entries and transcript lines come in handle order |
| Trunk.BaseDirectory | trunk/refit/refit/main.c:378-386 | the base directory is a proper prefix of the image path, cut at its last backslash; it is empty when no backslash follows the first character |
| Trunk.BaseDirectoryJoin | trunk/refit/refit/main.c:383-384 | a non-empty base directory, a backslash and the file name make up the path |
| Trunk.TruncateAtLastBackslash | trunk/refit/refit/main.c:383-384 | the scan back from the terminator computes exactly `BaseDirectory` |
| Trunk.BaseDirectoryUnique | trunk/refit/refit/main.c:383-384 | those properties pin the base directory down |
| Trunk.ToolScan | trunk/refit/refit/main.c:359-396 | at most one entry; there is one iff the root opens and `<base>\apps\shell.efi` exists; it is "Start EFI Shell" in row 1, in text mode, on the boot manager's device |
| Trunk.ShellAgreesWithRelease | trunk/refit/refit/main.c:388-392 | the trunk shell entry has the title, action and row of the release's primary shell entry for the same base directory |
| TrunkLoop.StartLoader | trunk/refit/refit/main.c:110-131 | the image is loaded first; a failed load stops there with an error naming path and volume; otherwise it is started, the start status is ignored, and nothing is unloaded |
| TrunkLoop.StartTool | trunk/refit/refit/main.c:310-332 | the same gated load and start for a tool, with the error naming the path |
| TrunkLoop.ReleaseAddsUnload | trunk/refit/refit/main.c:126-130 | release 0.5 makes the trunk's calls and then unloads the image; the trunk never unloads |
| TrunkLoop.MainMenu | trunk/refit/refit/main.c:423-430 | the main menu is titled "rEFIt - Main Menu" with a 20-second "Automatic boot" timeout, and ends with About, Exit and Restart |
| TrunkLoop.MainMenuParts | trunk/refit/refit/main.c:423-430 | the menu's entries are exactly the loader scan's, then the shell if found, then About, Exit and Restart |
| TrunkLoop.MainMenuOffersLoaders | trunk/refit/refit/main.c:423-430 | after a successful handle listing, every entry of every handle is offered in the main menu |
| TrunkLoop.MainMenuOffersShell | trunk/refit/refit/main.c:423-430 | a shell found next to the boot manager is offered right after the loader entries, as "Start EFI Shell" |
| TrunkLoop.MainMenuRows | trunk/refit/refit/main.c:423-430 | loader entries (row 0) come before the shell and the fixed entries (row 1) |
| TrunkLoop.ExitOffered | trunk/refit/refit/main.c:428-439 | the trunk main menu offers the exit entry, and choosing it ends the loop |
| TrunkLoop.RunRound | trunk/refit/refit/main.c:441-461 | escape, About, Exit, the submenu return and (with no legacy case) a legacy entry make no calls; Restart makes exactly one cold reset; a loader or tool is loaded from its device path first and started iff loading succeeded |
| TrunkLoop.Run | trunk/refit/refit/main.c:435-464 | the menu is presented at most once per round, and once per round when the input runs out |
| TrunkLoop.TimeoutOneShot | trunk/refit/refit/main.c:435-463 | the first presentation runs with the menu's timeout, and every later one with 0 |
| TrunkLoop.RunStopsAtFirstEnding | trunk/refit/refit/main.c:435-464 | the loop runs out of input iff no round ends it; otherwise it stops at the first round that does |
| TrunkLoop.TrunkNeverUnloads | trunk/refit/refit/main.c:435-464 | a trunk session never unloads an image and never resets warm |
| TrunkLoop.RunLoop | trunk/refit/refit/main.c:435-464 | the loop that clears the timeout after each round computes exactly `Run` from the 20-second timeout |

## Notes on the code

- The two stored legacy records differ in exactly one byte, offset 72, the 'H' or 'C'
  of the medium name; their final two bytes are the terminator and are the same in both
  (`LegacyRecord.RecordsDifferOnlyInMedium`).
- Every submenu starts with a plain default variant without options. For elilo, the
  interactive variant (`-p`) is the second entry. The info lines are a separate field
  of the screen, not entries between the variants and the return entry.
- The xom parent entry gets `-s -h` once, at line 277. The default submenu entry
  copies the graphics flag but not the options, so it runs xom without options.
- The main menu of release 0.5 has no exit entry, and its `RefitMain` never clears the
  timeout. The exit entry and the one-shot timeout belong to the trunk snapshot
  (`TrunkLoop`).
- The fixed probes and the generic directory scans never yield the same path: the
  generic scan builds paths at most three components deep, and every probe path is four
  or five deep (`Scan.GenericScanMissesProbes`).

## Left out

- Screen and text output is not modelled: `BeginExternalScreen`, `Print`, the about
  screen and `FinishTextScreen`. `About` dispatches to no firmware call.
- Menu presentation is not modelled. `RunMainMenu`/`MenuRun` and the menu library are
  not part of this model. Each round of the loop starts from the choice the menu handed
  back.
- MainLoop.Run: release 0.5 passes the main menu's timeout to `RunMainMenu`, which is
  not part of this model. So the release loop carries no timeout. The one-shot timeout
  is modelled for the trunk, whose loop clears the field itself (`TrunkLoop.TimeoutOneShot`).
- A firmware call that does not return ends the session by supplying no further rounds.
  Examples are an operating system that takes over and a reset that succeeds.
- Icons are not modelled: custom `.icns` icons (`ReplaceExtension`, `LoadIcns`) and
  volume badges. Loaders.AddLoaderEntry: the icon is always the built-in fallback. The
  custom icon found next to the loader (lines 159-165) is not modelled, because icon
  decoding is not part of this model.
- Trunk.Classify: the Mac OS X image is the icon loaded at start-up from
  `\efi\refit\Internal.icns`, named here and not loaded.
- Volume enumeration is not modelled. `ScanVolumes` and the library's `Basename` are not
  part of this model:
  - each volume record (root directory, name, disk kind, legacy flag) is an input;
  - `Basename` is modelled as the part after the last backslash.
- Comparisons up to case (`StriCmp`) fold ASCII letters only. The firmware's collation
  is not part of this model.
- The `*.EFI` filter of the directory iterator is modelled as a case-insensitive
  `.efi` suffix on a non-directory entry. `FileExists` is modelled as exact membership
  in the set of existing paths.
- The 255-character limit of the `SPrint` buffers is not modelled, and strings are
  unbounded. A path longer than the buffer would be cut short in the original.
- Memory management is not modelled: allocation, `FreePool`, `free_loader_entry`,
  `free_tool_entry` and closing root directories. Release 0.5 frees the volume name it
  borrowed from the volume record (lines 155 and 320), and heap ownership is outside
  this model.
- Start-up is not modelled: `InitializeLib`, `InitScreen`, `InitRefitLib`, the watchdog,
  and the trunk's `HandleProtocol` on its own image. This is firmware bring-up.
- Trunk.FileNameLoop: the trunk entry takes the file name from `Basename`. The corrected
  loop is proved to compute that same file name.
- Trunk.LoaderScan: a handle whose root cannot be opened prints a line but reports no
  transcript line, as in the code. The info query's failure is only the
  "Unnamed Volume" fallback.
- Dispatch.StartLoader: the function's own contract covers the load step and the
  transcript. The calls after a successful load are stated by `StartLoaderUnloadsOnce`,
  `StartLoaderRunsImage`, `StartLoaderPassesOptions` and `StartLoaderSetsOptions`.

## Findings

| source | as written | input that shows it | evidently intended | confidence | as-written member | corrected member |
|---|---|---|---|---|---|---|
| trunk/refit/refit/main.c:142-147 | the file-name loop counts a UINTN down with the guard `i >= 0`, which always holds, so a path without a backslash walks past index 0 and wraps to the largest UINTN (2^32 - 1 on IA32, 2^64 - 1 on x64); that index addresses the character just before the string, and the loop keeps walking backwards through the memory preceding the buffer until it meets a backslash | the path `boot.efi` (any path without a backslash, or the empty path) | stop after index 0 and take the whole path as the file name | not executed; latent, because every caller in the file passes a path that starts with a backslash | Trunk.FileNameLoopOverruns | Trunk.FileNameLoop |

=== FILE: discovery.dfy ===
/**
  * The rest of discovery in release 0.5 and the main menu it builds:
  * `add_legacy_entry` and `legacy_scan` (one entry per volume the enumerator
  * marked legacy-bootable), `add_tool_entry` and `tool_scan` (the EFI shell),
  * and the fixed order in which `RefitMain` fills the main menu.
  */
module Discovery {
  import opened Wrappers
  import opened Firmware
  import opened Menu
  import opened Scan

  // ---------------------------------------------------------------------------
  // Legacy volumes

  /** `VolDesc`: the volume name, or "CD"/"HD" by media kind when it has none. */
  function VolumeDescription(v: Volume): (d: string)
    ensures v.volName.Some? ==> d == v.volName.value
    ensures v.volName.None? ==> (d == "CD" <==> v.diskKind == Optical)
    ensures v.volName.None? ==> d in {"CD", "HD"}
  {
    if v.volName.Some? then v.volName.value
    else if v.diskKind == Optical then "CD" else "HD"
  }

  /** `add_legacy_entry(LoaderTitle, Volume)`: the entry and its two-line submenu
      both boot the volume itself; the titles name the loader (or "Legacy OS")
      and the volume's description. */
  function AddLegacyEntry(loaderTitle: Option<string>, v: Volume): (e: MenuEntry)
    ensures e.title == "Boot " + loaderTitle.GetOr("Legacy OS") + " from " + VolumeDescription(v)
    ensures e.action == Legacy(v) && e.row == 0 && e.icon == BuiltinIcon(12)
    ensures e.submenu.Some?
    ensures var sub := e.submenu.value;
      && sub.title == "Boot Options for " + loaderTitle.GetOr("Legacy OS") + " on " + VolumeDescription(v)
      && sub.titleImage == e.icon
      && |sub.entries| == 2
      && sub.entries[0].title == "Boot " + loaderTitle.GetOr("Legacy OS")
      && sub.entries[0].action == e.action
      && sub.entries[1] == ReturnEntry
  {
    var title := loaderTitle.GetOr("Legacy OS");
    var desc := VolumeDescription(v);
    var def := MenuEntry("Boot " + title, Legacy(v), 0, NoIcon, None);
    var sub := MenuScreen("Boot Options for " + title + " on " + desc, BuiltinIcon(12), [],
                          [def, ReturnEntry], 0, None);
    MenuEntry("Boot " + title + " from " + desc, Legacy(v), 0, BuiltinIcon(12), Some(sub))
  }

  /** The positions of the legacy volumes in the enumeration, in increasing
      order and each exactly once. */
  function LegacyIndices(vols: seq<Volume>): (idx: seq<nat>)
    ensures forall k :: 0 <= k < |idx| ==> idx[k] < |vols| && vols[idx[k]].isLegacy
    ensures forall k, l :: 0 <= k < l < |idx| ==> idx[k] < idx[l]
    ensures forall i :: 0 <= i < |vols| && vols[i].isLegacy ==> i in idx
  {
    if |vols| == 0 then []
    else
      var init := vols[..|vols| - 1];
      var last := vols[|vols| - 1];
      LegacyIndices(init) + (if last.isLegacy then [|vols| - 1] else [])
  }

  /** The entries `legacy_scan` adds for `vols`: one per legacy volume, in
      enumeration order, each the entry of that volume without a loader title. */
  ghost predicate ListsLegacyVolumes(vols: seq<Volume>, es: seq<MenuEntry>) {
    var idx := LegacyIndices(vols);
    && |es| == |idx|
    && forall k :: 0 <= k < |es| ==> es[k] == AddLegacyEntry(None, vols[idx[k]])
  }

  /** `legacy_scan`: one entry per legacy volume, in enumeration order, each the
      one `add_legacy_entry` builds for the volume without a loader title. */
  function LegacyScan(vols: seq<Volume>): (es: seq<MenuEntry>)
    ensures ListsLegacyVolumes(vols, es)
    ensures forall e :: e in es ==>
      e == AddLegacyEntry(None, e.action.volume) && e.action.volume in vols && e.action.volume.isLegacy
  {
    if |vols| == 0 then []
    else
      var init := vols[..|vols| - 1];
      var last := vols[|vols| - 1];
      var es := LegacyScan(init) + (if last.isLegacy then [AddLegacyEntry(None, last)] else []);
      LegacyScanStep(vols, LegacyScan(init));
      ListedLegacyEntries(vols, es);
      es
  }

  lemma LegacyScanStep(vols: seq<Volume>, rest: seq<MenuEntry>)
    requires |vols| > 0
    requires ListsLegacyVolumes(vols[..|vols| - 1], rest)
    ensures var last := vols[|vols| - 1];
      var es := rest + (if last.isLegacy then [AddLegacyEntry(None, last)] else []);
      ListsLegacyVolumes(vols, es)
  {
    var init := vols[..|vols| - 1];
    var last := vols[|vols| - 1];
    var es := rest + (if last.isLegacy then [AddLegacyEntry(None, last)] else []);
    var idx0 := LegacyIndices(init);
    var idx := LegacyIndices(vols);
    assert idx == idx0 + (if last.isLegacy then [|vols| - 1] else []);
    forall k | 0 <= k < |es|
      ensures es[k] == AddLegacyEntry(None, vols[idx[k]])
    {
      if k < |rest| {
        assert vols[idx0[k]] == init[idx0[k]];
      }
    }
  }

  /** Every entry of such a list is the entry of a legacy volume of the enumeration. */
  lemma ListedLegacyEntries(vols: seq<Volume>, es: seq<MenuEntry>)
    requires ListsLegacyVolumes(vols, es)
    ensures forall e :: e in es ==>
      e == AddLegacyEntry(None, e.action.volume) && e.action.volume in vols && e.action.volume.isLegacy
  {
    var idx := LegacyIndices(vols);
    forall e | e in es
      ensures e == AddLegacyEntry(None, e.action.volume) && e.action.volume in vols && e.action.volume.isLegacy
    {
      var k :| 0 <= k < |es| && es[k] == e;
      var v := vols[idx[k]];
      assert e == AddLegacyEntry(None, v);
      assert e.action.volume == v;
    }
  }

  /** A volume gets a legacy entry exactly when it is in the list and marked legacy. */
  lemma {:induction false} LegacyScanIff(vols: seq<Volume>, v: Volume)
    ensures AddLegacyEntry(None, v) in LegacyScan(vols) <==> v in vols && v.isLegacy
  {
    if |vols| > 0 {
      var init := vols[..|vols| - 1];
      var last := vols[|vols| - 1];
      assert vols == init + [last];
      LegacyScanIff(init, v);
      if AddLegacyEntry(None, v) in LegacyScan(vols) {
        assert AddLegacyEntry(None, v).action == Legacy(v);
      }
    }
  }

  /** The entry for a volume the enumerator left nameless. */
  lemma NamelessLegacyDisk(v: Volume)
    requires v.volName.None? && v.diskKind != Optical
    ensures AddLegacyEntry(None, v).title == "Boot Legacy OS from HD"
    ensures AddLegacyEntry(None, v).submenu.value.title == "Boot Options for Legacy OS on HD"
    ensures AddLegacyEntry(None, v).submenu.value.entries[0].title == "Boot Legacy OS"
  {
  }

  lemma NamelessLegacyCd(v: Volume)
    requires v.volName.None? && v.diskKind == Optical
    ensures AddLegacyEntry(None, v).title == "Boot Legacy OS from CD"
  {
  }

  // ---------------------------------------------------------------------------
  // Tools

  /** What the running image knows about itself: the device it was loaded from,
      the directory of its own binary and the file system of that device. */
  datatype SelfImage = SelfImage(device: DeviceHandle, dirPath: string, rootFs: FileSystem)

  /** `add_tool_entry`: a row-1 entry addressed on the boot manager's own device. */
  function AddToolEntry(toolPath: string, title: string, icon: Icon, useGraphicsMode: bool,
                        device: DeviceHandle): (e: MenuEntry)
    ensures e.row == 1 && e.icon == icon && e.submenu.None?
    ensures e.action == Tool(toolPath, FileDevicePath(device, toolPath), useGraphicsMode)
    ensures |e.title| >= 6 && e.title[6..] == title
  {
    MenuEntry("Start " + title, Tool(toolPath, FileDevicePath(device, toolPath), useGraphicsMode),
              1, icon, None)
  }

  /** `start_tool` titles its screen with the entry title past its first six
      characters; for entries built by `add_tool_entry` that is the tool's name. */
  lemma ToolScreenTitle(toolPath: string, title: string, icon: Icon, g: bool, device: DeviceHandle)
    ensures AddToolEntry(toolPath, title, icon, g, device).title
      == "Start " + AddToolEntry(toolPath, title, icon, g, device).title[6..]
  {
  }

  function PrimaryShellPath(self: SelfImage): string {
    self.dirPath + "\\apps\\shell.efi"
  }

  const FallbackShellPath: string := "\\efi\\tools\\shell.efi"

  /** `tool_scan`: the shell next to the boot manager, else the one in `\efi\tools`. */
  function ToolScan(self: SelfImage): (es: seq<MenuEntry>)
    ensures |es| <= 1
    ensures |es| == 1 <==>
      PrimaryShellPath(self) in self.rootFs.files || FallbackShellPath in self.rootFs.files
    ensures |es| == 1 ==>
      && es[0].title == "Start EFI Shell" && es[0].row == 1 && es[0].icon == BuiltinIcon(7)
      && es[0].action.Tool? && !es[0].action.useGraphicsMode
      && es[0].action.devicePath.device == self.device
      && es[0].action.toolPath ==
           if PrimaryShellPath(self) in self.rootFs.files then PrimaryShellPath(self)
           else FallbackShellPath
  {
    var primary := PrimaryShellPath(self);
    if primary in self.rootFs.files then
      [AddToolEntry(primary, "EFI Shell", BuiltinIcon(7), false, self.device)]
    else if FallbackShellPath in self.rootFs.files then
      [AddToolEntry(FallbackShellPath, "EFI Shell", BuiltinIcon(7), false, self.device)]
    else []
  }

  // ---------------------------------------------------------------------------
  // The main menu

  /** `main_menu` after `RefitMain` has filled it, and the transcript of the scans. */
  datatype Boot = Boot(mainMenu: MenuScreen, errors: seq<ErrorReport>)

  /** Loaders, legacy volumes, tools, then About and Restart, in that order. */
  function Discover(vols: seq<Volume>, self: SelfImage): (b: Boot)
    ensures b.mainMenu.title == "Main Menu" && b.mainMenu.titleImage == NoIcon
    ensures b.mainMenu.infoLines == []
    ensures b.mainMenu.timeoutSeconds == 20 && b.mainMenu.timeoutText == Some("Automatic boot")
    ensures b.errors == LoaderScan(vols).errors
  {
    var loaders := LoaderScan(vols);
    var entries := loaders.entries + LegacyScan(vols) + ToolScan(self) + [AboutEntry, ResetEntry];
    Boot(MenuScreen("Main Menu", NoIcon, [], entries, 20, Some("Automatic boot")), loaders.errors)
  }

  lemma FourParts<T>(s: seq<T>, a: seq<T>, b: seq<T>, c: seq<T>, d: seq<T>)
    requires s == a + b + c + d
    ensures |s| == |a| + |b| + |c| + |d|
    ensures s[..|a|] == a && s[|a|..|a| + |b|] == b
    ensures s[|a| + |b|..|a| + |b| + |c|] == c && s[|a| + |b| + |c|..] == d
  {
  }

  lemma DiscoverEntries(vols: seq<Volume>, self: SelfImage)
    ensures Discover(vols, self).mainMenu.entries
      == LoaderScan(vols).entries + LegacyScan(vols) + ToolScan(self) + [AboutEntry, ResetEntry]
  {
  }

  /** The main menu's entries split into the parts that fill it. */
  lemma DiscoverParts(vols: seq<Volume>, self: SelfImage)
    ensures var es := Discover(vols, self).mainMenu.entries;
      var nl, ng, nt := |LoaderScan(vols).entries|, |LegacyScan(vols)|, |ToolScan(self)|;
      && |es| == nl + ng + nt + 2
      && es[..nl] == LoaderScan(vols).entries
      && es[nl..nl + ng] == LegacyScan(vols)
      && es[nl + ng..nl + ng + nt] == ToolScan(self)
      && es[nl + ng + nt..] == [AboutEntry, ResetEntry]
  {
    DiscoverEntries(vols, self);
    MenuParts(Discover(vols, self).mainMenu.entries, LoaderScan(vols).entries, LegacyScan(vols), ToolScan(self));
  }

  lemma MenuParts(es: seq<MenuEntry>, l: seq<MenuEntry>, g: seq<MenuEntry>, t: seq<MenuEntry>)
    requires es == l + g + t + [AboutEntry, ResetEntry]
    ensures var nl, ng, nt := |l|, |g|, |t|;
      && |es| == nl + ng + nt + 2
      && es[..nl] == l
      && es[nl..nl + ng] == g
      && es[nl + ng..nl + ng + nt] == t
      && es[nl + ng + nt..] == [AboutEntry, ResetEntry]
  {
    FourParts(es, l, g, t, [AboutEntry, ResetEntry]);
  }

  /** No entry sits in an earlier row than one before it. */
  predicate InRowOrder(es: seq<MenuEntry>) {
    forall i, j :: 0 <= i <= j < |es| ==> es[i].row <= es[j].row
  }

  /** Entries of row 0 followed by entries of row 1 are ordered by row. */
  lemma RowsOfParts(zero: seq<MenuEntry>, one: seq<MenuEntry>)
    requires forall e :: e in zero ==> e.row == 0
    requires forall e :: e in one ==> e.row == 1
    ensures InRowOrder(zero + one)
  {
    forall i, j | 0 <= i <= j < |zero + one|
      ensures (zero + one)[i].row <= (zero + one)[j].row
    {
      if j < |zero| {
        assert zero[i] in zero && zero[j] in zero;
      } else if i < |zero| {
        assert zero[i] in zero && one[j - |zero|] in one;
      } else {
        assert one[i - |zero|] in one && one[j - |zero|] in one;
      }
    }
  }

  /** Row 0 (operating systems) comes entirely before row 1 (tools and the
      fixed entries). */
  lemma MainMenuRows(vols: seq<Volume>, self: SelfImage)
    ensures InRowOrder(Discover(vols, self).mainMenu.entries)
  {
    var l, g, t := LoaderScan(vols).entries, LegacyScan(vols), ToolScan(self);
    forall e | e in l ensures e.row == 0 {
      LoaderScanEntries(vols, e);
    }
    assert forall e :: e in t ==> e.row == 1 by {
      if |t| == 1 { assert t == [t[0]]; }
    }
    RowsOfFour(l, g, t, [AboutEntry, ResetEntry]);
  }

  lemma RowsOfFour(l: seq<MenuEntry>, g: seq<MenuEntry>, t: seq<MenuEntry>, fixed: seq<MenuEntry>)
    requires forall e :: e in l ==> e.row == 0
    requires forall e :: e in g ==> e.row == 0
    requires forall e :: e in t ==> e.row == 1
    requires forall e :: e in fixed ==> e.row == 1
    ensures InRowOrder(l + g + t + fixed)
  {
    assert forall e :: e in l + g ==> e.row == 0;
    assert forall e :: e in t + fixed ==> e.row == 1;
    RowsOfParts(l + g, t + fixed);
    assert l + g + t + fixed == (l + g) + (t + fixed);
  }

  /** Release 0.5 offers no way back to the firmware's boot manager: no entry of
      the main menu carries the exit action. */
  lemma NoExitEntry(vols: seq<Volume>, self: SelfImage, e: MenuEntry)
    requires e in Discover(vols, self).mainMenu.entries
    ensures !e.action.Exit?
  {
    var l, g, t := LoaderScan(vols).entries, LegacyScan(vols), ToolScan(self);
    assert Discover(vols, self).mainMenu.entries == l + g + t + [AboutEntry, ResetEntry];
    if e in l { LoaderScanEntries(vols, e); }
  }

  /** One nameless internal legacy disk and nothing else: the main menu offers
      that disk, then About and Restart. */
  lemma LegacyOnlyMachine(v: Volume, self: SelfImage)
    requires !v.hasRootDir && v.volName.None? && v.isLegacy && v.diskKind == Internal
    requires self.rootFs.files == {}
    ensures var es := Discover([v], self).mainMenu.entries;
      && |es| == 3
      && es[0].title == "Boot Legacy OS from HD" && es[0].action == Legacy(v)
      && es[1] == AboutEntry && es[2] == ResetEntry
  {
    var ds := EachVolume(VolumeDiscovered, [v]);
    assert ds == [VolumeDiscovered(v)];
    assert Flatten(ds) == Discovered([] + VolumeEntries(v), [] + ScanVolume(v).errors);
    assert LoaderScan([v]).entries == [];
    assert [v][..0] == [];
    assert LegacyScan([v]) == [AddLegacyEntry(None, v)];
    NamelessLegacyDisk(v);
  }
}

=== FILE: dispatch.dfy ===
/**
  * Dispatch in release 0.5: `start_loader`, `start_tool` and `start_legacy`.
  * Each is a short gated sequence of firmware calls. The firmware's answers
  * are parameters; what the boot manager does is recorded as the list of
  * calls it makes and the transcript lines it reports.
  */
module Dispatch {
  import opened Wrappers
  import opened Text
  import opened Firmware
  import opened LegacyRecord

  /** The calls made, in order, and the transcript lines reported. */
  datatype Outcome = Outcome(trace: seq<FwCall>, errors: seq<ErrorReport>)

  // ---------------------------------------------------------------------------
  // start_loader

  /** What the firmware answers to the calls `start_loader` may make. */
  datatype LoaderReplies = LoaderReplies(load: Status, loadedImage: Status, start: Status)

  /** The argument string handed to a loader: its own file name, the options,
      and a trailing space. */
  function FullLoadOptions(loaderPath: string, options: string): string {
    Basename(loaderPath) + " " + options + " "
  }

  /** LoadOptionsSize: the string's UCS-2 size including its terminator. */
  function LoadOptionsSize(full: string): nat {
    (|full| + 1) * 2
  }

  function StartLoader(loaderPath: string, volName: string, dp: DevicePath,
                       loadOptions: Option<string>, r: LoaderReplies): (o: Outcome)
    // the image is always loaded first, and a failed load ends the attempt
    ensures |o.trace| >= 1 && o.trace[0] == LoadImage(dp)
    ensures IsError(r.load) <==> o.trace == [LoadImage(dp)]
    ensures IsError(r.load) ==> o.errors == [ErrorReport(r.load, "while loading " + loaderPath + " on " + volName)]
    // after a successful load: a failed lookup is reported, otherwise a start error is
    ensures !IsError(r.load) && loadOptions.Some? && IsError(r.loadedImage) ==>
      o.errors == [ErrorReport(r.loadedImage, "while getting a LoadedImageProtocol handle")]
    ensures !IsError(r.load) && (loadOptions.None? || !IsError(r.loadedImage)) ==>
      (o.errors == [] <==> !IsError(r.start))
      && (IsError(r.start) ==> o.errors == [ErrorReport(r.start, "returned from loader")])
  {
    if IsError(r.load) then
      Outcome([LoadImage(dp)], CheckError(r.load, "while loading " + loaderPath + " on " + volName))
    else if loadOptions.Some? && IsError(r.loadedImage) then
      Outcome([LoadImage(dp), GetLoadedImage, UnloadImage],
              CheckError(r.loadedImage, "while getting a LoadedImageProtocol handle"))
    else
      var setup := if loadOptions.None? then [] else
        var full := FullLoadOptions(loaderPath, loadOptions.value);
        [GetLoadedImage, SetLoadOptions(full, LoadOptionsSize(full))];
      Outcome([LoadImage(dp)] + setup + [StartImage, UnloadImage],
              CheckError(r.start, "returned from loader"))
  }

  /** A loaded image is unloaded exactly once, as the last call; an image that
      failed to load is never unloaded. */
  lemma StartLoaderUnloadsOnce(loaderPath: string, volName: string, dp: DevicePath,
                               loadOptions: Option<string>, r: LoaderReplies)
    ensures var t := StartLoader(loaderPath, volName, dp, loadOptions, r).trace;
      && (!IsError(r.load) ==> t[|t| - 1] == UnloadImage)
      && UnloadImage !in t[..|t| - 1]
  {
    var t := StartLoader(loaderPath, volName, dp, loadOptions, r).trace;
    if IsError(r.load) {
    } else if loadOptions.Some? && IsError(r.loadedImage) {
      assert t[..|t| - 1] == [LoadImage(dp), GetLoadedImage];
    } else {
      var setup := t[1..|t| - 2];
      assert t == [LoadImage(dp)] + setup + [StartImage, UnloadImage];
      assert t[..|t| - 1] == [LoadImage(dp)] + setup + [StartImage];
      assert UnloadImage !in setup;
    }
  }

  /** The loader runs unless loading or, with options, the protocol lookup failed. */
  lemma StartLoaderRunsImage(loaderPath: string, volName: string, dp: DevicePath,
                             loadOptions: Option<string>, r: LoaderReplies)
    ensures StartImage in StartLoader(loaderPath, volName, dp, loadOptions, r).trace <==>
      !IsError(r.load) && (loadOptions.None? || !IsError(r.loadedImage))
  {
  }

  /** Options reach the loader, and only then, as `<file name> <options> ` with
      the UCS-2 size of that string and its terminator. */
  lemma StartLoaderPassesOptions(loaderPath: string, volName: string, dp: DevicePath,
                                 loadOptions: Option<string>, r: LoaderReplies, c: FwCall)
    requires c in StartLoader(loaderPath, volName, dp, loadOptions, r).trace && c.SetLoadOptions?
    ensures loadOptions.Some? && !IsError(r.load) && !IsError(r.loadedImage)
    ensures c.options == FullLoadOptions(loaderPath, loadOptions.value)
    ensures c.sizeInBytes == LoadOptionsSize(c.options)
  {
    var t := StartLoader(loaderPath, volName, dp, loadOptions, r).trace;
    if !IsError(r.load) && loadOptions.Some? && !IsError(r.loadedImage) {
      var full := FullLoadOptions(loaderPath, loadOptions.value);
      StartLoaderSetsOptions(loaderPath, volName, dp, loadOptions.value, r);
      assert c == SetLoadOptions(full, LoadOptionsSize(full));
    }
  }

  lemma StartLoaderSetsOptions(loaderPath: string, volName: string, dp: DevicePath,
                               options: string, r: LoaderReplies)
    requires !IsError(r.load) && !IsError(r.loadedImage)
    ensures var full := FullLoadOptions(loaderPath, options);
      StartLoader(loaderPath, volName, dp, Some(options), r).trace
        == [LoadImage(dp), GetLoadedImage, SetLoadOptions(full, LoadOptionsSize(full)), StartImage, UnloadImage]
  {
    var full := FullLoadOptions(loaderPath, options);
    var setOptions := SetLoadOptions(full, LoadOptionsSize(full));
    assert StartLoader(loaderPath, volName, dp, Some(options), r).trace
      == [LoadImage(dp)] + [GetLoadedImage, setOptions] + [StartImage, UnloadImage];
    FiveCalls(LoadImage(dp), GetLoadedImage, setOptions, StartImage, UnloadImage);
  }

  lemma FiveCalls<T>(a: T, b: T, c: T, d: T, e: T)
    ensures [a] + [b, c] + [d, e] == [a, b, c, d, e]
  {
  }

  /** `start_loader` as the source writes it: straight-line code with early exits. */
  method StartLoaderSteps(loaderPath: string, volName: string, dp: DevicePath,
                          loadOptions: Option<string>, r: LoaderReplies) returns (o: Outcome)
    ensures o == StartLoader(loaderPath, volName, dp, loadOptions, r)
  {
    var trace: seq<FwCall> := [LoadImage(dp)];
    var errors := CheckError(r.load, "while loading " + loaderPath + " on " + volName);
    if IsError(r.load) {
      return Outcome(trace, errors);
    }
    var unloadOnly := false;
    if loadOptions.Some? {
      trace := trace + [GetLoadedImage];
      errors := errors + CheckError(r.loadedImage, "while getting a LoadedImageProtocol handle");
      if IsError(r.loadedImage) {
        unloadOnly := true;
      } else {
        var full := FullLoadOptions(loaderPath, loadOptions.value);
        trace := trace + [SetLoadOptions(full, LoadOptionsSize(full))];
      }
    }
    if !unloadOnly {
      trace := trace + [StartImage];
      errors := errors + CheckError(r.start, "returned from loader");
    }
    trace := trace + [UnloadImage];
    o := Outcome(trace, errors);
  }

  /** The Mac OS X verbose variant hands `boot.efi -v ` to the loader, 26 bytes
      (13 UCS-2 characters) with the terminator. */
  lemma VerboseBootArguments(volName: string, dp: DevicePath, r: LoaderReplies)
    requires !IsError(r.load) && !IsError(r.loadedImage)
    ensures var full := "boot.efi -v ";
      SetLoadOptions(full, 26) in
        StartLoader("\\System\\Library\\CoreServices\\boot.efi", volName, dp, Some("-v"), r).trace
  {
    var path := "\\System\\Library\\CoreServices\\boot.efi";
    assert path == "\\System\\Library\\CoreServices" + "\\" + "boot.efi";
    BasenameOfJoin("\\System\\Library\\CoreServices", "boot.efi");
    assert FullLoadOptions(path, "-v") == "boot.efi -v ";
    StartLoaderSetsOptions(path, volName, dp, "-v", r);
  }

  // ---------------------------------------------------------------------------
  // start_tool

  datatype ToolReplies = ToolReplies(load: Status, start: Status)

  function StartTool(toolPath: string, dp: DevicePath, r: ToolReplies): (o: Outcome)
    ensures |o.trace| >= 1 && o.trace[0] == LoadImage(dp)
    ensures IsError(r.load) ==>
      o.trace == [LoadImage(dp)] && o.errors == [ErrorReport(r.load, "while loading " + toolPath)]
    ensures !IsError(r.load) ==>
      o.trace == [LoadImage(dp), StartImage, UnloadImage] && o.errors == CheckError(r.start, "returned from tool")
  {
    if IsError(r.load) then Outcome([LoadImage(dp)], CheckError(r.load, "while loading " + toolPath))
    else Outcome([LoadImage(dp), StartImage, UnloadImage], CheckError(r.start, "returned from tool"))
  }

  /** A tool and a loader without options make the same calls for the same answers. */
  lemma ToolLikeLoader(toolPath: string, volName: string, dp: DevicePath, r: LoaderReplies)
    ensures StartTool(toolPath, dp, ToolReplies(r.load, r.start)).trace
      == StartLoader(toolPath, volName, dp, None, r).trace
  {
  }

  // ---------------------------------------------------------------------------
  // start_legacy

  /** Whether each variable write succeeds, and whether control ever comes back
      from the warm reset. */
  datatype LegacyReplies = LegacyReplies(setBootOption: Status, setBootNext: Status, resetReturns: bool)

  /** Upper-case hexadecimal digit. */
  function HexDigit(d: nat): (c: char)
    requires d < 16
  {
    if d < 10 then ('0' as int + d) as char else ('A' as int + d - 10) as char
  }

  /** Four hexadecimal digits, most significant first, as in `Boot####`. */
  function Hex4(n: nat): (s: string)
    requires n < 0x1_0000
    ensures |s| == 4
  {
    [HexDigit(n / 0x1000), HexDigit(n / 0x100 % 0x10), HexDigit(n / 0x10 % 0x10), HexDigit(n % 0x10)]
  }

  /** The boot option number the legacy record is stored under. */
  const LegacyOptionNumber: nat := 0xC0DE

  const BootOptionName: string := "BootC0DE"

  /** The write of the legacy boot option: `BootC0DE` in the global namespace,
      holding the stored record for the medium. */
  function WriteBootOption(kind: DiskKind): (w: FwCall)
    ensures w.SetVariable? && w.name == BootOptionName
    ensures w.vendor == GlobalVariable && w.attributes == NonVolatileBootRuntime
    ensures |w.data| == 0x4E && (w.data == LegacyOptionCd <==> kind == Optical)
  {
    SetVariable(BootOptionName, GlobalVariable, NonVolatileBootRuntime, SelectRecord(kind))
  }

  /** The write of `BootNext`: two bytes that read little-endian as the legacy
      option number. */
  function WriteBootNext(): (w: FwCall)
    ensures w.SetVariable? && w.name == "BootNext"
    ensures w.vendor == GlobalVariable && w.attributes == NonVolatileBootRuntime
    ensures |w.data| == 2 && FromLE16(w.data[0], w.data[1]) == LegacyOptionNumber
  {
    LE16RoundTrip(LegacyOptionNumber);
    SetVariable("BootNext", GlobalVariable, NonVolatileBootRuntime, LE16(LegacyOptionNumber))
  }

  function StartLegacy(kind: DiskKind, r: LegacyReplies): (o: Outcome)
    // the boot option is always written first
    ensures |o.trace| >= 1 && o.trace[0] == WriteBootOption(kind)
    // BootNext is written only after the boot option write succeeded
    ensures WriteBootNext() in o.trace <==> !IsError(r.setBootOption)
    ensures WriteBootNext() in o.trace ==> o.trace[1] == WriteBootNext()
    // the warm reset is issued only after both writes succeeded, and last
    ensures ResetSystem(ResetWarm) in o.trace <==> !IsError(r.setBootOption) && !IsError(r.setBootNext)
    ensures ResetSystem(ResetWarm) in o.trace ==> o.trace[|o.trace| - 1] == ResetSystem(ResetWarm)
    ensures ResetSystem(ResetCold) !in o.trace
    // exactly one transcript line when something went wrong, none otherwise
    ensures |o.errors| <= 1
    ensures o.errors == [] <==>
      !IsError(r.setBootOption) && !IsError(r.setBootNext) && !r.resetReturns
  {
    var first := WriteBootOption(kind);
    if IsError(r.setBootOption) then
      Outcome([first], CheckError(r.setBootOption, "while setting BootC0DE variable"))
    else if IsError(r.setBootNext) then
      Outcome([first, WriteBootNext()], CheckError(r.setBootNext, "while setting BootNext variable"))
    else
      Outcome([first, WriteBootNext(), ResetSystem(ResetWarm)],
              if r.resetReturns then CheckError(LoadError, "when trying to reboot") else [])
  }

  /** BootNext names the option written just before it: its two bytes read as a
      little-endian number give the `####` of `BootC0DE`. */
  lemma BootNextNamesBootOption()
    ensures |WriteBootNext().data| == 2
    ensures WriteBootNext().data == [0xDE, 0xC0]
    ensures BootOptionName == "Boot" + Hex4(FromLE16(WriteBootNext().data[0], WriteBootNext().data[1]))
  {
    LE16RoundTrip(LegacyOptionNumber);
    assert Hex4(0xC0DE) == "C0DE";
  }

  /** The record written for an optical medium names "CD" and any other "HD". */
  lemma LegacyWriteNamesMedium(kind: DiskKind)
    ensures Decode(WriteBootOption(kind).data)
      == Some(LegacyOption(if kind == Optical then "CD" else "HD"))
  {
    SelectedRecordNamesMedium(kind);
  }
}

=== FILE: firmware.dfy ===
/**
  * The firmware services the boot manager sits on, reduced to values: status
  * codes, device addresses, the volume records handed over by the volume
  * enumerator, an abstract read-only file system, the calls the dispatch code
  * makes (recorded as a trace) and the error transcript.
  */
module Firmware {
  import opened Wrappers

  /** An EFI_STATUS as far as the boot manager distinguishes it. Warnings
      (`EFI_WARN_*`) have the high bit clear, like success. */
  datatype Status = Success | Warning(code: nat) | NotFound | LoadError | Failed(code: nat)

  /** `EFI_ERROR(s)`: the high bit of the status is set, which holds for every
      error code and for neither success nor a warning. */
  predicate IsError(s: Status) {
    !s.Success? && !s.Warning?
  }

  /** `CheckError(status, where)` records one transcript line when the status is an error. */
  datatype ErrorReport = ErrorReport(status: Status, context: string)

  function CheckError(s: Status, context: string): (log: seq<ErrorReport>)
    ensures |log| <= 1
    ensures log != [] <==> IsError(s)
  {
    if IsError(s) then [ErrorReport(s, context)] else []
  }

  /** A firmware device handle (opaque). */
  type DeviceHandle = nat

  /** `FileDevicePath(device, path)`: the address is fixed by the pair and nothing else. */
  datatype DevicePath = FileDevicePath(device: DeviceHandle, path: string)

  /** Media classification used to pick the legacy boot record. */
  datatype DiskKind = Internal | External | Optical | OtherKind

  /** One entry returned by the directory iterator. */
  datatype DirEntry = DirEntry(name: string, isDir: bool)

  /** What iterating one directory yields: the entries in iterator order and the
      status the iterator ends with. */
  datatype DirListing = DirListing(entries: seq<DirEntry>, endStatus: Status)

  /** A volume's file system: the set of paths `FileExists` answers yes for, and the
      directories the iterator can open, keyed by the path given to `DirIterOpen`
      (the root directory under the empty key). */
  datatype FileSystem = FileSystem(files: set<string>, dirs: map<string, DirListing>)

  /** Opening a directory that is absent yields no entries and ends with `NotFound`. */
  function Listing(fs: FileSystem, key: string): DirListing {
    if key in fs.dirs then fs.dirs[key] else DirListing([], NotFound)
  }

  /** Names handed out by the directory iterator are single path components. */
  ghost predicate WellFormed(fs: FileSystem) {
    forall key, e :: key in fs.dirs && e in fs.dirs[key].entries ==> '\\' !in e.name
  }

  /** REFIT_VOLUME as produced by the volume enumerator. */
  datatype Volume = Volume(
    device: DeviceHandle,
    hasRootDir: bool,
    volName: Option<string>,
    diskKind: DiskKind,
    isLegacy: bool,
    fs: FileSystem)

  /** An octet. */
  newtype Byte = x: int | 0 <= x < 0x100

  /** A vendor GUID, field by field. */
  datatype Guid = Guid(data1: nat, data2: nat, data3: nat, data4: seq<Byte>)

  /** EFI_GLOBAL_VARIABLE, the namespace of the `Boot####` and `BootNext` variables
      (section 3.3 of the UEFI Specification). */
  const GlobalVariable: Guid :=
    Guid(0x8BE4DF61, 0x93CA, 0x11D2, [0xAA, 0x0D, 0x00, 0xE0, 0x98, 0x03, 0x2B, 0x8C])

  /** EFI_VARIABLE_NON_VOLATILE | EFI_VARIABLE_BOOTSERVICE_ACCESS | EFI_VARIABLE_RUNTIME_ACCESS. */
  const NonVolatileBootRuntime: nat := 0x1 + 0x2 + 0x4

  datatype ResetKind = ResetCold | ResetWarm

  /** One call the boot manager makes into the firmware while dispatching. */
  datatype FwCall =
    | LoadImage(devicePath: DevicePath)
    | GetLoadedImage
    | SetLoadOptions(options: string, sizeInBytes: nat)
    | StartImage
    | UnloadImage
    | SetVariable(name: string, vendor: Guid, attributes: nat, data: seq<Byte>)
    | ResetSystem(kind: ResetKind)

  /** Number of occurrences of a call in a trace. */
  function Occurrences(calls: seq<FwCall>, c: FwCall): nat {
    if |calls| == 0 then 0
    else Occurrences(calls[..|calls| - 1], c) + (if calls[|calls| - 1] == c then 1 else 0)
  }
}

=== FILE: legacy_record.dfy ===
/**
  * The boot option release 0.5 writes to start a legacy (BIOS) operating
  * system: an EFI_LOAD_OPTION as laid out in section 3.1.3 of the UEFI
  * Specification, whose file path list is a packed sequence of device path
  * nodes (section 10.3), followed by optional data naming the medium.
  *
  * The source stores two finished 78-byte records. Here the record is also
  * given structurally, with an encoder, a decoder and the round trip between
  * them, and each stored table is shown to be the encoding of its structure.
  */
module LegacyRecord {
  import opened Wrappers
  import opened Firmware

  // ---------------------------------------------------------------------------
  // Little-endian integers

  function LE16(n: nat): (b: seq<Byte>)
    requires n < 0x1_0000
    ensures |b| == 2
  {
    [(n % 0x100) as Byte, (n / 0x100) as Byte]
  }

  function FromLE16(lo: Byte, hi: Byte): (n: nat)
    ensures n < 0x1_0000
  {
    lo as nat + 0x100 * hi as nat
  }

  lemma LE16RoundTrip(n: nat)
    requires n < 0x1_0000
    ensures FromLE16(LE16(n)[0], LE16(n)[1]) == n
  {
  }

  function LE32(n: nat): (b: seq<Byte>)
    requires n < 0x1_0000_0000
    ensures |b| == 4
  {
    LE16(n % 0x1_0000) + LE16(n / 0x1_0000)
  }

  function FromLE32(b: seq<Byte>): (n: nat)
    requires |b| == 4
    ensures n < 0x1_0000_0000
  {
    FromLE16(b[0], b[1]) + 0x1_0000 * FromLE16(b[2], b[3])
  }

  lemma LE32RoundTrip(n: nat)
    requires n < 0x1_0000_0000
    ensures FromLE32(LE32(n)) == n
  {
    LE16RoundTrip(n % 0x1_0000);
    LE16RoundTrip(n / 0x1_0000);
  }

  function LE64(n: nat): (b: seq<Byte>)
    requires n < 0x1_0000_0000_0000_0000
    ensures |b| == 8
  {
    LE32(n % 0x1_0000_0000) + LE32(n / 0x1_0000_0000)
  }

  // ---------------------------------------------------------------------------
  // UCS-2 strings with a NUL terminator

  /** Characters a UCS-2 description can hold: non-NUL, within the basic plane. */
  predicate IsUcs2(s: string) {
    forall i :: 0 <= i < |s| ==> 0 < s[i] as int < 0x1_0000
  }

  /** Byte `j` of an encoded description: the low then the high byte of each
      character, then the two bytes of the terminator. */
  function Ucs2zByte(s: string, j: nat): Byte
    requires IsUcs2(s) && j < 2 * |s| + 2
  {
    if j >= 2 * |s| then 0
    else if j % 2 == 0 then (s[j / 2] as int % 0x100) as Byte
    else (s[j / 2] as int / 0x100) as Byte
  }

  function EncodeUcs2z(s: string): (b: seq<Byte>)
    requires IsUcs2(s)
    ensures |b| == 2 * |s| + 2
  {
    seq(2 * |s| + 2, j requires 0 <= j < 2 * |s| + 2 => Ucs2zByte(s, j))
  }

  /** The encoding of a non-empty description is its first character in little
      endian followed by the encoding of the rest. */
  lemma EncodeUcs2zCons(s: string)
    requires IsUcs2(s) && |s| > 0
    ensures IsUcs2(s[1..])
    ensures EncodeUcs2z(s) == LE16(s[0] as int) + EncodeUcs2z(s[1..])
  {
    var t := s[1..];
    assert IsUcs2(t) by {
      forall i | 0 <= i < |t| ensures 0 < t[i] as int < 0x1_0000 {
        assert t[i] == s[i + 1];
      }
    }
    var b, c := EncodeUcs2z(s), LE16(s[0] as int) + EncodeUcs2z(t);
    forall j | 2 <= j < |b| ensures b[j] == c[j] {
      if j < 2 * |s| {
        assert t[(j - 2) / 2] == s[j / 2];
      }
    }
  }

  /** A value read from the front of a byte string and the number of bytes it took. */
  datatype Parsed<T> = Parsed(value: T, used: nat)

  /** Reads characters up to and including the first 16-bit NUL. */
  function DecodeUcs2z(b: seq<Byte>): (r: Option<Parsed<string>>)
    ensures r.Some? ==> 2 <= r.value.used <= |b|
    decreases |b|
  {
    if |b| < 2 then None
    else
      var c := FromLE16(b[0], b[1]);
      if c == 0 then Some(Parsed("", 2))
      else if 0xD800 <= c < 0xE000 then None
      else match DecodeUcs2z(b[2..])
        case None => None
        case Some(rest) => Some(Parsed([c as char] + rest.value, rest.used + 2))
  }

  /** Decoding an encoded description, whatever follows it, gives it back and
      consumes exactly its encoding. */
  lemma {:induction false} Ucs2zRoundTrip(s: string, tail: seq<Byte>)
    requires IsUcs2(s)
    ensures DecodeUcs2z(EncodeUcs2z(s) + tail) == Some(Parsed(s, 2 * |s| + 2))
  {
    var b := EncodeUcs2z(s) + tail;
    if |s| > 0 {
      LE16RoundTrip(s[0] as int);
      EncodeUcs2zCons(s);
      assert b[2..] == EncodeUcs2z(s[1..]) + tail;
      Ucs2zRoundTrip(s[1..], tail);
      assert [s[0]] + s[1..] == s;
    }
  }

  // ---------------------------------------------------------------------------
  // Device path nodes

  /** EFI_DEVICE_PATH_PROTOCOL header fields and the node's payload; the 16-bit
      length field is derived from the payload. */
  datatype DevicePathNode = DevicePathNode(nodeType: Byte, subType: Byte, data: seq<Byte>)

  predicate NodeFits(n: DevicePathNode) {
    4 + |n.data| < 0x1_0000
  }

  predicate AllNodesFit(ns: seq<DevicePathNode>) {
    forall i :: 0 <= i < |ns| ==> NodeFits(ns[i])
  }

  function EncodeNode(n: DevicePathNode): (b: seq<Byte>)
    requires NodeFits(n)
    ensures |b| == 4 + |n.data|
  {
    [n.nodeType, n.subType] + LE16(4 + |n.data|) + n.data
  }

  function EncodeNodes(ns: seq<DevicePathNode>): (b: seq<Byte>)
    requires AllNodesFit(ns)
  {
    if |ns| == 0 then [] else EncodeNode(ns[0]) + EncodeNodes(ns[1..])
  }

  /** Splits a file path list into nodes by their length fields; the list must
      be used up exactly. */
  function DecodeNodes(b: seq<Byte>): Option<seq<DevicePathNode>>
    decreases |b|
  {
    if |b| == 0 then Some([])
    else if |b| < 4 then None
    else
      var len := FromLE16(b[2], b[3]);
      if len < 4 || len > |b| then None
      else match DecodeNodes(b[len..])
        case None => None
        case Some(rest) => Some([DevicePathNode(b[0], b[1], b[4..len])] + rest)
  }

  lemma {:induction false} NodesRoundTrip(ns: seq<DevicePathNode>)
    requires AllNodesFit(ns)
    ensures DecodeNodes(EncodeNodes(ns)) == Some(ns)
  {
    if |ns| > 0 {
      var n := ns[0];
      assert NodeFits(n);
      var b := EncodeNodes(ns);
      var len := 4 + |n.data|;
      LE16RoundTrip(len);
      assert b[2] == LE16(len)[0] && b[3] == LE16(len)[1];
      assert b[len..] == EncodeNodes(ns[1..]);
      assert b[4..len] == n.data;
      NodesRoundTrip(ns[1..]);
      assert [n] + ns[1..] == ns;
    }
  }

  // ---------------------------------------------------------------------------
  // EFI_LOAD_OPTION

  datatype LoadOption = LoadOption(
    attributes: nat,
    description: string,
    filePathList: seq<DevicePathNode>,
    optionalData: seq<Byte>)

  predicate WellFormed(o: LoadOption) {
    && o.attributes < 0x1_0000_0000
    && IsUcs2(o.description)
    && AllNodesFit(o.filePathList)
    && |EncodeNodes(o.filePathList)| < 0x1_0000
  }

  /** Attributes, FilePathListLength, Description, FilePathList, OptionalData. */
  function Encode(o: LoadOption): (b: seq<Byte>)
    requires WellFormed(o)
  {
    var fp := EncodeNodes(o.filePathList);
    LE32(o.attributes) + LE16(|fp|) + EncodeUcs2z(o.description) + fp + o.optionalData
  }

  function Decode(b: seq<Byte>): Option<LoadOption> {
    if |b| < 6 then None
    else
      var attributes := FromLE32(b[..4]);
      var fpLen := FromLE16(b[4], b[5]);
      match DecodeUcs2z(b[6..])
      case None => None
      case Some(desc) =>
        var start := 6 + desc.used;
        if start + fpLen > |b| then None
        else match DecodeNodes(b[start..start + fpLen])
          case None => None
          case Some(nodes) => Some(LoadOption(attributes, desc.value, nodes, b[start + fpLen..]))
  }

  /** Decoding reads the header fields, then the description, then exactly
      FilePathListLength bytes of nodes; the rest is optional data. */
  lemma DecodeFields(b: seq<Byte>, desc: string, used: nat, nodes: seq<DevicePathNode>)
    requires |b| >= 6
    requires DecodeUcs2z(b[6..]) == Some(Parsed(desc, used))
    requires 6 + used + FromLE16(b[4], b[5]) <= |b|
    requires DecodeNodes(b[6 + used..6 + used + FromLE16(b[4], b[5])]) == Some(nodes)
    ensures Decode(b) == Some(LoadOption(FromLE32(b[..4]), desc, nodes, b[6 + used + FromLE16(b[4], b[5])..]))
  {
  }

  /** Where the five fields of a record lie in their concatenation. */
  lemma FiveParts<T>(a: seq<T>, b: seq<T>, c: seq<T>, d: seq<T>, e: seq<T>)
    ensures var s, i, j := a + b + c + d + e, |a| + |b|, |a| + |b| + |c|;
      && s[..|a|] == a && s[|a|..i] == b && s[i..] == c + (d + e)
      && s[j..j + |d|] == d && s[j + |d|..] == e
  {
    var s, i, j := a + b + c + d + e, |a| + |b|, |a| + |b| + |c|;
    assert s == a + b + (c + (d + e));
    assert s[j..] == d + e;
  }

  /** The header of an encoded option holds its attributes and the length of
      its file path list. */
  lemma EncodedHeader(o: LoadOption)
    requires WellFormed(o)
    ensures var b := Encode(o);
      && |b| >= 6 + |EncodeUcs2z(o.description)| + |EncodeNodes(o.filePathList)|
      && FromLE32(b[..4]) == o.attributes
      && FromLE16(b[4], b[5]) == |EncodeNodes(o.filePathList)|
  {
    var fp := EncodeNodes(o.filePathList);
    var a, l := LE32(o.attributes), LE16(|fp|);
    FiveParts(a, l, EncodeUcs2z(o.description), fp, o.optionalData);
    LE32RoundTrip(o.attributes);
    LE16RoundTrip(|fp|);
    assert Encode(o)[4] == l[0] && Encode(o)[5] == l[1];
  }

  /** After the header come the description, the nodes and the optional data,
      each decoding to what was encoded. */
  lemma EncodedBody(o: LoadOption)
    requires WellFormed(o)
    ensures var b, used, n := Encode(o), |EncodeUcs2z(o.description)|, |EncodeNodes(o.filePathList)|;
      && |b| >= 6 + used + n
      && DecodeUcs2z(b[6..]) == Some(Parsed(o.description, used))
      && DecodeNodes(b[6 + used..6 + used + n]) == Some(o.filePathList)
      && b[6 + used + n..] == o.optionalData
  {
    var fp := EncodeNodes(o.filePathList);
    var d := EncodeUcs2z(o.description);
    FiveParts(LE32(o.attributes), LE16(|fp|), d, fp, o.optionalData);
    Ucs2zRoundTrip(o.description, fp + o.optionalData);
    NodesRoundTrip(o.filePathList);
  }

  /** Every well-formed load option survives encoding and decoding unchanged. */
  lemma LoadOptionRoundTrip(o: LoadOption)
    requires WellFormed(o)
    ensures Decode(Encode(o)) == Some(o)
  {
    EncodedHeader(o);
    EncodedBody(o);
    DecodeFields(Encode(o), o.description, |EncodeUcs2z(o.description)|, o.filePathList);
  }

  // ---------------------------------------------------------------------------
  // The legacy boot option

  const LoadOptionActive: nat := 0x1

  /** Memory-mapped hardware node (type 1, subtype 3): memory type 0x0B over
      0xFFE00000..0xFFF9FFFF, the firmware volume holding the legacy loader. */
  const MemoryMappedNode: DevicePathNode :=
    DevicePathNode(0x01, 0x03, [0x0B, 0x00, 0x00, 0x00,
                                0x00, 0x00, 0xE0, 0xFF, 0x00, 0x00, 0x00, 0x00,
                                0xFF, 0xFF, 0xF9, 0xFF, 0x00, 0x00, 0x00, 0x00])

  /** PIWG firmware file node (media type 4, subtype 6) naming the legacy
      loader by its file GUID. */
  const FirmwareFileNode: DevicePathNode :=
    DevicePathNode(0x04, 0x06, [0xEB, 0x85, 0x05, 0x2B, 0xB8, 0xD8, 0xA9, 0x49,
                                0x8B, 0x8C, 0xE2, 0x1B, 0x01, 0xAE, 0xF2, 0xB7])

  /** End of the entire device path (type 0x7F, subtype 0xFF). */
  const EndNode: DevicePathNode := DevicePathNode(0x7F, 0xFF, [])

  const LegacyNodes: seq<DevicePathNode> := [MemoryMappedNode, FirmwareFileNode, EndNode]

  lemma MemoryMappedBytes()
    ensures NodeFits(MemoryMappedNode)
    ensures EncodeNode(MemoryMappedNode) == [
      0x01, 0x03, 0x18, 0x00, 0x0B, 0x00, 0x00, 0x00,
      0x00, 0x00, 0xE0, 0xFF, 0x00, 0x00, 0x00, 0x00,
      0xFF, 0xFF, 0xF9, 0xFF, 0x00, 0x00, 0x00, 0x00]
  {
    NodeHeader(MemoryMappedNode, 0x18);
    MemoryMappedAround(MemoryMappedNode.data);
  }

  lemma MemoryMappedAround(data: seq<Byte>)
    requires data == MemoryMappedNode.data
    ensures [0x01, 0x03, 0x18, 0x00] + data == [
      0x01, 0x03, 0x18, 0x00, 0x0B, 0x00, 0x00, 0x00,
      0x00, 0x00, 0xE0, 0xFF, 0x00, 0x00, 0x00, 0x00,
      0xFF, 0xFF, 0xF9, 0xFF, 0x00, 0x00, 0x00, 0x00]
  {
  }

  /** A node of total length `len` below 0x100 starts with its type, subtype
      and the two length bytes `len`, 0. */
  lemma NodeHeader(n: DevicePathNode, len: nat)
    requires len == 4 + |n.data| < 0x100
    ensures NodeFits(n)
    ensures EncodeNode(n) == [n.nodeType, n.subType, len as Byte, 0] + n.data
  {
    assert LE16(len) == [len as Byte, 0];
  }

  /** The node's payload is the memory type and the start and end addresses, in
      little endian. */
  lemma MemoryMappedFields()
    ensures MemoryMappedNode.data == LE32(0x0B) + LE64(0xFFE0_0000) + LE64(0xFFF9_FFFF)
  {
    LE64Start();
    LE64End();
    assert LE32(0x0B) == [0x0B, 0x00, 0x00, 0x00];
  }

  lemma LE64Start()
    ensures LE64(0xFFE0_0000) == [0x00, 0x00, 0xE0, 0xFF, 0x00, 0x00, 0x00, 0x00]
  {
    assert LE32(0xFFE0_0000) == [0x00, 0x00, 0xE0, 0xFF];
    assert LE32(0) == [0x00, 0x00, 0x00, 0x00];
  }

  lemma LE64End()
    ensures LE64(0xFFF9_FFFF) == [0xFF, 0xFF, 0xF9, 0xFF, 0x00, 0x00, 0x00, 0x00]
  {
    assert LE32(0xFFF9_FFFF) == [0xFF, 0xFF, 0xF9, 0xFF];
    assert LE32(0) == [0x00, 0x00, 0x00, 0x00];
  }

  lemma FirmwareFileBytes()
    ensures NodeFits(FirmwareFileNode)
    ensures EncodeNode(FirmwareFileNode) == [
      0x04, 0x06, 0x14, 0x00, 0xEB, 0x85, 0x05, 0x2B,
      0xB8, 0xD8, 0xA9, 0x49, 0x8B, 0x8C, 0xE2, 0x1B,
      0x01, 0xAE, 0xF2, 0xB7]
  {
  }

  lemma EndBytes()
    ensures NodeFits(EndNode)
    ensures EncodeNode(EndNode) == [0x7F, 0xFF, 0x04, 0x00]
  {
  }

  lemma LegacyNodesBytes()
    ensures AllNodesFit(LegacyNodes)
    ensures EncodeNodes(LegacyNodes)
      == EncodeNode(MemoryMappedNode) + EncodeNode(FirmwareFileNode) + EncodeNode(EndNode)
    ensures |EncodeNodes(LegacyNodes)| == 0x18 + 0x14 + 0x04
  {
    MemoryMappedBytes(); FirmwareFileBytes(); EndBytes();
    var ns := LegacyNodes;
    assert ns[1..] == [FirmwareFileNode, EndNode];
    assert ns[1..][1..] == [EndNode];
    assert EncodeNodes([EndNode]) == EncodeNode(EndNode) + EncodeNodes([]);
  }

  lemma DescriptionBytes()
    ensures EncodeUcs2z("Mac OS X") == [0x4D, 0x00, 0x61, 0x00, 0x63, 0x00, 0x20, 0x00, 0x4F, 0x00, 0x53, 0x00, 0x20, 0x00, 0x58, 0x00, 0x00, 0x00]
  {
  }

  lemma MediumBytes()
    ensures EncodeUcs2z("HD") == [0x48, 0x00, 0x44, 0x00, 0x00, 0x00]
    ensures EncodeUcs2z("CD") == [0x43, 0x00, 0x44, 0x00, 0x00, 0x00]
  {
  }

  /** The structured record: active, described as "Mac OS X", the three nodes
      above, and the medium ("HD" or "CD") as a UCS-2 string in the optional data. */
  function LegacyOption(medium: string): (o: LoadOption)
    requires IsUcs2(medium)
    ensures WellFormed(o)
  {
    LegacyNodesBytes();
    LoadOption(LoadOptionActive, "Mac OS X", LegacyNodes, EncodeUcs2z(medium))
  }

  // The stored records row by row as the source lays them out (eight bytes a
  // row). Rows 0-2 hold the attributes, FilePathListLength and the description,
  // rows 3-5 the memory-mapped node, rows 6-8 the firmware file and end nodes,
  // and row 9 the medium.

  const HeaderRows: seq<Byte> :=
    [0x01, 0x00, 0x00, 0x00, 0x30, 0x00, 0x4D, 0x00] +
    [0x61, 0x00, 0x63, 0x00, 0x20, 0x00, 0x4F, 0x00] +
    [0x53, 0x00, 0x20, 0x00, 0x58, 0x00, 0x00, 0x00]

  const MemoryMappedRows: seq<Byte> :=
    [0x01, 0x03, 0x18, 0x00, 0x0B, 0x00, 0x00, 0x00] +
    [0x00, 0x00, 0xE0, 0xFF, 0x00, 0x00, 0x00, 0x00] +
    [0xFF, 0xFF, 0xF9, 0xFF, 0x00, 0x00, 0x00, 0x00]

  const FirmwareFileRows: seq<Byte> :=
    [0x04, 0x06, 0x14, 0x00, 0xEB, 0x85, 0x05, 0x2B] +
    [0xB8, 0xD8, 0xA9, 0x49, 0x8B, 0x8C, 0xE2, 0x1B] +
    [0x01, 0xAE, 0xF2, 0xB7, 0x7F, 0xFF, 0x04, 0x00]

  /** `legacy_option_hd` as stored. */
  const LegacyOptionHd: seq<Byte> :=
    HeaderRows + MemoryMappedRows + FirmwareFileRows + [0x48, 0x00, 0x44, 0x00, 0x00, 0x00]

  /** `legacy_option_cd` as stored. */
  const LegacyOptionCd: seq<Byte> :=
    HeaderRows + MemoryMappedRows + FirmwareFileRows + [0x43, 0x00, 0x44, 0x00, 0x00, 0x00]

  /** Both records are 0x4E bytes and differ in one byte only: offset 72, the
      first character of the medium name. */
  lemma RecordsDifferOnlyInMedium()
    ensures |LegacyOptionHd| == 0x4E && |LegacyOptionCd| == 0x4E
    ensures forall i :: 0 <= i < 0x4E ==> (LegacyOptionHd[i] != LegacyOptionCd[i] <==> i == 72)
    ensures LegacyOptionHd[72] == 'H' as int as Byte && LegacyOptionCd[72] == 'C' as int as Byte
  {
  }

  /** FilePathListLength (bytes 4-5) is the sum of the three node lengths, each
      read from its own header. */
  lemma FilePathListLength()
    ensures var b := LegacyOptionHd;
      && FromLE16(b[4], b[5]) == 0x30
      && FromLE16(b[26], b[27]) == 0x18
      && FromLE16(b[50], b[51]) == 0x14
      && FromLE16(b[70], b[71]) == 0x04
      && FromLE16(b[4], b[5]) == FromLE16(b[26], b[27]) + FromLE16(b[50], b[51]) + FromLE16(b[70], b[71])
  {
    var b := LegacyOptionHd;
    assert b[4] == 0x30 && b[5] == 0x00;
    assert b[26] == 0x18 && b[27] == 0x00;
    assert b[50] == 0x14 && b[51] == 0x00;
    assert b[70] == 0x04 && b[71] == 0x00;
  }

  /** The encoding of the structured record, piece by piece. */
  lemma LegacyEncoding(medium: string)
    requires IsUcs2(medium)
    ensures Encode(LegacyOption(medium))
      == ([0x01, 0x00, 0x00, 0x00] + [0x30, 0x00] + EncodeUcs2z("Mac OS X"))
         + EncodeNode(MemoryMappedNode) + (EncodeNode(FirmwareFileNode) + EncodeNode(EndNode))
         + EncodeUcs2z(medium)
  {
    LegacyNodesBytes();
    var fp := EncodeNodes(LegacyNodes);
    assert LE32(LoadOptionActive) == [0x01, 0x00, 0x00, 0x00];
    assert LE16(|fp|) == [0x30, 0x00];
  }

  lemma HeaderRowsBytes()
    ensures HeaderRows == [0x01, 0x00, 0x00, 0x00] + [0x30, 0x00] + EncodeUcs2z("Mac OS X")
  {
    DescriptionBytes();
    HeaderRowsAround(EncodeUcs2z("Mac OS X"));
  }

  lemma HeaderRowsAround(desc: seq<Byte>)
    requires desc == [0x4D, 0x00, 0x61, 0x00, 0x63, 0x00, 0x20, 0x00, 0x4F, 0x00, 0x53, 0x00, 0x20, 0x00, 0x58, 0x00, 0x00, 0x00]
    ensures HeaderRows == [0x01, 0x00, 0x00, 0x00] + [0x30, 0x00] + desc
  {
  }

  lemma MemoryMappedRowsBytes()
    ensures MemoryMappedRows == EncodeNode(MemoryMappedNode)
  {
    MemoryMappedBytes();
  }

  lemma FirmwareFileRowsBytes()
    ensures FirmwareFileRows == EncodeNode(FirmwareFileNode) + EncodeNode(EndNode)
  {
    FirmwareFileBytes();
    EndBytes();
  }

  /** The stored records are the encodings of the structured record. */
  lemma StoredRecordsAreEncodings()
    ensures Encode(LegacyOption("HD")) == LegacyOptionHd
    ensures Encode(LegacyOption("CD")) == LegacyOptionCd
  {
    LegacyEncoding("HD");
    LegacyEncoding("CD");
    HeaderRowsBytes();
    MemoryMappedRowsBytes();
    FirmwareFileRowsBytes();
    MediumBytes();
  }

  /** `start_legacy` picks the CD record for optical media and the HD record otherwise. */
  function SelectRecord(kind: DiskKind): (b: seq<Byte>)
    ensures |b| == 0x4E
    ensures b == LegacyOptionCd <==> kind == Optical
  {
    assert LegacyOptionHd[72] != LegacyOptionCd[72];
    if kind == Optical then LegacyOptionCd else LegacyOptionHd
  }

  /** Any encoding of a well-formed option decodes to it. */
  lemma DecodeEncoding(o: LoadOption, b: seq<Byte>)
    requires WellFormed(o) && Encode(o) == b
    ensures Decode(b) == Some(o)
  {
    LoadOptionRoundTrip(o);
  }

  /** The selected record decodes to the structured option naming the medium. */
  lemma SelectedRecordNamesMedium(kind: DiskKind)
    ensures Decode(SelectRecord(kind)) == Some(LegacyOption(if kind == Optical then "CD" else "HD"))
  {
    StoredRecordsAreEncodings();
    if kind == Optical {
      DecodeEncoding(LegacyOption("CD"), LegacyOptionCd);
    } else {
      DecodeEncoding(LegacyOption("HD"), LegacyOptionHd);
    }
  }
}

=== FILE: loaders.dfy ===
/**
  * `add_loader_entry` of release 0.5: classify a loader path into a kind, a
  * graphics-mode flag and a built-in icon, then build the top-level menu entry
  * and its fixed submenu of boot-option variants.
  */
module Loaders {
  import opened Wrappers
  import opened Text
  import opened Firmware
  import opened Menu

  const MacOSXLoaderPath: string := "\\System\\Library\\CoreServices\\boot.efi"

  /** `LoaderKind` 0..3: the kind drives the submenu that is generated. */
  datatype LoaderKind = GenericKind | MacOSKind | EliloKind | XomKind

  /** Outcome of the "detect specific loaders" chain. The icon is the built-in
      fallback, used when the volume carries no custom icon for the loader. */
  datatype Classification = Classification(kind: LoaderKind, useGraphicsMode: bool, icon: Icon)

  predicate IsEliloName(fileName: string) {
    SameIgnoringCase(fileName, "e.efi") || SameIgnoringCase(fileName, "elilo.efi")
  }

  predicate IsXomName(fileName: string) {
    SameIgnoringCase(fileName, "xom.efi")
  }

  /** The classification never rejects a path: every path gets a kind. */
  function Classify(loaderPath: string): (c: Classification)
    ensures c.useGraphicsMode <==> c.kind == MacOSKind || c.kind == XomKind
    ensures c.kind == GenericKind ==> c.icon in {BuiltinIcon(11), BuiltinIcon(2), BuiltinIcon(3)}
  {
    var fileName := Basename(loaderPath);
    if SameIgnoringCase(loaderPath, MacOSXLoaderPath) then
      Classification(MacOSKind, true, BuiltinIcon(0))        // os_mac
    else if SameIgnoringCase(fileName, "diags.efi") then
      Classification(GenericKind, false, BuiltinIcon(11))    // os_hwtest
    else if IsEliloName(fileName) then
      Classification(EliloKind, false, BuiltinIcon(1))       // os_linux
    else if SameIgnoringCase(fileName, "Bootmgfw.efi") then
      Classification(GenericKind, false, BuiltinIcon(2))     // os_win
    else if IsXomName(fileName) then
      Classification(XomKind, true, BuiltinIcon(2))          // os_win
    else
      Classification(GenericKind, false, BuiltinIcon(3))     // os_unknown
  }

  /** The Mac OS X loader path, matched up to case, always has the basename boot.efi. */
  lemma MacPathBasename(loaderPath: string)
    requires SameIgnoringCase(loaderPath, MacOSXLoaderPath)
    ensures SameIgnoringCase(Basename(loaderPath), "boot.efi")
  {
    assert MacOSXLoaderPath == "\\System\\Library\\CoreServices" + "\\" + "boot.efi";
    BasenameOfJoin("\\System\\Library\\CoreServices", "boot.efi");
    BasenameIgnoresCase(loaderPath, MacOSXLoaderPath);
  }

  /** The kinds, characterised independently of the order of the tests in `Classify`. */
  lemma ClassifyKinds(loaderPath: string)
    ensures Classify(loaderPath).kind == MacOSKind <==> SameIgnoringCase(loaderPath, MacOSXLoaderPath)
    ensures Classify(loaderPath).kind == EliloKind <==> IsEliloName(Basename(loaderPath))
    ensures Classify(loaderPath).kind == XomKind <==> IsXomName(Basename(loaderPath))
    ensures Classify(loaderPath).useGraphicsMode <==>
              SameIgnoringCase(loaderPath, MacOSXLoaderPath) || IsXomName(Basename(loaderPath))
  {
    var fileName := Basename(loaderPath);
    if SameIgnoringCase(loaderPath, MacOSXLoaderPath) {
      MacPathBasename(loaderPath);
    }
    NoCommonMatch(fileName, "diags.efi", "elilo.efi", 0);
  }

  /** Classification depends on the path only up to case. */
  lemma ClassifyIgnoresCase(p: string, q: string)
    requires SameIgnoringCase(p, q)
    ensures Classify(p) == Classify(q)
  {
    BasenameIgnoresCase(p, q);
    var bp, bq := Basename(p), Basename(q);
    SameIgnoringCaseTrans(p, q, MacOSXLoaderPath);
    SameIgnoringCaseTrans(bp, bq, "diags.efi");
    SameIgnoringCaseTrans(bp, bq, "e.efi");
    SameIgnoringCaseTrans(bp, bq, "elilo.efi");
    SameIgnoringCaseTrans(bp, bq, "Bootmgfw.efi");
    SameIgnoringCaseTrans(bp, bq, "xom.efi");
  }

  /** One boot-option variant of a submenu. */
  datatype Variant = Variant(title: string, useGraphicsMode: bool, loadOptions: Option<string>)

  /** The submenu variants in display order: the default variant first, which
      passes no options and keeps the parent's graphics flag, then the kind's
      extra variants, each passing options of its own. */
  function Variants(kind: LoaderKind, fileName: string, parentGraphics: bool): (vs: seq<Variant>)
    ensures |vs| == 1 + ExtraCount(kind)
    ensures vs[0].loadOptions.None? && vs[0].useGraphicsMode == parentGraphics
    ensures vs[0].title == if kind == MacOSKind then "Boot Mac OS X" else "Run " + fileName
    ensures forall i :: 1 <= i < |vs| ==> vs[i].loadOptions.Some?
    ensures forall i, j :: 0 <= i < j < |vs| ==> vs[i].loadOptions != vs[j].loadOptions
  {
    var default := Variant(if kind == MacOSKind then "Boot Mac OS X" else "Run " + fileName,
                           parentGraphics, None);
    var extra := ExtraVariants(kind, fileName, parentGraphics);
    var vs := [default] + extra;
    assert forall i :: 1 <= i < |vs| ==> vs[i] == extra[i - 1];
    vs
  }

  /** How many variants a kind offers beyond the default one. */
  function ExtraCount(kind: LoaderKind): nat {
    match kind case GenericKind => 0 case MacOSKind => 2 case EliloKind => 4 case XomKind => 3
  }

  /** The variants after the default one. */
  function ExtraVariants(kind: LoaderKind, fileName: string, parentGraphics: bool): (xs: seq<Variant>)
    ensures |xs| == ExtraCount(kind)
    ensures forall i :: 0 <= i < |xs| ==> xs[i].loadOptions.Some?
    ensures forall i, j :: 0 <= i < j < |xs| ==> xs[i].loadOptions != xs[j].loadOptions
  {
    match kind
    case GenericKind => []
    case MacOSKind => [
      Variant("Boot Mac OS X in verbose mode", false, Some("-v")),
      Variant("Boot Mac OS X in single user mode", false, Some("-v -s"))]
    case EliloKind => [
      Variant("Run " + fileName + " in interactive mode", parentGraphics, Some("-p")),
      Variant("Boot Linux for a 17\" iMac or a 15\" MacBook Pro (*)", true, Some("-d 0 i17")),
      Variant("Boot Linux for a 20\" iMac (*)", true, Some("-d 0 i20")),
      Variant("Boot Linux for a Mac Mini (*)", true, Some("-d 0 mini"))]
    case XomKind => [
      Variant("Boot Windows from Hard Disk", parentGraphics, Some("-s -h")),
      Variant("Boot Windows from CD-ROM", parentGraphics, Some("-s -c")),
      Variant("Run " + fileName + " in text mode", false, Some("-v"))]
  }

  /** Informational lines shown above the entries of a submenu. */
  function InfoLines(kind: LoaderKind): seq<string> {
    if kind == EliloKind then ["NOTE: This is an example. Entries", "marked with (*) may not work."]
    else []
  }

  predicate AbsolutePath(p: string) {
    |p| > 0 && p[0] == '\\'
  }

  /** `(LoaderTitle != NULL) ? LoaderTitle : LoaderPath + 1` */
  function DisplayName(loaderPath: string, loaderTitle: Option<string>): string
    requires AbsolutePath(loaderPath)
  {
    if loaderTitle.Some? then loaderTitle.value else loaderPath[1..]
  }

  /** The LOADER_ENTRY of a submenu variant: it shares path, volume and address with its parent. */
  function VariantEntry(v: Variant, loaderPath: string, volName: string, dp: DevicePath): MenuEntry {
    MenuEntry(v.title, Loader(loaderPath, volName, dp, v.useGraphicsMode, v.loadOptions), 0, NoIcon, None)
  }

  /** Load options and graphics flags of the variants, in order. */
  function VariantOptions(vs: seq<Variant>): seq<Option<string>> {
    seq(|vs|, i requires 0 <= i < |vs| => vs[i].loadOptions)
  }

  function VariantGraphics(vs: seq<Variant>): seq<bool> {
    seq(|vs|, i requires 0 <= i < |vs| => vs[i].useGraphicsMode)
  }

  function VariantTitles(vs: seq<Variant>): seq<string> {
    seq(|vs|, i requires 0 <= i < |vs| => vs[i].title)
  }

  /** The submenu entries: one per variant, in order, then the shared sentinel. */
  function SubmenuEntries(vs: seq<Variant>, loaderPath: string, volName: string, dp: DevicePath)
    : (sub: seq<MenuEntry>)
    ensures |sub| == |vs| + 1 && sub[|vs|] == ReturnEntry
    ensures OptionsOf(sub[..|vs|]) == VariantOptions(vs)
    ensures GraphicsOf(sub[..|vs|]) == VariantGraphics(vs)
    ensures TitlesOf(sub[..|vs|]) == VariantTitles(vs)
    ensures forall i :: 0 <= i < |vs| ==>
      sub[i].action == Loader(loaderPath, volName, dp, vs[i].useGraphicsMode, vs[i].loadOptions)
      && sub[i].submenu.None?
  {
    seq(|vs|, i requires 0 <= i < |vs| => VariantEntry(vs[i], loaderPath, volName, dp)) + [ReturnEntry]
  }

  /** Builds the main-menu entry for a loader found at `loaderPath` on a volume. */
  function AddLoaderEntry(loaderPath: string, loaderTitle: Option<string>,
                          device: DeviceHandle, volName: string): (e: MenuEntry)
    requires AbsolutePath(loaderPath)
    ensures e.title == "Boot " + DisplayName(loaderPath, loaderTitle) + " from " + volName
    ensures e.row == 0
    ensures e.action.Loader?
    ensures e.action.loaderPath == loaderPath && e.action.volName == volName
    ensures e.action.devicePath == FileDevicePath(device, loaderPath)
    ensures e.action.useGraphicsMode == Classify(loaderPath).useGraphicsMode
    ensures e.action.loadOptions.Some? <==> Classify(loaderPath).kind == XomKind
    ensures e.action.loadOptions.Some? ==> e.action.loadOptions.value == "-s -h"
    ensures e.submenu.Some?
    ensures e.submenu.value.title == "Boot Options for " + loaderTitle.GetOr(Basename(loaderPath)) + " on " + volName
    ensures e.submenu.value.titleImage == e.icon
  {
    var fileName := Basename(loaderPath);
    var c := Classify(loaderPath);
    var dp := FileDevicePath(device, loaderPath);
    var variants := Variants(c.kind, fileName, c.useGraphicsMode);
    var subEntries := SubmenuEntries(variants, loaderPath, volName, dp);
    var subTitle := "Boot Options for " + loaderTitle.GetOr(fileName) + " on " + volName;
    var subScreen := MenuScreen(subTitle, c.icon, InfoLines(c.kind), subEntries, 0, None);
    var options := if c.kind == XomKind then Some("-s -h") else None;
    MenuEntry("Boot " + DisplayName(loaderPath, loaderTitle) + " from " + volName,
              Loader(loaderPath, volName, dp, c.useGraphicsMode, options),
              0, c.icon, Some(subScreen))
  }

  /** Every submenu starts with the default variant, whose graphics mode is the
      entry's own, lists only variants of this loader, and ends with the sentinel. */
  lemma SubmenuShape(loaderPath: string, loaderTitle: Option<string>, device: DeviceHandle, volName: string)
    requires AbsolutePath(loaderPath)
    ensures var e := AddLoaderEntry(loaderPath, loaderTitle, device, volName);
      var sub := e.submenu.value.entries;
      && |sub| >= 2
      && sub[|sub| - 1] == ReturnEntry
      && sub[0].action.Loader? && sub[0].action.loadOptions.None?
      && sub[0].action.useGraphicsMode == e.action.useGraphicsMode
      && (forall i :: 0 <= i < |sub| - 1 ==>
            sub[i].action.Loader? && sub[i].submenu.None?
            && sub[i].action.loaderPath == loaderPath && sub[i].action.volName == volName
            && sub[i].action.devicePath == e.action.devicePath)
  {
  }

  /** The submenu shows the kind's variants, in order, before the sentinel. */
  lemma SubmenuShowsVariants(loaderPath: string, loaderTitle: Option<string>,
                             device: DeviceHandle, volName: string)
    requires AbsolutePath(loaderPath)
    ensures var e := AddLoaderEntry(loaderPath, loaderTitle, device, volName);
      var c := Classify(loaderPath);
      var vs := Variants(c.kind, Basename(loaderPath), c.useGraphicsMode);
      var sub := e.submenu.value.entries;
      && OptionsOf(sub[..|sub| - 1]) == VariantOptions(vs)
      && GraphicsOf(sub[..|sub| - 1]) == VariantGraphics(vs)
      && TitlesOf(sub[..|sub| - 1]) == VariantTitles(vs)
      && e.submenu.value.infoLines == InfoLines(c.kind)
  {
    var c := Classify(loaderPath);
    var vs := Variants(c.kind, Basename(loaderPath), c.useGraphicsMode);
    var sub := SubmenuEntries(vs, loaderPath, volName, FileDevicePath(device, loaderPath));
    assert AddLoaderEntry(loaderPath, loaderTitle, device, volName).submenu.value.entries == sub;
  }

  lemma EliloVariants(fileName: string)
    ensures var vs := Variants(EliloKind, fileName, false);
      && VariantOptions(vs) == [None, Some("-p"), Some("-d 0 i17"), Some("-d 0 i20"), Some("-d 0 mini")]
      && VariantGraphics(vs) == [false, false, true, true, true]
      && VariantTitles(vs) == ["Run " + fileName, "Run " + fileName + " in interactive mode",
                               "Boot Linux for a 17\" iMac or a 15\" MacBook Pro (*)",
                               "Boot Linux for a 20\" iMac (*)", "Boot Linux for a Mac Mini (*)"]
  {
  }

  lemma MacOSXVariants(fileName: string)
    ensures var vs := Variants(MacOSKind, fileName, true);
      && VariantOptions(vs) == [None, Some("-v"), Some("-v -s")]
      && VariantGraphics(vs) == [true, false, false]
      && VariantTitles(vs) == ["Boot Mac OS X", "Boot Mac OS X in verbose mode", "Boot Mac OS X in single user mode"]
  {
  }

  lemma XomVariants(fileName: string)
    ensures var vs := Variants(XomKind, fileName, true);
      && VariantOptions(vs) == [None, Some("-s -h"), Some("-s -c"), Some("-v")]
      && VariantGraphics(vs) == [true, true, true, false]
      && VariantTitles(vs) == ["Run " + fileName, "Boot Windows from Hard Disk", "Boot Windows from CD-ROM",
                               "Run " + fileName + " in text mode"]
  {
  }

  lemma GenericVariants(fileName: string)
    ensures var vs := Variants(GenericKind, fileName, false);
      && VariantOptions(vs) == [None]
      && VariantGraphics(vs) == [false]
      && VariantTitles(vs) == ["Run " + fileName]
  {
  }

  /** Mac OS X: normal, verbose (`-v`) and single-user (`-v -s`), the last two in text mode. */
  lemma MacOSXSubmenu(loaderPath: string, loaderTitle: Option<string>,
                      device: DeviceHandle, volName: string)
    requires AbsolutePath(loaderPath)
    requires SameIgnoringCase(loaderPath, MacOSXLoaderPath)
    ensures var sub := AddLoaderEntry(loaderPath, loaderTitle, device, volName).submenu.value.entries;
      && OptionsOf(sub[..|sub| - 1]) == [None, Some("-v"), Some("-v -s")]
      && GraphicsOf(sub[..|sub| - 1]) == [true, false, false]
      && TitlesOf(sub[..|sub| - 1]) == ["Boot Mac OS X", "Boot Mac OS X in verbose mode", "Boot Mac OS X in single user mode"]
  {
    ClassifyKinds(loaderPath);
    SubmenuShowsVariants(loaderPath, loaderTitle, device, volName);
    MacOSXVariants(Basename(loaderPath));
  }

  /** elilo: plain run, interactive (`-p`), then the three hardware targets in graphics
      mode, with two information lines. */
  lemma EliloSubmenu(loaderPath: string, loaderTitle: Option<string>,
                     device: DeviceHandle, volName: string)
    requires AbsolutePath(loaderPath)
    requires IsEliloName(Basename(loaderPath))
    ensures var e := AddLoaderEntry(loaderPath, loaderTitle, device, volName);
      var sub := e.submenu.value.entries;
      && OptionsOf(sub[..|sub| - 1]) == [None, Some("-p"), Some("-d 0 i17"), Some("-d 0 i20"), Some("-d 0 mini")]
      && GraphicsOf(sub[..|sub| - 1]) == [false, false, true, true, true]
      && TitlesOf(sub[..|sub| - 1]) == ["Run " + Basename(loaderPath), "Run " + Basename(loaderPath) + " in interactive mode",
                                        "Boot Linux for a 17\" iMac or a 15\" MacBook Pro (*)",
                                        "Boot Linux for a 20\" iMac (*)", "Boot Linux for a Mac Mini (*)"]
      && e.submenu.value.infoLines == ["NOTE: This is an example. Entries", "marked with (*) may not work."]
  {
    ClassifyKinds(loaderPath);
    SubmenuShowsVariants(loaderPath, loaderTitle, device, volName);
    EliloVariants(Basename(loaderPath));
  }

  /** xom: plain run, hard disk (`-s -h`), CD-ROM (`-s -c`) and text mode (`-v`). */
  lemma XomSubmenu(loaderPath: string, loaderTitle: Option<string>,
                   device: DeviceHandle, volName: string)
    requires AbsolutePath(loaderPath)
    requires IsXomName(Basename(loaderPath))
    ensures var sub := AddLoaderEntry(loaderPath, loaderTitle, device, volName).submenu.value.entries;
      && OptionsOf(sub[..|sub| - 1]) == [None, Some("-s -h"), Some("-s -c"), Some("-v")]
      && GraphicsOf(sub[..|sub| - 1]) == [true, true, true, false]
      && TitlesOf(sub[..|sub| - 1]) == ["Run " + Basename(loaderPath), "Boot Windows from Hard Disk",
                                        "Boot Windows from CD-ROM", "Run " + Basename(loaderPath) + " in text mode"]
  {
    ClassifyKinds(loaderPath);
    SubmenuShowsVariants(loaderPath, loaderTitle, device, volName);
    XomVariants(Basename(loaderPath));
  }

  /** Every other loader: a single plain variant in text mode. */
  lemma GenericSubmenu(loaderPath: string, loaderTitle: Option<string>,
                       device: DeviceHandle, volName: string)
    requires AbsolutePath(loaderPath)
    requires !SameIgnoringCase(loaderPath, MacOSXLoaderPath)
    requires !IsEliloName(Basename(loaderPath)) && !IsXomName(Basename(loaderPath))
    ensures var sub := AddLoaderEntry(loaderPath, loaderTitle, device, volName).submenu.value.entries;
      && OptionsOf(sub[..|sub| - 1]) == [None]
      && GraphicsOf(sub[..|sub| - 1]) == [false]
      && TitlesOf(sub[..|sub| - 1]) == ["Run " + Basename(loaderPath)]
  {
    ClassifyKinds(loaderPath);
    SubmenuShowsVariants(loaderPath, loaderTitle, device, volName);
    GenericVariants(Basename(loaderPath));
  }
}

=== FILE: main_loop.dfy ===
/**
  * The main loop of `RefitMain` in release 0.5. The user's choices and the
  * firmware's answers are the input: one round per return from the menu. A round
  * either ends the loop (escape, an exit entry, the restart entry) or dispatches
  * the chosen entry and goes round again. A firmware call that never returns
  * (an operating system taking over, a reset) simply leaves no further rounds.
  */
module MainLoop {
  import opened Wrappers
  import opened Firmware
  import opened Menu
  import opened Scan
  import opened Discovery
  import opened Dispatch

  /** What `RunMainMenu` hands back. */
  datatype Choice = Escape | Choose(entry: MenuEntry)

  /** The firmware's answers for whatever the round dispatches. */
  datatype Replies = Replies(loader: LoaderReplies, tool: ToolReplies, legacy: LegacyReplies)

  datatype Round = Round(choice: Choice, replies: Replies)

  datatype Ending = Escaped | ExitChosen | ResetChosen | InputExhausted

  /** The calls and transcript of the whole loop, how many rounds it consumed and
      why it stopped. */
  datatype Session = Session(trace: seq<FwCall>, errors: seq<ErrorReport>, rounds: nat, ending: Ending)

  /** The rounds that leave the loop, and why. */
  function EndingOf(c: Choice): (e: Option<Ending>)
    ensures e.None? <==> c.Choose? && !c.entry.action.Exit? && !c.entry.action.Reset?
  {
    match c
    case Escape => Some(Escaped)
    case Choose(entry) =>
      if entry.action.Exit? then Some(ExitChosen)
      else if entry.action.Reset? then Some(ResetChosen)
      else None
  }

  /** The body of the `switch`: one round's calls and transcript lines. */
  function RunRound(r: Round): (o: Outcome)
    // leaving the menu and the entries that do nothing make no calls
    ensures (|| r.choice.Escape? || r.choice.entry.action.About? || r.choice.entry.action.Exit?
             || r.choice.entry.action.ReturnToParent?) ==> o == Outcome([], [])
    ensures r.choice.Choose? && r.choice.entry.action.Reset? ==> o == Outcome([ResetSystem(ResetCold)], [])
    // a loader or a tool is loaded from its device path before anything else
    ensures r.choice.Choose? && (r.choice.entry.action.Loader? || r.choice.entry.action.Tool?) ==>
      |o.trace| >= 1 && o.trace[0] == LoadImage(r.choice.entry.action.devicePath)
    // a legacy entry writes the boot option for its volume's medium first
    ensures r.choice.Choose? && r.choice.entry.action.Legacy? ==>
      |o.trace| >= 1 && o.trace[0] == WriteBootOption(r.choice.entry.action.volume.diskKind)
  {
    if r.choice.Escape? then Outcome([], [])
    else match r.choice.entry.action
      case Reset => Outcome([ResetSystem(ResetCold)], [])
      case Loader(path, vol, dp, _, opts) => StartLoader(path, vol, dp, opts, r.replies.loader)
      case Legacy(v) => StartLegacy(v.diskKind, r.replies.legacy)
      case Tool(path, dp, _) => StartTool(path, dp, r.replies.tool)
      case _ => Outcome([], [])
  }

  /** The loop: rounds run in order until one of them ends it. */
  function Run(rounds: seq<Round>): (s: Session)
    ensures s.rounds <= |rounds|
    ensures s.ending == InputExhausted ==> s.rounds == |rounds|
    ensures s.ending != InputExhausted ==> s.rounds >= 1
  {
    if |rounds| == 0 then Session([], [], 0, InputExhausted)
    else
      var o := RunRound(rounds[0]);
      var stop := EndingOf(rounds[0].choice);
      if stop.Some? then Session(o.trace, o.errors, 1, stop.value)
      else
        var rest := Run(rounds[1..]);
        Session(o.trace + rest.trace, o.errors + rest.errors, 1 + rest.rounds, rest.ending)
  }

  /** The loop stops at the first round that leaves it, and only there. */
  lemma {:induction false} RunStopsAtFirstEnding(rounds: seq<Round>)
    ensures var s := Run(rounds);
      s.ending == InputExhausted <==> forall i :: 0 <= i < |rounds| ==> EndingOf(rounds[i].choice).None?
    ensures var s := Run(rounds);
      s.ending != InputExhausted ==>
        && EndingOf(rounds[s.rounds - 1].choice) == Some(s.ending)
        && forall i :: 0 <= i < s.rounds - 1 ==> EndingOf(rounds[i].choice).None?
  {
    if |rounds| > 0 && EndingOf(rounds[0].choice).None? {
      var rest := rounds[1..];
      RunStopsAtFirstEnding(rest);
      assert forall i :: 1 <= i < |rounds| ==> rounds[i] == rest[i - 1];
    }
  }

  /** The rounds from `i` on: round `i`, then, unless it ends the loop, the rest. */
  lemma RunFrom(rounds: seq<Round>, i: nat)
    requires i < |rounds|
    ensures var o, stop, s := RunRound(rounds[i]), EndingOf(rounds[i].choice), Run(rounds[i..]);
      if stop.Some? then s == Session(o.trace, o.errors, 1, stop.value)
      else s == Session(o.trace + Run(rounds[i + 1..]).trace, o.errors + Run(rounds[i + 1..]).errors,
                        1 + Run(rounds[i + 1..]).rounds, Run(rounds[i + 1..]).ending)
  {
    assert rounds[i..][0] == rounds[i] && rounds[i..][1..] == rounds[i + 1..];
  }

  /** `RefitMain`'s `while (mainLoopRunning)` with its `break`s. */
  method RunLoop(rounds: seq<Round>) returns (s: Session)
    ensures s == Run(rounds)
  {
    var trace: seq<FwCall> := [];
    var errors: seq<ErrorReport> := [];
    var i := 0;
    var ending := InputExhausted;
    while i < |rounds|
      invariant 0 <= i <= |rounds|
      invariant ending == InputExhausted
      invariant var rest := Run(rounds[i..]);
        Run(rounds) == Session(trace + rest.trace, errors + rest.errors, i + rest.rounds, rest.ending)
    {
      var o := RunRound(rounds[i]);
      var stop := EndingOf(rounds[i].choice);
      RunFrom(rounds, i);
      if stop.None? {
        var next := Run(rounds[i + 1..]);
        ConcatAssoc(trace, o.trace, next.trace);
        ConcatAssoc(errors, o.errors, next.errors);
      }
      trace := trace + o.trace;
      errors := errors + o.errors;
      i := i + 1;
      if stop.Some? {
        ending := stop.value;
        break;
      }
    }
    s := Session(trace, errors, i, ending);
  }

  /** Only the restart entry resets the machine cold, and choosing it ends the loop. */
  lemma RoundNeverResetsCold(r: Round)
    requires EndingOf(r.choice).None?
    ensures ResetSystem(ResetCold) !in RunRound(r).trace
  {
    var o := RunRound(r);
    match r.choice.entry.action
    case Loader(path, vol, dp, _, opts) =>
      var rl := r.replies.loader;
      assert o.trace == StartLoader(path, vol, dp, opts, rl).trace;
      if !IsError(rl.load) && (opts.None? || !IsError(rl.loadedImage)) {
        assert forall c :: c in o.trace ==> !c.ResetSystem?;
      }
    case Tool(path, dp, _) =>
    case Legacy(v) =>
    case About =>
    case ReturnToParent =>
  }

  lemma {:induction false} ColdResetIffResetChosen(rounds: seq<Round>)
    ensures ResetSystem(ResetCold) in Run(rounds).trace <==> Run(rounds).ending == ResetChosen
  {
    if |rounds| > 0 {
      var stop := EndingOf(rounds[0].choice);
      if stop.None? {
        RoundNeverResetsCold(rounds[0]);
        ColdResetIffResetChosen(rounds[1..]);
      }
    }
  }

  /** Running two stretches of rounds, the first of which never leaves the loop,
      is running the first and then the second. */
  lemma {:induction false} RunConcat(a: seq<Round>, b: seq<Round>)
    requires forall i :: 0 <= i < |a| ==> EndingOf(a[i].choice).None?
    ensures var s := Run(a + b);
      && s.trace == Run(a).trace + Run(b).trace
      && s.errors == Run(a).errors + Run(b).errors
      && s.rounds == |a| + Run(b).rounds
      && s.ending == Run(b).ending
  {
    if |a| == 0 {
      assert a + b == b;
      assert [] + Run(b).trace == Run(b).trace && [] + Run(b).errors == Run(b).errors;
    } else {
      var ab := a + b;
      assert ab[0] == a[0] && ab[1..] == a[1..] + b;
      assert EndingOf(a[0].choice).None?;
      assert forall i :: 0 <= i < |a[1..]| ==> a[1..][i] == a[i + 1];
      RunConcat(a[1..], b);
      var o := RunRound(a[0]);
      assert Run(ab) == Session(o.trace + Run(a[1..] + b).trace, o.errors + Run(a[1..] + b).errors,
                                1 + Run(a[1..] + b).rounds, Run(a[1..] + b).ending);
      assert Run(a) == Session(o.trace + Run(a[1..]).trace, o.errors + Run(a[1..]).errors,
                               1 + Run(a[1..]).rounds, Run(a[1..]).ending);
      var ra, rb := Run(a[1..]), Run(b);
      ConcatAssoc(o.trace, ra.trace, rb.trace);
      ConcatAssoc(o.errors, ra.errors, rb.errors);
    }
  }

  /** A round that is not the last one ends the loop after exactly that round,
      whatever comes after it. */
  lemma StoppingRound(r: Round, rest: seq<Round>)
    requires EndingOf(r.choice).Some?
    ensures Run([r] + rest) == Session(RunRound(r).trace, RunRound(r).errors, 1, EndingOf(r.choice).value)
  {
    assert ([r] + rest)[0] == r;
  }

  /** The release main menu carries no exit entry, so a session that only ever
      picks entries of that menu never ends by an exit entry. */
  lemma {:induction false} NoExitInRelease(vols: seq<Volume>, self: SelfImage, rounds: seq<Round>)
    requires forall i :: 0 <= i < |rounds| && rounds[i].choice.Choose? ==>
      rounds[i].choice.entry in Discover(vols, self).mainMenu.entries
    ensures Run(rounds).ending != ExitChosen
  {
    if |rounds| > 0 {
      if rounds[0].choice.Choose? {
        NoExitEntry(vols, self, rounds[0].choice.entry);
      }
      if EndingOf(rounds[0].choice).None? {
        NoExitInRelease(vols, self, rounds[1..]);
      }
    }
  }

  /** Number of calls of a trace satisfying a test. */
  function Count(calls: seq<FwCall>, p: FwCall -> bool): nat {
    if |calls| == 0 then 0
    else Count(calls[..|calls| - 1], p) + (if p(calls[|calls| - 1]) then 1 else 0)
  }

  lemma {:induction false} CountConcat(a: seq<FwCall>, b: seq<FwCall>, p: FwCall -> bool)
    ensures Count(a + b, p) == Count(a, p) + Count(b, p)
  {
    if |b| > 0 {
      assert (a + b)[..|a + b| - 1] == a + b[..|b| - 1];
      CountConcat(a, b[..|b| - 1], p);
    } else {
      assert a + b == a;
    }
  }

  predicate IsLoad(c: FwCall) { c.LoadImage? }

  predicate IsUnload(c: FwCall) { c.UnloadImage? }

  /** A trace that loads first, unloads last and does neither in between loads
      and unloads once each. */
  lemma FramedCounts(first: FwCall, mid: seq<FwCall>, last: FwCall)
    requires first.LoadImage? && last.UnloadImage?
    requires forall c :: c in mid ==> !c.LoadImage? && !c.UnloadImage?
    ensures Count([first] + mid + [last], IsUnload) == 1 == Count([first] + mid + [last], IsLoad)
  {
    NoImageCalls(mid);
    CountConcat([first] + mid, [last], IsUnload);
    CountConcat([first] + mid, [last], IsLoad);
    CountConcat([first], mid, IsUnload);
    CountConcat([first], mid, IsLoad);
  }

  lemma LoaderCounts(path: string, vol: string, dp: DevicePath, opts: Option<string>, rl: LoaderReplies)
    ensures var t := StartLoader(path, vol, dp, opts, rl).trace;
      Count(t, IsUnload) <= Count(t, IsLoad) == 1
  {
    var t := StartLoader(path, vol, dp, opts, rl).trace;
    if IsError(rl.load) {
      assert t == [LoadImage(dp)];
    } else {
      var mid := t[1..|t| - 1];
      if opts.Some? && IsError(rl.loadedImage) {
        assert mid == [GetLoadedImage];
      } else {
        assert mid == t[1..|t| - 2] + [StartImage];
      }
      assert t == [t[0]] + mid + [t[|t| - 1]];
      FramedCounts(t[0], mid, t[|t| - 1]);
    }
  }

  lemma ToolCounts(path: string, dp: DevicePath, rt: ToolReplies)
    ensures var t := StartTool(path, dp, rt).trace;
      Count(t, IsUnload) <= Count(t, IsLoad) == 1
  {
    var t := StartTool(path, dp, rt).trace;
    if !IsError(rt.load) {
      assert t == [LoadImage(dp)] + [StartImage] + [UnloadImage];
      FramedCounts(LoadImage(dp), [StartImage], UnloadImage);
    }
  }

  lemma LegacyCounts(kind: DiskKind, rl: LegacyReplies)
    ensures var t := StartLegacy(kind, rl).trace;
      Count(t, IsUnload) == 0 == Count(t, IsLoad)
  {
    var t := StartLegacy(kind, rl).trace;
    assert forall c :: c in t ==> c.SetVariable? || c.ResetSystem?;
    NoImageCalls(t);
  }

  /** Within one round, an image is unloaded only if one was loaded. */
  lemma RoundUnloadsWhatItLoads(r: Round)
    ensures Count(RunRound(r).trace, IsUnload) <= Count(RunRound(r).trace, IsLoad) <= 1
  {
    var t := RunRound(r).trace;
    if r.choice.Choose? {
      match r.choice.entry.action
      case Loader(path, vol, dp, _, opts) =>
        LoaderCounts(path, vol, dp, opts, r.replies.loader);
      case Tool(path, dp, _) =>
        ToolCounts(path, dp, r.replies.tool);
      case Legacy(v) =>
        LegacyCounts(v.diskKind, r.replies.legacy);
      case Reset =>
        assert t == [ResetSystem(ResetCold)];
      case _ =>
    }
  }

  lemma {:induction false} NoImageCalls(t: seq<FwCall>)
    requires forall c :: c in t ==> !c.LoadImage? && !c.UnloadImage?
    ensures Count(t, IsUnload) == 0 && Count(t, IsLoad) == 0
  {
    if |t| > 0 {
      assert t[|t| - 1] in t;
      NoImageCalls(t[..|t| - 1]);
    }
  }

  /** Over the whole session no image is unloaded more often than images are loaded. */
  lemma {:induction false} SessionUnloadsWhatItLoads(rounds: seq<Round>)
    ensures Count(Run(rounds).trace, IsUnload) <= Count(Run(rounds).trace, IsLoad) <= Run(rounds).rounds
  {
    if |rounds| > 0 {
      RoundUnloadsWhatItLoads(rounds[0]);
      if EndingOf(rounds[0].choice).None? {
        var o := RunRound(rounds[0]);
        var rest := Run(rounds[1..]);
        SessionUnloadsWhatItLoads(rounds[1..]);
        CountConcat(o.trace, rest.trace, IsUnload);
        CountConcat(o.trace, rest.trace, IsLoad);
      }
    }
  }
}

=== FILE: menu.dfy ===
/**
  * Menu structure: the closed set of actions an entry can carry (the C code's
  * TAG_* values plus the entry subtype behind them), entries, and screens.
  */
module Menu {
  import opened Wrappers
  import opened Firmware

  /** A built-in icon by its index in the icon table of release 0.5, a compiled-in
      image of the trunk snapshot by its name, or none. */
  datatype Icon = NoIcon | BuiltinIcon(id: nat) | NamedImage(name: string)

  datatype MenuAction =
    | Exit
    | Reset
    | About
      /** TAG_RETURN: the shared sentinel that leaves a submenu. */
    | ReturnToParent
      /** TAG_LOADER with the LOADER_ENTRY fields. */
    | Loader(loaderPath: string, volName: string, devicePath: DevicePath,
             useGraphicsMode: bool, loadOptions: Option<string>)
      /** TAG_LEGACY with the LEGACY_ENTRY's volume. */
    | Legacy(volume: Volume)
      /** TAG_TOOL with the LOADER_ENTRY fields a tool uses. */
    | Tool(toolPath: string, devicePath: DevicePath, useGraphicsMode: bool)

  datatype MenuEntry = MenuEntry(
    title: string,
    action: MenuAction,
    row: nat,
    icon: Icon,
    submenu: Option<MenuScreen>)

  /** REFIT_MENU_SCREEN: info lines are kept apart from the selectable entries. */
  datatype MenuScreen = MenuScreen(
    title: string,
    titleImage: Icon,
    infoLines: seq<string>,
    entries: seq<MenuEntry>,
    timeoutSeconds: nat,
    timeoutText: Option<string>)

  /** `submenu_exit_entry`, appended to every submenu. */
  const ReturnEntry: MenuEntry :=
    MenuEntry("Return to Main Menu", ReturnToParent, 0, NoIcon, None)

  /** `entry_about` once its icon is set. */
  const AboutEntry: MenuEntry := MenuEntry("About rEFIt", About, 1, BuiltinIcon(4), None)

  /** `entry_reset` once its icon is set. */
  const ResetEntry: MenuEntry := MenuEntry("Restart Computer", Reset, 1, BuiltinIcon(6), None)

  /** The load options each entry of a screen carries (None for non-loader entries). */
  function OptionsOf(entries: seq<MenuEntry>): seq<Option<string>> {
    seq(|entries|, i requires 0 <= i < |entries| =>
      if entries[i].action.Loader? then entries[i].action.loadOptions else None)
  }

  /** The graphics flag each entry of a screen carries (false for non-loader entries). */
  function GraphicsOf(entries: seq<MenuEntry>): seq<bool> {
    seq(|entries|, i requires 0 <= i < |entries| =>
      entries[i].action.Loader? && entries[i].action.useGraphicsMode)
  }

  /** The titles of the entries of a screen, in order. */
  function TitlesOf(entries: seq<MenuEntry>): seq<string> {
    seq(|entries|, i requires 0 <= i < |entries| => entries[i].title)
  }
}

=== FILE: scan.dfy ===
/**
  * Discovery in release 0.5: `loader_scan_dir`, `loader_scan`, `add_legacy_entry`,
  * `legacy_scan`, `tool_scan` and the assembly of the main menu. Each volume is
  * probed in a fixed order, which is also the on-screen order.
  */
module Scan {
  import opened Wrappers
  import opened Text
  import opened Firmware
  import opened Menu
  import opened Loaders

  /** A loader the scan found: its path and, for the fixed probes, a fixed title.
      `add_loader_entry` turns each into a menu entry (see `VolumeEntries`). */
  datatype Found = Found(loaderPath: string, title: Option<string>)

  /** Loaders found and transcript lines appended by a scan step. */
  datatype Scanned = Scanned(found: seq<Found>, errors: seq<ErrorReport>) {
    function Then(next: Scanned): Scanned {
      Scanned(found + next.found, errors + next.errors)
    }
  }

  const Nothing := Scanned([], [])

  // ---------------------------------------------------------------------------
  // One directory

  /** Helper binaries that are never offered as loaders. */
  predicate IsExcluded(name: string)
    ensures IsExcluded(name) ==> HasEfiSuffix(name)
  {
    ExcludedNamesEndInEfi(name);
    || SameIgnoringCase(name, "TextMode.efi")
    || SameIgnoringCase(name, "ebounce.efi")
    || SameIgnoringCase(name, "GraphicsConsole.efi")
  }

  /** Each denylisted name ends in `.efi`, so a name matching it passes the
      `*.EFI` glob as well. */
  lemma ExcludedNamesEndInEfi(name: string)
    ensures (|| SameIgnoringCase(name, "TextMode.efi") || SameIgnoringCase(name, "ebounce.efi")
             || SameIgnoringCase(name, "GraphicsConsole.efi")) ==> HasEfiSuffix(name)
  {
    if SameIgnoringCase(name, "TextMode.efi") {
      SuffixIgnoringCase(name, "TextMode.efi", 4);
    } else if SameIgnoringCase(name, "ebounce.efi") {
      SuffixIgnoringCase(name, "ebounce.efi", 4);
    } else if SameIgnoringCase(name, "GraphicsConsole.efi") {
      SuffixIgnoringCase(name, "GraphicsConsole.efi", 4);
    }
  }

  /** A file the iterator hands out for the `*.EFI` glob and the denylist lets through. */
  predicate Accepted(e: DirEntry) {
    !e.isDir && HasEfiSuffix(e.name) && !IsExcluded(e.name)
  }

  /** The directory entries a scan turns into menu entries, in iterator order. */
  function AcceptedEntries(entries: seq<DirEntry>): (r: seq<DirEntry>)
    ensures forall e :: e in r ==> e in entries && Accepted(e)
    ensures forall e :: e in entries && Accepted(e) ==> e in r
  {
    if |entries| == 0 then []
    else
      var init := entries[..|entries| - 1];
      var last := entries[|entries| - 1];
      assert entries == init + [last];
      AcceptedEntries(init) + (if Accepted(last) then [last] else [])
  }

  /** The key `DirIterOpen` receives: NULL (the root) is the empty key. */
  function DirKey(path: Option<string>): string {
    path.GetOr("")
  }

  /** `\<Path>\<name>`, or `\<name>` for the root directory. */
  function LoaderPathIn(path: Option<string>, name: string): (p: string)
    ensures AbsolutePath(p)
  {
    match path
    case None => "\\" + name
    case Some(dir) => "\\" + dir + "\\" + name
  }

  lemma BasenameOfLoaderPathIn(path: Option<string>, name: string)
    requires '\\' !in name
    ensures Basename(LoaderPathIn(path, name)) == name
  {
    match path
    case None =>
      assert LoaderPathIn(path, name) == "" + "\\" + name;
      BasenameOfJoin("", name);
    case Some(dir) =>
      BasenameOfJoin("\\" + dir, name);
  }

  /** What `DirIterClose` reports: `NotFound`, the status of an absent directory,
      is not reported; any other error is. */
  function DirScanErrors(path: Option<string>, endStatus: Status): seq<ErrorReport> {
    if endStatus == NotFound then []
    else
      var context := match path
        case None => "while scanning the root directory"
        case Some(dir) => "while scanning the " + dir + " directory";
      CheckError(endStatus, context)
  }

  /** `loader_scan_dir(Volume, Path)`: the accepted files, in iterator order. */
  function ScanDir(fs: FileSystem, path: Option<string>): (r: Scanned)
    ensures var found := AcceptedEntries(Listing(fs, DirKey(path)).entries);
      && |r.found| == |found|
      && forall i :: 0 <= i < |found| ==> r.found[i] == Found(LoaderPathIn(path, found[i].name), None)
    ensures var st := Listing(fs, DirKey(path)).endStatus;
      r.errors == [] <==> !IsError(st) || st == NotFound
  {
    var listing := Listing(fs, DirKey(path));
    var found := AcceptedEntries(listing.entries);
    Scanned(
      seq(|found|, i requires 0 <= i < |found| => Found(LoaderPathIn(path, found[i].name), None)),
      DirScanErrors(path, listing.endStatus))
  }

  /** The directory loop as the source writes it: one iterator step per round. */
  method ScanDirLoop(fs: FileSystem, path: Option<string>) returns (found: seq<Found>, errors: seq<ErrorReport>)
    ensures Scanned(found, errors) == ScanDir(fs, path)
  {
    var listing := Listing(fs, DirKey(path));
    found := [];
    var k := 0;
    while k < |listing.entries|
      invariant 0 <= k <= |listing.entries|
      invariant |found| == |AcceptedEntries(listing.entries[..k])|
      invariant forall i :: 0 <= i < |found| ==>
        found[i] == Found(LoaderPathIn(path, AcceptedEntries(listing.entries[..k])[i].name), None)
    {
      var e := listing.entries[k];
      assert listing.entries[..k + 1][..k] == listing.entries[..k];
      if !e.isDir && HasEfiSuffix(e.name) {
        if !IsExcluded(e.name) {
          found := found + [Found(LoaderPathIn(path, e.name), None)];
        }
      }
      k := k + 1;
    }
    assert listing.entries[..k] == listing.entries;
    errors := DirScanErrors(path, listing.endStatus);
  }

  /** The generic scan offers only `*.efi` files and never a denylisted helper. */
  lemma ScanDirNeverOffersExcluded(fs: FileSystem, path: Option<string>, i: nat)
    requires WellFormed(fs)
    requires i < |ScanDir(fs, path).found|
    ensures var name := Basename(ScanDir(fs, path).found[i].loaderPath);
      !IsExcluded(name) && HasEfiSuffix(name)
  {
    var listing := Listing(fs, DirKey(path));
    var found := AcceptedEntries(listing.entries);
    assert found[i] in found;
    assert found[i] in listing.entries;
    assert '\\' !in found[i].name;
    BasenameOfLoaderPathIn(path, found[i].name);
  }

  /** Every accepted file of a scanned directory is found at `\<Path>\<name>`. */
  lemma ScanDirOffersEveryAccepted(fs: FileSystem, path: Option<string>, e: DirEntry)
    requires e in Listing(fs, DirKey(path)).entries && Accepted(e)
    ensures Found(LoaderPathIn(path, e.name), None) in ScanDir(fs, path).found
  {
    var found := AcceptedEntries(Listing(fs, DirKey(path)).entries);
    assert e in found;
    var i :| 0 <= i < |found| && found[i] == e;
    assert ScanDir(fs, path).found[i] == Found(LoaderPathIn(path, e.name), None);
  }

  // ---------------------------------------------------------------------------
  // One volume

  const XomLoaderPath: string := "\\System\\Library\\CoreServices\\xom.efi"
  const MicrosoftLoaderPath: string := "\\EFI\\Microsoft\\Boot\\Bootmgfw.efi"
  const DiagsLoaderPath: string := "\\System\\Library\\CoreServices\\.diagnostics\\diags.efi"

  /** `\EFI` subdirectories that hold no boot loaders: TOOLS, the manager's own
      directories, and dot entries. */
  predicate IsSkippedEfiSubdir(name: string) {
    || SameIgnoringCase(name, "TOOLS") || (|name| > 0 && name[0] == '.')
    || SameIgnoringCase(name, "REFIT") || SameIgnoringCase(name, "REFITL")
  }

  predicate IsScannedEfiSubdir(e: DirEntry) {
    e.isDir && !IsSkippedEfiSubdir(e.name)
  }

  /** The subdirectories among `entries` whose names `skip` does not reject, in
      iterator order. */
  function SubdirsNotSkipped(entries: seq<DirEntry>, skip: string -> bool): (r: seq<DirEntry>)
    ensures forall e :: e in r ==> e in entries && e.isDir && !skip(e.name)
    ensures forall e :: e in entries && e.isDir && !skip(e.name) ==> e in r
  {
    if |entries| == 0 then []
    else
      var init := entries[..|entries| - 1];
      var last := entries[|entries| - 1];
      assert entries == init + [last];
      SubdirsNotSkipped(init, skip) + (if last.isDir && !skip(last.name) then [last] else [])
  }

  function EfiSubdirPath(name: string): string {
    "EFI\\" + name
  }

  /** The directories a generic scan visits on a volume, in order, when `skip`
      names the `\EFI` subdirectories it passes over. */
  function GenericDirsSkipping(fs: FileSystem, skip: string -> bool): (dirs: seq<Option<string>>)
    ensures |dirs| >= 3 && dirs[..3] == [None, Some("elilo"), Some("boot")]
  {
    var subs := SubdirsNotSkipped(Listing(fs, "EFI").entries, skip);
    [None, Some("elilo"), Some("boot")] +
    seq(|subs|, i requires 0 <= i < |subs| => Some(EfiSubdirPath(subs[i].name)))
  }

  /** The directories the release's generic scan visits on a volume, in order. */
  function GenericDirs(fs: FileSystem): (dirs: seq<Option<string>>)
    ensures |dirs| >= 3 && dirs[..3] == [None, Some("elilo"), Some("boot")]
  {
    GenericDirsSkipping(fs, IsSkippedEfiSubdir)
  }

  function ScanDirs(fs: FileSystem, dirs: seq<Option<string>>): (r: Scanned)
    ensures forall f :: f in r.found ==> f.title.None? && exists d :: d in dirs && f in ScanDir(fs, d).found
    ensures forall f :: f in r.found ==> AbsolutePath(f.loaderPath)
  {
    if |dirs| == 0 then Nothing
    else
      var init := dirs[..|dirs| - 1];
      var last := dirs[|dirs| - 1];
      var r := ScanDirs(fs, init).Then(ScanDir(fs, last));
      assert forall f :: f in r.found ==> f in ScanDirs(fs, init).found || f in ScanDir(fs, last).found;
      r
  }

  /** Scanning two runs of directories finds the first run's loaders, then the
      second's, and reports their transcript lines in the same order. */
  lemma {:induction false} ScanDirsConcat(fs: FileSystem, a: seq<Option<string>>, b: seq<Option<string>>)
    ensures ScanDirs(fs, a + b) == ScanDirs(fs, a).Then(ScanDirs(fs, b))
  {
    if |b| == 0 {
      assert a + b == a;
      assert ScanDirs(fs, a).found + [] == ScanDirs(fs, a).found;
      assert ScanDirs(fs, a).errors + [] == ScanDirs(fs, a).errors;
    } else {
      var b0, last := b[..|b| - 1], b[|b| - 1];
      assert b == b0 + [last];
      assert a + b == (a + b0) + [last];
      ScanDirsStep(fs, a + b, a + b0, last);
      ScanDirsStep(fs, b, b0, last);
      ScanDirsConcat(fs, a, b0);
      var x, y, z := ScanDirs(fs, a), ScanDirs(fs, b0), ScanDir(fs, last);
      ConcatAssoc(x.found, y.found, z.found);
      ConcatAssoc(x.errors, y.errors, z.errors);
    }
  }

  /** One step of the directory loop: the last directory's scan follows the rest. */
  lemma ScanDirsStep(fs: FileSystem, dirs: seq<Option<string>>, init: seq<Option<string>>, last: Option<string>)
    requires dirs == init + [last]
    ensures ScanDirs(fs, dirs) == ScanDirs(fs, init).Then(ScanDir(fs, last))
  {
    assert dirs[..|dirs| - 1] == init;
  }

  /** Every loader found in a visited directory is among the finds of the whole
      directory scan. */
  lemma ScanDirsOffersEvery(fs: FileSystem, dirs: seq<Option<string>>, i: nat, f: Found)
    requires i < |dirs| && f in ScanDir(fs, dirs[i]).found
    ensures f in ScanDirs(fs, dirs).found
  {
    assert dirs == dirs[..i] + [dirs[i]] + dirs[i + 1..];
    ScanDirsConcat(fs, dirs[..i] + [dirs[i]], dirs[i + 1..]);
    assert [dirs[i]][..0] == [];
    ScanDirsConcat(fs, dirs[..i], [dirs[i]]);
  }

  /** A fixed probe: found with a fixed title when the path exists. */
  function Probe(fs: FileSystem, path: string, title: string): (r: Scanned)
    ensures r.errors == []
    ensures |r.found| <= 1
    ensures forall f :: f in r.found ==> f == Found(path, Some(title))
    ensures |r.found| == 1 <==> path in fs.files
  {
    if path in fs.files then Scanned([Found(path, Some(title))], []) else Nothing
  }

  function EfiDirErrors(status: Status): seq<ErrorReport> {
    if status == NotFound then [] else CheckError(status, "while scanning the EFI directory")
  }

  /** The body of the volume loop of `loader_scan`. */
  function ScanVolume(v: Volume): (r: Scanned)
    ensures !v.hasRootDir || v.volName.None? ==> r == Nothing
  {
    if !v.hasRootDir || v.volName.None? then Nothing
    else
      var fs := v.fs;
      Probe(fs, MacOSXLoaderPath, "Mac OS X")
        .Then(Probe(fs, XomLoaderPath, "Windows XP (XoM)"))
        .Then(Probe(fs, MicrosoftLoaderPath, "Microsoft boot menu"))
        .Then(ScanDirs(fs, GenericDirs(fs)))
        .Then(Scanned([], EfiDirErrors(Listing(fs, "EFI").endStatus)))
        .Then(Probe(fs, DiagsLoaderPath, "Apple Hardware Test"))
  }

  /** A scanned volume's finds in the order of `loader_scan`: Mac OS X, xom and
      the Microsoft boot menu, then the generic directories, then the hardware
      test; its transcript is the generic scan's followed by the `\EFI` status. */
  lemma ScanVolumeOrder(v: Volume)
    requires v.hasRootDir && v.volName.Some?
    ensures var fs, r := v.fs, ScanVolume(v);
      && r.found == Probe(fs, MacOSXLoaderPath, "Mac OS X").found
                    + Probe(fs, XomLoaderPath, "Windows XP (XoM)").found
                    + Probe(fs, MicrosoftLoaderPath, "Microsoft boot menu").found
                    + ScanDirs(fs, GenericDirs(fs)).found
                    + Probe(fs, DiagsLoaderPath, "Apple Hardware Test").found
      && r.errors == ScanDirs(fs, GenericDirs(fs)).errors + EfiDirErrors(Listing(fs, "EFI").endStatus)
  {
  }

  /** On a scanned volume each fixed probe finds its loader, under its title,
      whenever the loader exists. */
  lemma ScanVolumeFindsProbes(v: Volume)
    requires v.hasRootDir && v.volName.Some?
    ensures var fs, found := v.fs, ScanVolume(v).found;
      && (MacOSXLoaderPath in fs.files ==> Found(MacOSXLoaderPath, Some("Mac OS X")) in found)
      && (XomLoaderPath in fs.files ==> Found(XomLoaderPath, Some("Windows XP (XoM)")) in found)
      && (MicrosoftLoaderPath in fs.files ==> Found(MicrosoftLoaderPath, Some("Microsoft boot menu")) in found)
      && (DiagsLoaderPath in fs.files ==> Found(DiagsLoaderPath, Some("Apple Hardware Test")) in found)
  {
    ScanVolumeOrder(v);
  }

  /** Every probe that finds its loader precedes every loader of the generic
      directory scan on the same volume, except the hardware test, which
      follows them all. */
  lemma ProbesPrecedeGeneric(v: Volume, i: nat, j: nat)
    requires v.hasRootDir && v.volName.Some?
    requires i < |ScanVolume(v).found| && j < |ScanVolume(v).found|
    requires ScanVolume(v).found[i].title.Some? && ScanVolume(v).found[j].title.None?
    ensures ScanVolume(v).found[i].loaderPath == DiagsLoaderPath <==> j < i
  {
    var fs := v.fs;
    var mac := Probe(fs, MacOSXLoaderPath, "Mac OS X").found;
    var xom := Probe(fs, XomLoaderPath, "Windows XP (XoM)").found;
    var ms := Probe(fs, MicrosoftLoaderPath, "Microsoft boot menu").found;
    var pre := mac + xom + ms;
    var generic := ScanDirs(fs, GenericDirs(fs)).found;
    var post := Probe(fs, DiagsLoaderPath, "Apple Hardware Test").found;
    ScanVolumeOrder(v);
    assert forall f: Found :: f in pre ==> f.title.Some? && f.loaderPath != DiagsLoaderPath;
    TitledAroundUntitled(pre, generic, post, DiagsLoaderPath, i, j);
  }

  /** In `pre + mid + post` with titled `pre` and `post` and untitled `mid`, where
      only `post` holds the loader at `path`, a titled find is that loader exactly
      when it follows a given untitled one. */
  lemma TitledAroundUntitled(pre: seq<Found>, mid: seq<Found>, post: seq<Found>, path: string, i: nat, j: nat)
    requires forall f :: f in pre ==> f.title.Some? && f.loaderPath != path
    requires forall f :: f in mid ==> f.title.None?
    requires forall f :: f in post ==> f.title.Some? && f.loaderPath == path
    requires var s := pre + mid + post; i < |s| && j < |s| && s[i].title.Some? && s[j].title.None?
    ensures (pre + mid + post)[i].loaderPath == path <==> j < i
  {
    var s := pre + mid + post;
    if i >= |pre| + |mid| {
      assert s[i] == post[i - |pre| - |mid|];
    } else if i < |pre| {
      assert s[i] == pre[i];
    }
  }

  /** What a volume's scan finds: a fixed probe path under its title, or a path
      built by the generic directory scan; either way an absolute path. */
  lemma ScanVolumeFound(v: Volume, f: Found)
    requires f in ScanVolume(v).found
    ensures AbsolutePath(f.loaderPath)
    ensures f.title.Some? ==>
      f.loaderPath in {MacOSXLoaderPath, XomLoaderPath, MicrosoftLoaderPath, DiagsLoaderPath}
    ensures f.title.None? ==> f in ScanDirs(v.fs, GenericDirs(v.fs)).found
  {
    var fs := v.fs;
    var mac := Probe(fs, MacOSXLoaderPath, "Mac OS X");
    var xom := Probe(fs, XomLoaderPath, "Windows XP (XoM)");
    var ms := Probe(fs, MicrosoftLoaderPath, "Microsoft boot menu");
    var generic := ScanDirs(fs, GenericDirs(fs));
    var diags := Probe(fs, DiagsLoaderPath, "Apple Hardware Test");
    assert ScanVolume(v).found == mac.found + xom.found + ms.found + generic.found + diags.found;
    if f.title.Some? {
      assert MacOSXLoaderPath[0] == '\\' && XomLoaderPath[0] == '\\';
      assert MicrosoftLoaderPath[0] == '\\' && DiagsLoaderPath[0] == '\\';
    }
  }

  /** `\EFI\<name>` is visited exactly when the `\EFI` listing holds a directory of
      that name that `skip` does not reject. */
  lemma SubdirVisitedIff(fs: FileSystem, skip: string -> bool, name: string)
    ensures Some(EfiSubdirPath(name)) in GenericDirsSkipping(fs, skip) <==>
      exists e :: e in Listing(fs, "EFI").entries && e.isDir && e.name == name && !skip(name)
  {
    var subs := SubdirsNotSkipped(Listing(fs, "EFI").entries, skip);
    var fixed: seq<Option<string>> := [None, Some("elilo"), Some("boot")];
    var paths := seq(|subs|, i requires 0 <= i < |subs| => Some(EfiSubdirPath(subs[i].name)));
    assert GenericDirsSkipping(fs, skip) == fixed + paths;
    assert Some(EfiSubdirPath(name)) !in fixed by {
      assert EfiSubdirPath(name)[0] == 'E';
    }
    if Some(EfiSubdirPath(name)) in paths {
      var j :| 0 <= j < |paths| && paths[j] == Some(EfiSubdirPath(name));
      assert subs[j].name == EfiSubdirPath(subs[j].name)[4..] == EfiSubdirPath(name)[4..] == name;
      assert subs[j] in subs;
    }
    if e :| e in Listing(fs, "EFI").entries && e.isDir && e.name == name && !skip(name) {
      assert e in subs;
      var j :| 0 <= j < |subs| && subs[j] == e;
      assert paths[j] == Some(EfiSubdirPath(name));
    }
  }

  /** Release 0.5 visits `\EFI\<name>` exactly when the `\EFI` listing holds a
      directory of that name that is not skipped. */
  lemma EfiSubdirScannedIff(fs: FileSystem, name: string)
    ensures Some(EfiSubdirPath(name)) in GenericDirs(fs) <==>
      exists e :: e in Listing(fs, "EFI").entries && IsScannedEfiSubdir(e) && e.name == name
  {
    SubdirVisitedIff(fs, IsSkippedEfiSubdir, name);
  }

  /** TOOLS, REFIT, REFITL (any case) and dot directories under `\EFI` are never visited. */
  lemma SkippedSubdirsNeverScanned(fs: FileSystem, name: string)
    requires IsSkippedEfiSubdir(name)
    ensures Some(EfiSubdirPath(name)) !in GenericDirs(fs)
  {
    EfiSubdirScannedIff(fs, name);
  }

  lemma MacOSXBasename()
    ensures Basename(MacOSXLoaderPath) == "boot.efi"
  {
    assert MacOSXLoaderPath == "\\System\\Library\\CoreServices" + "\\" + "boot.efi";
    BasenameOfJoin("\\System\\Library\\CoreServices", "boot.efi");
  }

  lemma XomBasename()
    ensures Basename(XomLoaderPath) == "xom.efi"
  {
    assert XomLoaderPath == "\\System\\Library\\CoreServices" + "\\" + "xom.efi";
    BasenameOfJoin("\\System\\Library\\CoreServices", "xom.efi");
  }

  lemma MicrosoftBasename()
    ensures Basename(MicrosoftLoaderPath) == "Bootmgfw.efi"
  {
    assert MicrosoftLoaderPath == "\\EFI\\Microsoft\\Boot" + "\\" + "Bootmgfw.efi";
    BasenameOfJoin("\\EFI\\Microsoft\\Boot", "Bootmgfw.efi");
  }

  lemma DiagsBasename()
    ensures Basename(DiagsLoaderPath) == "diags.efi"
  {
    assert DiagsLoaderPath == "\\System\\Library\\CoreServices\\.diagnostics" + "\\" + "diags.efi";
    BasenameOfJoin("\\System\\Library\\CoreServices\\.diagnostics", "diags.efi");
  }

  /** None of the four fixed probes names a denylisted helper. */
  lemma ProbesNotExcluded()
    ensures !IsExcluded(Basename(MacOSXLoaderPath))
    ensures !IsExcluded(Basename(XomLoaderPath))
    ensures !IsExcluded(Basename(MicrosoftLoaderPath))
    ensures !IsExcluded(Basename(DiagsLoaderPath))
  {
    MacOSXBasename(); XomBasename(); MicrosoftBasename(); DiagsBasename();
    NoCommonMatch("Bootmgfw.efi", "Bootmgfw.efi", "TextMode.efi", 0);
  }

  /** No loader found on a volume names a denylisted helper, fixed probes included. */
  lemma VolumeNeverOffersExcluded(v: Volume, i: nat)
    requires WellFormed(v.fs)
    requires i < |ScanVolume(v).found|
    ensures !IsExcluded(Basename(ScanVolume(v).found[i].loaderPath))
  {
    var f := ScanVolume(v).found[i];
    ScanVolumeFound(v, f);
    if f.title.Some? {
      ProbesNotExcluded();
    } else {
      var fs := v.fs;
      assert f in ScanDirs(fs, GenericDirs(fs)).found;
      var d :| d in GenericDirs(fs) && f in ScanDir(fs, d).found;
      var k :| 0 <= k < |ScanDir(fs, d).found| && ScanDir(fs, d).found[k] == f;
      ScanDirNeverOffersExcluded(fs, d, k);
    }
  }

  /** When the Mac OS X loader exists it comes first on its volume. */
  lemma MacOSXFoundFirst(v: Volume)
    requires v.hasRootDir && v.volName.Some?
    requires MacOSXLoaderPath in v.fs.files
    ensures |ScanVolume(v).found| > 0
    ensures ScanVolume(v).found[0] == Found(MacOSXLoaderPath, Some("Mac OS X"))
  {
  }

  /** When Apple's hardware test exists it comes last on its volume. */
  lemma DiagsFoundLast(v: Volume)
    requires v.hasRootDir && v.volName.Some?
    requires DiagsLoaderPath in v.fs.files
    ensures var fs := ScanVolume(v).found;
      |fs| > 0 && fs[|fs| - 1] == Found(DiagsLoaderPath, Some("Apple Hardware Test"))
  {
  }

  // ---------------------------------------------------------------------------
  // Probes and the generic scan never meet

  lemma ComponentDepth(word: string)
    requires '\\' !in word
    ensures Backslashes("\\" + word) == 1
  {
    BackslashesConcat("\\", word);
    BackslashesOfName(word);
    assert Backslashes("\\") == Backslashes("") + 1;
  }

  /** Appending a backslash and a single component adds one to the depth. */
  lemma AppendComponent(dir: string, word: string)
    requires '\\' !in word
    ensures Backslashes(dir + "\\" + word) == Backslashes(dir) + 1
  {
    ComponentDepth(word);
    assert dir + "\\" + word == dir + ("\\" + word);
    BackslashesConcat(dir, "\\" + word);
  }

  lemma SystemLibraryDepth()
    ensures Backslashes("\\System\\Library") == 2
  {
    assert "\\System" == "\\" + "System";
    ComponentDepth("System");
    assert "\\System\\Library" == "\\System" + "\\" + "Library";
    AppendComponent("\\System", "Library");
  }

  lemma CoreServicesDepth()
    ensures Backslashes("\\System\\Library\\CoreServices") == 3
  {
    SystemLibraryDepth();
    assert "\\System\\Library\\CoreServices" == "\\System\\Library" + "\\" + "CoreServices";
    AppendComponent("\\System\\Library", "CoreServices");
  }

  lemma MacOSXDepth()
    ensures Backslashes(MacOSXLoaderPath) == 4
  {
    CoreServicesDepth();
    assert MacOSXLoaderPath == "\\System\\Library\\CoreServices" + "\\" + "boot.efi";
    AppendComponent("\\System\\Library\\CoreServices", "boot.efi");
  }

  lemma XomDepth()
    ensures Backslashes(XomLoaderPath) == 4
  {
    CoreServicesDepth();
    assert XomLoaderPath == "\\System\\Library\\CoreServices" + "\\" + "xom.efi";
    AppendComponent("\\System\\Library\\CoreServices", "xom.efi");
  }

  lemma MicrosoftBootDepth()
    ensures Backslashes("\\EFI\\Microsoft\\Boot") == 3
  {
    assert "\\EFI" == "\\" + "EFI";
    ComponentDepth("EFI");
    assert "\\EFI\\Microsoft" == "\\EFI" + "\\" + "Microsoft";
    AppendComponent("\\EFI", "Microsoft");
    assert "\\EFI\\Microsoft\\Boot" == "\\EFI\\Microsoft" + "\\" + "Boot";
    AppendComponent("\\EFI\\Microsoft", "Boot");
  }

  lemma MicrosoftDepth()
    ensures Backslashes(MicrosoftLoaderPath) == 4
  {
    MicrosoftBootDepth();
    assert MicrosoftLoaderPath == "\\EFI\\Microsoft\\Boot" + "\\" + "Bootmgfw.efi";
    AppendComponent("\\EFI\\Microsoft\\Boot", "Bootmgfw.efi");
  }

  lemma DiagsDepth()
    ensures Backslashes(DiagsLoaderPath) == 5
  {
    CoreServicesDepth();
    var cs := "\\System\\Library\\CoreServices";
    assert cs + "\\" + ".diagnostics" == "\\System\\Library\\CoreServices\\.diagnostics";
    AppendComponent(cs, ".diagnostics");
    assert DiagsLoaderPath == "\\System\\Library\\CoreServices\\.diagnostics" + "\\" + "diags.efi";
    AppendComponent("\\System\\Library\\CoreServices\\.diagnostics", "diags.efi");
  }

  /** A listed entry of a well-formed file system is a single component. */
  lemma ListedNameIsComponent(fs: FileSystem, key: string, e: DirEntry)
    requires WellFormed(fs)
    requires e in Listing(fs, key).entries
    ensures '\\' !in e.name
  {
  }

  /** A directory of the generic scan is the root, `elilo`, `boot`, or a listed
      subdirectory of `\EFI`. */
  lemma GenericDirCases(fs: FileSystem, d: Option<string>)
    requires d in GenericDirs(fs) && d.Some?
    ensures || d.value == "elilo" || d.value == "boot"
            || exists e :: e in Listing(fs, "EFI").entries && d.value == EfiSubdirPath(e.name)
  {
    var dirs := GenericDirs(fs);
    var j :| 0 <= j < |dirs| && dirs[j] == d;
    if j < 3 {
      assert dirs[..3][j] == d;
    } else {
      var subs := SubdirsNotSkipped(Listing(fs, "EFI").entries, IsSkippedEfiSubdir);
      assert subs[j - 3] in subs;
    }
  }

  /** Every directory the generic scan visits is at most two components deep. */
  lemma GenericDirDepth(fs: FileSystem, d: Option<string>)
    requires WellFormed(fs)
    requires d in GenericDirs(fs) && d.Some?
    ensures Backslashes("\\" + d.value) <= 2
  {
    GenericDirCases(fs, d);
    if d.value == "elilo" || d.value == "boot" {
      ComponentDepth(d.value);
    } else {
      var e :| e in Listing(fs, "EFI").entries && d.value == EfiSubdirPath(e.name);
      ListedNameIsComponent(fs, "EFI", e);
      EfiSubdirDepth(e.name);
    }
  }

  lemma EfiSubdirDepth(name: string)
    requires '\\' !in name
    ensures Backslashes("\\" + EfiSubdirPath(name)) == 2
  {
    assert "\\" + EfiSubdirPath(name) == "\\" + "EFI" + "\\" + name;
    ComponentDepth("EFI");
    AppendComponent("\\" + "EFI", name);
  }

  /** Every path the generic scan builds is at most three components deep. */
  lemma GenericDepth(fs: FileSystem, d: Option<string>, name: string)
    requires WellFormed(fs)
    requires d in GenericDirs(fs) && '\\' !in name
    ensures Backslashes(LoaderPathIn(d, name)) <= 3
  {
    ComponentDepth(name);
    if d.Some? {
      GenericDirDepth(fs, d);
      assert LoaderPathIn(d, name) == ("\\" + d.value) + ("\\" + name);
      BackslashesConcat("\\" + d.value, "\\" + name);
    }
  }

  /** The fixed probes and the generic directory scans never build the same path,
      so a volume lists no loader twice through these two routes. */
  lemma GenericScanMissesProbes(fs: FileSystem, d: Option<string>, i: nat)
    requires WellFormed(fs)
    requires d in GenericDirs(fs)
    requires i < |ScanDir(fs, d).found|
    ensures ScanDir(fs, d).found[i].loaderPath
      !in {MacOSXLoaderPath, XomLoaderPath, MicrosoftLoaderPath, DiagsLoaderPath}
  {
    var found := AcceptedEntries(Listing(fs, DirKey(d)).entries);
    assert found[i] in found;
    if DirKey(d) in fs.dirs {
      assert found[i] in fs.dirs[DirKey(d)].entries;
    }
    assert '\\' !in found[i].name;
    GenericDepth(fs, d, found[i].name);
    MacOSXDepth(); XomDepth(); MicrosoftDepth(); DiagsDepth();
  }

  // ---------------------------------------------------------------------------
  // All volumes: `loader_scan`

  /** What discovery adds to the main menu and the transcript. */
  datatype Discovered = Discovered(entries: seq<MenuEntry>, errors: seq<ErrorReport>)

  /** `add_loader_entry` applied, in order, to what a volume's scan found. Every
      entry sits in row 0 and boots from this volume under its name. */
  function VolumeEntries(v: Volume): (es: seq<MenuEntry>)
    ensures |es| == |ScanVolume(v).found|
    ensures es != [] ==> v.hasRootDir && v.volName.Some?
    ensures forall e :: e in es ==>
      && e.row == 0 && e.action.Loader? && v.volName.Some?
      && e.action.devicePath.device == v.device && e.action.volName == v.volName.value
  {
    var found := ScanVolume(v).found;
    if v.volName.None? then []
    else
      FoundPathsAbsolute(v);
      seq(|found|, i requires 0 <= i < |found| =>
        AddLoaderEntry(found[i].loaderPath, found[i].title, v.device, v.volName.value))
  }

  lemma FoundPathsAbsolute(v: Volume)
    ensures var found := ScanVolume(v).found;
      forall i :: 0 <= i < |found| ==> AbsolutePath(found[i].loaderPath)
  {
    var found := ScanVolume(v).found;
    forall i | 0 <= i < |found| ensures AbsolutePath(found[i].loaderPath) {
      ScanVolumeFound(v, found[i]);
    }
  }

  /** Entry `i` of a volume boots the `i`-th loader its scan found, from this
      volume, under the probe's title or the path without its leading
      backslash, with the graphics mode the classification gives. */
  lemma VolumeEntryIs(v: Volume, i: nat)
    requires i < |VolumeEntries(v)|
    ensures var f, e := ScanVolume(v).found[i], VolumeEntries(v)[i];
      && v.hasRootDir && v.volName.Some? && AbsolutePath(f.loaderPath)
      && e.title == "Boot " + DisplayName(f.loaderPath, f.title) + " from " + v.volName.value
      && e.action.Loader?
      && e.action.loaderPath == f.loaderPath
      && e.action.devicePath == FileDevicePath(v.device, f.loaderPath)
      && e.action.useGraphicsMode == Classify(f.loaderPath).useGraphicsMode
  {
    var f := ScanVolume(v).found[i];
    ScanVolumeFound(v, f);
    assert VolumeEntries(v)[i] == AddLoaderEntry(f.loaderPath, f.title, v.device, v.volName.value);
  }

  /** What one volume contributes. */
  function VolumeDiscovered(v: Volume): Discovered {
    Discovered(VolumeEntries(v), ScanVolume(v).errors)
  }

  /** The contributions of a run of volumes, one after the other. */
  function Flatten(ds: seq<Discovered>): Discovered {
    if |ds| == 0 then Discovered([], [])
    else
      var r := Flatten(ds[..|ds| - 1]);
      Discovered(r.entries + ds[|ds| - 1].entries, r.errors + ds[|ds| - 1].errors)
  }

  lemma {:induction false} FlattenConcat(x: seq<Discovered>, y: seq<Discovered>)
    ensures Flatten(x + y) == Discovered(Flatten(x).entries + Flatten(y).entries,
                                         Flatten(x).errors + Flatten(y).errors)
  {
    if |y| == 0 {
      assert x + y == x;
    } else {
      var y' := y[..|y| - 1];
      assert (x + y)[..|x + y| - 1] == x + y';
      FlattenConcat(x, y');
    }
  }

  lemma {:induction false} FlattenMember(ds: seq<Discovered>, e: MenuEntry)
    requires e in Flatten(ds).entries
    ensures exists i :: 0 <= i < |ds| && e in ds[i].entries
  {
    var init := ds[..|ds| - 1];
    if e in Flatten(init).entries {
      FlattenMember(init, e);
      var i :| 0 <= i < |init| && e in init[i].entries;
      assert ds[i] == init[i];
    } else {
      assert e in ds[|ds| - 1].entries;
    }
  }

  /** The contribution of each volume, in order. */
  function EachVolume(f: Volume -> Discovered, vols: seq<Volume>): (ds: seq<Discovered>)
    ensures |ds| == |vols| && forall i :: 0 <= i < |vols| ==> ds[i] == f(vols[i])
  {
    if |vols| == 0 then [] else EachVolume(f, vols[..|vols| - 1]) + [f(vols[|vols| - 1])]
  }

  lemma EachVolumeConcat(f: Volume -> Discovered, a: seq<Volume>, b: seq<Volume>)
    ensures EachVolume(f, a + b) == EachVolume(f, a) + EachVolume(f, b)
  {
  }

  /** `loader_scan`: the volumes in enumeration order; volumes without a root
      directory or a name are passed over. */
  function LoaderScan(vols: seq<Volume>): Discovered
  {
    Flatten(EachVolume(VolumeDiscovered, vols))
  }

  /** A machine whose volumes all lack a root directory or a name gets no
      loader entries and no transcript lines. */
  lemma LoaderScanSkipsUnnamed(vols: seq<Volume>)
    requires forall v :: v in vols ==> !v.hasRootDir || v.volName.None?
    ensures LoaderScan(vols) == Discovered([], [])
  {
    SkippedVolumesAddNothing(vols, |vols|);
    assert vols[..|vols|] == vols;
  }

  lemma {:induction false} SkippedVolumesAddNothing(vols: seq<Volume>, k: nat)
    requires k <= |vols|
    requires forall v :: v in vols ==> !v.hasRootDir || v.volName.None?
    ensures LoaderScan(vols[..k]) == Discovered([], [])
  {
    if k > 0 {
      SkippedVolumesAddNothing(vols, k - 1);
      LoaderScanStep(vols, k - 1);
      assert vols[k - 1] in vols;
    } else {
      assert EachVolume(VolumeDiscovered, vols[..0]) == [];
    }
  }

  /** Every entry of the loader scan boots a loader on one of the given volumes,
      and only on one that has a root directory and a name. */
  lemma LoaderScanEntries(vols: seq<Volume>, e: MenuEntry)
    requires e in LoaderScan(vols).entries
    ensures e.row == 0 && e.action.Loader?
    ensures exists v :: (v in vols && v.hasRootDir && v.volName.Some?
      && e.action.devicePath.device == v.device && e.action.volName == v.volName.value)
  {
    var ds := EachVolume(VolumeDiscovered, vols);
    FlattenMember(ds, e);
    var i :| 0 <= i < |ds| && e in ds[i].entries;
    var v := vols[i];
    assert e in VolumeEntries(v);
    assert v in vols;
  }

  /** Scanning two runs of volumes one after the other yields the first run's
      entries and transcript followed by the second's. */
  lemma LoaderScanConcat(a: seq<Volume>, b: seq<Volume>)
    ensures LoaderScan(a + b) == Discovered(LoaderScan(a).entries + LoaderScan(b).entries,
                                            LoaderScan(a).errors + LoaderScan(b).errors)
  {
    EachVolumeConcat(VolumeDiscovered, a, b);
    FlattenConcat(EachVolume(VolumeDiscovered, a), EachVolume(VolumeDiscovered, b));
  }

  /** One more volume appends its contribution, which is empty for a volume
      without a root directory or a name. */
  lemma LoaderScanStep(vols: seq<Volume>, k: nat)
    requires k < |vols|
    ensures var v, before := vols[k], LoaderScan(vols[..k]);
      LoaderScan(vols[..k + 1])
        == if v.hasRootDir && v.volName.Some?
           then Discovered(before.entries + VolumeEntries(v), before.errors + ScanVolume(v).errors)
           else before
  {
    var v := vols[k];
    var ds := EachVolume(VolumeDiscovered, vols[..k + 1]);
    assert vols[..k + 1][..k] == vols[..k];
    assert ds[..|ds| - 1] == EachVolume(VolumeDiscovered, vols[..k]);
    var d := VolumeDiscovered(v);
    assert ds[|ds| - 1] == d;
    if !(v.hasRootDir && v.volName.Some?) {
      assert d.entries == [] && d.errors == [];
      var before := LoaderScan(vols[..k]);
      assert before.entries + [] == before.entries && before.errors + [] == before.errors;
    }
  }

  /** The loop of `loader_scan` as the source writes it. */
  method LoaderScanLoop(vols: seq<Volume>) returns (entries: seq<MenuEntry>, errors: seq<ErrorReport>)
    ensures Discovered(entries, errors) == LoaderScan(vols)
  {
    entries, errors := [], [];
    var k := 0;
    while k < |vols|
      invariant 0 <= k <= |vols|
      invariant Discovered(entries, errors) == LoaderScan(vols[..k])
    {
      var v := vols[k];
      LoaderScanStep(vols, k);
      if v.hasRootDir && v.volName.Some? {
        entries := entries + VolumeEntries(v);
        errors := errors + ScanVolume(v).errors;
      }
      k := k + 1;
    }
    assert vols[..k] == vols;
  }
}

=== FILE: text.dfy ===
/**
  * String helpers the boot manager relies on: the firmware's case-insensitive
  * comparison (`StriCmp`), the last path component of a backslash-separated
  * path (`Basename`) and the `*.EFI` name glob of the directory iterator.
  */
module Text {

  /** Upper-case folding as the firmware's case-insensitive compare applies it
      to the (ASCII) names the boot manager looks for. */
  function Fold(c: char): (r: char)
    ensures r == '\\' <==> c == '\\'
    ensures 'a' <= r <= 'z' ==> false
  {
    if 'a' <= c <= 'z' then (c as int - 32) as char else c
  }

  /** `StriCmp(a, b) == 0`: equal lengths, equal characters after folding. */
  predicate SameIgnoringCase(a: string, b: string) {
    |a| == |b| && forall i :: 0 <= i < |a| ==> Fold(a[i]) == Fold(b[i])
  }

  /** Equality up to case is an equivalence: a name matches a constant exactly
      when any name equal to it up to case does. */
  lemma SameIgnoringCaseTrans(a: string, b: string, c: string)
    requires SameIgnoringCase(a, b)
    ensures SameIgnoringCase(a, c) <==> SameIgnoringCase(b, c)
  {
    if |a| == |c| {
      assert (forall i :: 0 <= i < |a| ==> Fold(a[i]) == Fold(c[i])) <==>
             (forall i :: 0 <= i < |b| ==> Fold(b[i]) == Fold(c[i])) by {
        assert forall i :: 0 <= i < |a| ==> Fold(a[i]) == Fold(b[i]);
      }
    }
  }

  /** Names equal up to case have suffixes equal up to case. */
  lemma SuffixIgnoringCase(a: string, b: string, n: nat)
    requires SameIgnoringCase(a, b) && n <= |a|
    ensures SameIgnoringCase(a[|a| - n..], b[|b| - n..])
  {
    var x, y := a[|a| - n..], b[|b| - n..];
    forall i | 0 <= i < |x|
      ensures Fold(x[i]) == Fold(y[i])
    {
      assert x[i] == a[|a| - n + i] && y[i] == b[|b| - n + i];
    }
  }

  /** Two constants that differ at some position after folding match no common name. */
  lemma NoCommonMatch(x: string, a: string, b: string, i: nat)
    requires i < |a| && i < |b| && Fold(a[i]) != Fold(b[i])
    ensures !(SameIgnoringCase(x, a) && SameIgnoringCase(x, b))
  {
  }

  /** The glob `*.EFI` used when iterating a directory for loaders. */
  predicate HasEfiSuffix(name: string) {
    |name| >= 4 && SameIgnoringCase(name[|name| - 4..], ".efi")
  }

  /** The last component of a path: the longest suffix free of backslashes. */
  function Basename(path: string): (name: string)
    ensures '\\' !in name
    ensures |name| <= |path|
  {
    if |path| == 0 || path[|path| - 1] == '\\' then ""
    else Basename(path[..|path| - 1]) + [path[|path| - 1]]
  }

  /** The basename is a suffix of the path, and the whole path or preceded by a
      backslash. */
  lemma {:induction false} BasenameIsSuffix(path: string)
    ensures var name := Basename(path);
      && path[|path| - |name|..] == name
      && (|name| < |path| ==> path[|path| - |name| - 1] == '\\')
  {
    if |path| > 0 && path[|path| - 1] != '\\' {
      var init := path[..|path| - 1];
      BasenameIsSuffix(init);
      var b := Basename(init);
      assert path[|path| - |b| - 1..] == init[|init| - |b|..] + [path[|path| - 1]];
      if |b| < |init| {
        assert path[|path| - |b| - 2] == init[|init| - |b| - 1];
      }
    }
  }

  /** A backslash-free suffix that is either the whole path or preceded by a
      backslash is the basename: the three properties above pin it down. */
  lemma BasenameUnique(path: string, name: string)
    requires '\\' !in name
    requires |name| <= |path| && path[|path| - |name|..] == name
    requires |name| < |path| ==> path[|path| - |name| - 1] == '\\'
    ensures Basename(path) == name
  {
    BasenameIsSuffix(path);
  }

  /** The file name found in a directory listing is the basename of the path
      built by appending it to a directory. */
  lemma BasenameOfJoin(dir: string, name: string)
    requires '\\' !in name
    ensures Basename(dir + "\\" + name) == name
  {
    var p := dir + "\\" + name;
    assert p[|p| - |name|..] == name;
    if |name| < |p| {
      assert p[|p| - |name| - 1] == '\\';
    }
    BasenameUnique(p, name);
  }

  /** Two paths equal up to case have basenames equal up to case. */
  lemma {:induction false} BasenameIgnoresCase(p: string, q: string)
    requires SameIgnoringCase(p, q)
    ensures SameIgnoringCase(Basename(p), Basename(q))
  {
    if |p| == 0 || p[|p| - 1] == '\\' {
      if |p| > 0 {
        assert Fold(q[|q| - 1]) == Fold(p[|p| - 1]);
      }
    } else {
      var n := |p| - 1;
      assert Fold(p[n]) == Fold(q[n]);
      assert q[n] != '\\';
      assert SameIgnoringCase(p[..n], q[..n]) by {
        forall i | 0 <= i < n
          ensures Fold(p[..n][i]) == Fold(q[..n][i])
        {
          assert Fold(p[i]) == Fold(q[i]);
        }
      }
      BasenameIgnoresCase(p[..n], q[..n]);
      var bp := Basename(p[..n]);
      var bq := Basename(q[..n]);
      assert Basename(p) == bp + [p[n]];
      assert Basename(q) == bq + [q[n]];
      forall i | 0 <= i < |bp| + 1
        ensures Fold((bp + [p[n]])[i]) == Fold((bq + [q[n]])[i])
      {
        if i < |bp| {
          assert Fold(bp[i]) == Fold(bq[i]);
        }
      }
    }
  }

  /** Number of backslashes, i.e. the depth of an absolute path. */
  function Backslashes(s: string): nat {
    if |s| == 0 then 0
    else Backslashes(s[..|s| - 1]) + (if s[|s| - 1] == '\\' then 1 else 0)
  }

  lemma {:induction false} BackslashesConcat(a: string, b: string)
    ensures Backslashes(a + b) == Backslashes(a) + Backslashes(b)
  {
    if |b| == 0 {
      assert a + b == a;
    } else {
      var b' := b[..|b| - 1];
      assert (a + b)[..|a + b| - 1] == a + b';
      BackslashesConcat(a, b');
    }
  }

  /** A name without backslashes contributes nothing to the depth. */
  lemma {:induction false} BackslashesOfName(name: string)
    requires '\\' !in name
    ensures Backslashes(name) == 0
  {
    if |name| > 0 {
      assert name[|name| - 1] in name;
      assert forall c | c in name[..|name| - 1] :: c in name;
      BackslashesOfName(name[..|name| - 1]);
    }
  }
}

=== FILE: trunk.dfy ===
/**
  * The older trunk snapshot of `main.c` (it calls itself version 0.4): loader
  * classification without submenus, the same directory scan with a narrower
  * `\EFI` skip list and no hardware-test probe, the "Unnamed Volume" fallback,
  * the file-system listing status, and the shell probe next to the boot
  * manager's own directory. Where the code is the same as in release 0.5 the
  * release definitions are reused.
  */
module Trunk {
  import opened Wrappers
  import opened Text
  import opened Firmware
  import opened Menu
  import opened Loaders
  import opened Scan
  import Discovery

  // ---------------------------------------------------------------------------
  // File name of a loader path

  /** UINTN is as wide as a pointer: 32 bits on IA32, 64 bits on x64. */
  datatype UintnWidth = Ia32 | X64

  function UintnModulus(w: UintnWidth): (m: nat)
    ensures m >= 0x1_0000_0000
  {
    if w == Ia32 then 0x1_0000_0000 else 0x1_0000_0000_0000_0000
  }

  /** `i--` on a UINTN. */
  function Decrement(w: UintnWidth, i: nat): (j: nat)
    requires i < UintnModulus(w)
    ensures j < UintnModulus(w)
    ensures i > 0 ==> j + 1 == i
    ensures i == 0 ==> j == UintnModulus(w) - 1
  {
    (i + UintnModulus(w) - 1) % UintnModulus(w)
  }

  /** `StrLen(LoaderPath) - 1` on a UINTN. */
  function StartIndex(w: UintnWidth, path: string): (i: nat)
    requires |path| < UintnModulus(w)
    ensures i < UintnModulus(w)
    ensures (i + 1) % UintnModulus(w) == |path|
  {
    (|path| + UintnModulus(w) - 1) % UintnModulus(w)
  }

  /** The index the file-name loop of `add_loader_entry` reads after `k` rounds
      that found no backslash. Its guard `i >= 0` holds for every UINTN. */
  function IndexAfter(w: UintnWidth, path: string, k: nat): (i: nat)
    requires |path| < UintnModulus(w)
    ensures i < UintnModulus(w)
  {
    if k == 0 then StartIndex(w, path) else Decrement(w, IndexAfter(w, path, k - 1))
  }

  /** The address of `LoaderPath[i]`: the string's base address plus `i`
      two-byte characters, computed modulo the address width. */
  function CharAddress(w: UintnWidth, base: nat, i: nat): nat {
    (base + 2 * i) % UintnModulus(w)
  }

  /** As written, the loop never stops by its guard: on a path without a
      backslash it reads every character, then the index wraps to the largest
      UINTN, which addresses the character just before the string. */
  lemma FileNameLoopOverruns(w: UintnWidth, base: nat)
    requires 2 <= base < UintnModulus(w)
    ensures var path := "boot.efi";
      && (forall k :: 0 <= k < |path| ==> IndexAfter(w, path, k) == |path| - 1 - k && path[IndexAfter(w, path, k)] != '\\')
      && IndexAfter(w, path, |path|) == UintnModulus(w) - 1
      && CharAddress(w, base, IndexAfter(w, path, |path|)) == base - 2
  {
    var path := "boot.efi";
    forall k | 0 <= k < |path|
      ensures IndexAfter(w, path, k) == |path| - 1 - k
    {
      IndexAfterNoWrap(w, path, k);
    }
    IndexAfterWraps(w, path, 0);
    RunawayReadsBackwards(w, path, base, 0);
  }

  lemma {:induction false} IndexAfterNoWrap(w: UintnWidth, path: string, k: nat)
    requires 0 < |path| < UintnModulus(w) && k < |path|
    ensures IndexAfter(w, path, k) == |path| - 1 - k
  {
    if k > 0 {
      IndexAfterNoWrap(w, path, k - 1);
    }
  }

  /** Past index 0 the loop keeps counting down from the largest UINTN. */
  lemma {:induction false} IndexAfterWraps(w: UintnWidth, path: string, j: nat)
    requires |path| + j < UintnModulus(w)
    ensures IndexAfter(w, path, |path| + j) == UintnModulus(w) - 1 - j
  {
    if j > 0 {
      IndexAfterWraps(w, path, j - 1);
    } else if |path| > 0 {
      IndexAfterNoWrap(w, path, |path| - 1);
    }
  }

  /** Round `|path| + j` of the runaway loop reads the `j + 1`-th character
      before the start of the string: the loop walks backwards through the
      memory that precedes the buffer. */
  lemma RunawayReadsBackwards(w: UintnWidth, path: string, base: nat, j: nat)
    requires |path| + j < UintnModulus(w) && 2 * (j + 1) <= base < UintnModulus(w)
    ensures CharAddress(w, base, IndexAfter(w, path, |path| + j)) == base - 2 * (j + 1)
  {
    IndexAfterWraps(w, path, j);
  }

  /** The empty path already starts at the largest UINTN. */
  lemma EmptyPathStartsOutside(w: UintnWidth)
    ensures StartIndex(w, "") == UintnModulus(w) - 1
  {
  }

  /** The file-name loop with the guard it evidently intends (stop below index 0):
      the suffix after the last backslash, or the whole path when there is none. */
  method FileNameLoop(path: string) returns (fileName: string)
    ensures fileName == Basename(path)
    ensures '\\' !in path ==> fileName == path
  {
    fileName := path;
    var i := |path|;
    while i > 0
      invariant 0 <= i <= |path|
      invariant '\\' !in path[i..]
      invariant fileName == path
    {
      if path[i - 1] == '\\' {
        fileName := path[i..];
        BasenameUnique(path, fileName);
        return;
      }
      i := i - 1;
    }
    assert path[0..] == path;
    BasenameUnique(path, path);
  }

  // ---------------------------------------------------------------------------
  // add_loader_entry

  /** The OS image and graphics mode of an entry; the trunk has no submenus and no
      hardware-test icon. The trunk's `add_loader_entry` keeps no loader kind: the
      `kind` field is filled in only to compare with release 0.5
      (`GraphicsAgreesWithRelease`). */
  function Classify(loaderPath: string): (c: Classification)
    ensures c.kind != EliloKind || IsEliloName(Basename(loaderPath))
    // the Mac OS X image exactly for the Mac OS X path, the Linux image for an
    // elilo name elsewhere, and the Windows image only for the two Windows loaders
    ensures c.icon == NamedImage("Internal.icns") <==> SameIgnoringCase(loaderPath, MacOSXLoaderPath)
    ensures c.icon == NamedImage("os_linux") <==>
      !SameIgnoringCase(loaderPath, MacOSXLoaderPath) && IsEliloName(Basename(loaderPath))
    ensures c.icon == NamedImage("os_win") ==>
      SameIgnoringCase(Basename(loaderPath), "Bootmgfw.efi") || IsXomName(Basename(loaderPath))
  {
    var fileName := Basename(loaderPath);
    if SameIgnoringCase(loaderPath, MacOSXLoaderPath) then
      Classification(MacOSKind, true, NamedImage("Internal.icns"))
    else if IsEliloName(fileName) then
      Classification(EliloKind, false, NamedImage("os_linux"))
    else if SameIgnoringCase(fileName, "Bootmgfw.efi") then
      Classification(GenericKind, false, NamedImage("os_win"))
    else if IsXomName(fileName) then
      Classification(XomKind, true, NamedImage("os_win"))
    else
      Classification(GenericKind, false, NamedImage("os_unknown"))
  }

  /** Graphics mode for the exact Mac OS X path (up to case) and for `xom.efi`, and
      the same decision as in release 0.5 for every path. */
  lemma GraphicsAgreesWithRelease(loaderPath: string)
    ensures Classify(loaderPath).useGraphicsMode <==>
      SameIgnoringCase(loaderPath, MacOSXLoaderPath) || IsXomName(Basename(loaderPath))
    ensures Classify(loaderPath).useGraphicsMode == Loaders.Classify(loaderPath).useGraphicsMode
    ensures Classify(loaderPath).kind == Loaders.Classify(loaderPath).kind
  {
    var fileName := Basename(loaderPath);
    ClassifyKinds(loaderPath);
    if SameIgnoringCase(loaderPath, MacOSXLoaderPath) {
      MacPathBasename(loaderPath);
    }
    NoCommonMatch(fileName, "diags.efi", "elilo.efi", 0);
    NoCommonMatch(fileName, "diags.efi", "e.efi", 0);
    NoCommonMatch(fileName, "diags.efi", "Bootmgfw.efi", 0);
    NoCommonMatch(fileName, "diags.efi", "xom.efi", 0);
  }

  /** Every file other than the four known ones keeps the unknown image. */
  lemma UnknownImage(loaderPath: string)
    requires !SameIgnoringCase(loaderPath, MacOSXLoaderPath)
    requires !IsEliloName(Basename(loaderPath)) && !IsXomName(Basename(loaderPath))
    requires !SameIgnoringCase(Basename(loaderPath), "Bootmgfw.efi")
    ensures Classify(loaderPath).icon == NamedImage("os_unknown")
    ensures !Classify(loaderPath).useGraphicsMode
  {
  }

  /** The trunk's LOADER_ENTRY: no submenu and no load options. */
  function AddLoaderEntry(loaderPath: string, loaderTitle: Option<string>,
                          device: DeviceHandle, volName: string): (e: MenuEntry)
    requires AbsolutePath(loaderPath)
    ensures e.row == 0 && e.submenu.None?
    ensures e.action.Loader? && e.action.loadOptions.None?
    ensures e.action.loaderPath == loaderPath && e.action.volName == volName
    ensures e.icon == Classify(loaderPath).icon
  {
    MenuEntry("Boot " + DisplayName(loaderPath, loaderTitle) + " from " + volName,
              Menu.Loader(loaderPath, volName, FileDevicePath(device, loaderPath),
                          Classify(loaderPath).useGraphicsMode, None),
              0, Classify(loaderPath).icon, None)
  }

  /** The top-level entry shows the same title, address and graphics mode as the
      release's, without the submenu and the xom parent options. */
  lemma EntryAgreesWithRelease(loaderPath: string, loaderTitle: Option<string>,
                               device: DeviceHandle, volName: string)
    requires AbsolutePath(loaderPath)
    ensures var t := AddLoaderEntry(loaderPath, loaderTitle, device, volName);
      var r := Loaders.AddLoaderEntry(loaderPath, loaderTitle, device, volName);
      && t.title == r.title && t.row == r.row
      && t.action == r.action.(loadOptions := None)
  {
    GraphicsAgreesWithRelease(loaderPath);
  }

  // ---------------------------------------------------------------------------
  // loader_scan

  /** The trunk skips TOOLS and its own directories; dot entries are scanned. */
  predicate IsSkippedEfiSubdir(name: string) {
    SameIgnoringCase(name, "TOOLS") || SameIgnoringCase(name, "REFIT") || SameIgnoringCase(name, "REFITL")
  }

  predicate IsScannedEfiSubdir(e: DirEntry) {
    e.isDir && !IsSkippedEfiSubdir(e.name)
  }

  /** Every `\EFI` subdirectory the release scans, the trunk scans too; a dot
      directory is scanned by the trunk only. */
  lemma SkipListNarrower(e: DirEntry)
    ensures Scan.IsScannedEfiSubdir(e) ==> IsScannedEfiSubdir(e)
    ensures e.isDir && |e.name| > 0 && e.name[0] == '.' ==>
      IsScannedEfiSubdir(e) && !Scan.IsScannedEfiSubdir(e)
  {
    if e.isDir && |e.name| > 0 && e.name[0] == '.' {
      assert Fold(e.name[0]) == '.';
      assert Fold("TOOLS"[0]) != '.' && Fold("REFIT"[0]) != '.' && Fold("REFITL"[0]) != '.';
    }
  }

  /** The trunk visits `\EFI\<name>` exactly when the `\EFI` listing holds a
      directory of that name outside its shorter skip list. */
  lemma EfiSubdirScannedIff(fs: FileSystem, name: string)
    ensures Some(EfiSubdirPath(name)) in GenericDirsSkipping(fs, IsSkippedEfiSubdir) <==>
      exists e :: e in Listing(fs, "EFI").entries && IsScannedEfiSubdir(e) && e.name == name
  {
    SubdirVisitedIff(fs, IsSkippedEfiSubdir, name);
  }

  /** A file-system handle as `loader_scan` sees it: the root directory when
      `LibOpenRoot` succeeds, and the label when the info query succeeds. */
  datatype FsHandle = FsHandle(device: DeviceHandle, root: Option<FileSystem>, volumeLabel: Option<string>)

  /** The volume name: the label, else the fixed fallback. */
  function VolumeName(h: FsHandle): (name: string)
    ensures h.volumeLabel.Some? ==> name == h.volumeLabel.value
    ensures h.volumeLabel.None? ==> name == "Unnamed Volume"
  {
    h.volumeLabel.GetOr("Unnamed Volume")
  }

  /** What one handle's scan finds: three probes (no hardware test), the generic
      directories, and the `\EFI` iterator's end status. */
  function ScanHandle(fs: FileSystem): (r: Scanned)
    // Mac OS X, when present, is the first entry of the handle
    ensures MacOSXLoaderPath in fs.files ==>
      |r.found| >= 1 && r.found[0] == Found(MacOSXLoaderPath, Some("Mac OS X"))
    // the other fixed loaders are found, with their titles, whenever they exist
    ensures XomLoaderPath in fs.files ==> Found(XomLoaderPath, Some("Windows XP (XoM)")) in r.found
    ensures MicrosoftLoaderPath in fs.files ==>
      Found(MicrosoftLoaderPath, Some("Microsoft boot menu")) in r.found
  {
    var mac := Probe(fs, MacOSXLoaderPath, "Mac OS X");
    var xom := Probe(fs, XomLoaderPath, "Windows XP (XoM)");
    var ms := Probe(fs, MicrosoftLoaderPath, "Microsoft boot menu");
    var rest := ScanDirs(fs, GenericDirsSkipping(fs, IsSkippedEfiSubdir))
      .Then(Scanned([], EfiDirErrors(Listing(fs, "EFI").endStatus)));
    var found := mac.found + xom.found + ms.found + rest.found;
    assert xom.found == [] || xom.found[0] == found[|mac.found|];
    assert ms.found == [] || ms.found[0] == found[|mac.found| + |xom.found|];
    mac.Then(xom).Then(ms).Then(rest)
  }

  /** A handle's finds are the Mac OS X, xom and Microsoft probes, then the root,
      `elilo`, `boot` and kept `\EFI` subdirectory scans; its transcript is the
      directory scans' followed by the `\EFI` status line. */
  lemma ScanHandleOrder(fs: FileSystem)
    ensures var r, generic := ScanHandle(fs), ScanDirs(fs, GenericDirsSkipping(fs, IsSkippedEfiSubdir));
      && r.found == Probe(fs, MacOSXLoaderPath, "Mac OS X").found
                    + Probe(fs, XomLoaderPath, "Windows XP (XoM)").found
                    + Probe(fs, MicrosoftLoaderPath, "Microsoft boot menu").found
                    + generic.found
      && r.errors == generic.errors + EfiDirErrors(Listing(fs, "EFI").endStatus)
  {
  }

  /** Everything the trunk scan finds is an absolute path. */
  lemma ScanHandleFound(fs: FileSystem, f: Found)
    requires f in ScanHandle(fs).found
    ensures AbsolutePath(f.loaderPath)
    ensures f.title.Some? ==> f.loaderPath in {MacOSXLoaderPath, XomLoaderPath, MicrosoftLoaderPath}
    ensures f.title.None? ==> f in ScanDirs(fs, GenericDirsSkipping(fs, IsSkippedEfiSubdir)).found
  {
    ScanHandleOrder(fs);
    assert MacOSXLoaderPath[0] == '\\' && XomLoaderPath[0] == '\\' && MicrosoftLoaderPath[0] == '\\';
  }

  /** The trunk offers no denylisted helper either: the same three-name test and
      `\<Path>\<name>` construction apply to its directory scans. */
  lemma HandleNeverOffersExcluded(fs: FileSystem, i: nat)
    requires WellFormed(fs)
    requires i < |ScanHandle(fs).found|
    ensures !IsExcluded(Basename(ScanHandle(fs).found[i].loaderPath))
  {
    var f := ScanHandle(fs).found[i];
    ScanHandleFound(fs, f);
    if f.title.Some? {
      ProbesNotExcluded();
    } else {
      var dirs := GenericDirsSkipping(fs, IsSkippedEfiSubdir);
      var d :| d in dirs && f in ScanDir(fs, d).found;
      var k :| 0 <= k < |ScanDir(fs, d).found| && ScanDir(fs, d).found[k] == f;
      ScanDirNeverOffersExcluded(fs, d, k);
    }
  }

  /** The entries one handle contributes: none when its root cannot be opened. */
  function HandleEntries(h: FsHandle): (es: seq<MenuEntry>)
    ensures h.root.None? ==> es == []
    ensures h.root.Some? ==> |es| == |ScanHandle(h.root.value).found|
    ensures forall e :: e in es ==>
      && e.row == 0 && e.action.Loader? && e.submenu.None?
      && e.action.volName == VolumeName(h)
      && e.action.devicePath.device == h.device
  {
    if h.root.None? then []
    else
      var found := ScanHandle(h.root.value).found;
      seq(|found|, i requires 0 <= i < |found| =>
        ScanHandleFound(h.root.value, found[i]);
        AddLoaderEntry(found[i].loaderPath, found[i].title, h.device, VolumeName(h)))
  }

  /** Entry `i` of a handle boots the `i`-th loader its scan found, from this
      handle, under the probe's title or the path without its leading backslash,
      with the image and graphics mode the classification gives. */
  lemma HandleEntryIs(h: FsHandle, i: nat)
    requires i < |HandleEntries(h)|
    ensures h.root.Some? && i < |ScanHandle(h.root.value).found|
    ensures var f, e := ScanHandle(h.root.value).found[i], HandleEntries(h)[i];
      && AbsolutePath(f.loaderPath)
      && e.title == "Boot " + DisplayName(f.loaderPath, f.title) + " from " + VolumeName(h)
      && e.action.Loader?
      && e.action.loaderPath == f.loaderPath
      && e.action.devicePath == FileDevicePath(h.device, f.loaderPath)
      && e.action.useGraphicsMode == Classify(f.loaderPath).useGraphicsMode
      && e.icon == Classify(f.loaderPath).icon
  {
    var f := ScanHandle(h.root.value).found[i];
    ScanHandleFound(h.root.value, f);
    assert HandleEntries(h)[i] == AddLoaderEntry(f.loaderPath, f.title, h.device, VolumeName(h));
  }

  function HandleErrors(h: FsHandle): seq<ErrorReport> {
    if h.root.None? then [] else ScanHandle(h.root.value).errors
  }

  /** The handle loop of `loader_scan`, in handle order. */
  function ScanHandles(hs: seq<FsHandle>): (d: Discovered)
    ensures forall e :: e in d.entries ==> exists h :: h in hs && e in HandleEntries(h)
  {
    if |hs| == 0 then Discovered([], [])
    else
      var init := ScanHandles(hs[..|hs| - 1]);
      var last := hs[|hs| - 1];
      assert forall h :: h in hs[..|hs| - 1] ==> h in hs;
      Discovered(init.entries + HandleEntries(last), init.errors + HandleErrors(last))
  }

  /** Scanning two runs of handles gives the first run's entries and transcript
      followed by the second's. */
  lemma {:induction false} ScanHandlesConcat(a: seq<FsHandle>, b: seq<FsHandle>)
    ensures ScanHandles(a + b) == Discovered(ScanHandles(a).entries + ScanHandles(b).entries,
                                             ScanHandles(a).errors + ScanHandles(b).errors)
  {
    if |b| == 0 {
      assert a + b == a;
      assert ScanHandles(a).entries + [] == ScanHandles(a).entries;
      assert ScanHandles(a).errors + [] == ScanHandles(a).errors;
    } else {
      var b0, last := b[..|b| - 1], b[|b| - 1];
      assert b == b0 + [last];
      assert a + b == (a + b0) + [last];
      ScanHandlesStep(a + b, a + b0, last);
      ScanHandlesStep(b, b0, last);
      ScanHandlesConcat(a, b0);
      var x, y := ScanHandles(a), ScanHandles(b0);
      ConcatAssoc(x.entries, y.entries, HandleEntries(last));
      ConcatAssoc(x.errors, y.errors, HandleErrors(last));
    }
  }

  /** One step of the handle loop: the handles before the last, then the last. */
  lemma ScanHandlesStep(hs: seq<FsHandle>, init: seq<FsHandle>, last: FsHandle)
    requires hs == init + [last]
    ensures ScanHandles(hs) == Discovered(ScanHandles(init).entries + HandleEntries(last),
                                          ScanHandles(init).errors + HandleErrors(last))
  {
    assert hs[..|hs| - 1] == init;
  }

  /** Every entry a handle contributes is among the entries of the handle loop. */
  lemma {:induction false} ScanHandlesIncludeEvery(hs: seq<FsHandle>, i: nat, e: MenuEntry)
    requires i < |hs| && e in HandleEntries(hs[i])
    ensures e in ScanHandles(hs).entries
  {
    var init, last := hs[..|hs| - 1], hs[|hs| - 1];
    assert ScanHandles(hs).entries == ScanHandles(init).entries + HandleEntries(last);
    if i == |hs| - 1 {
      assert e in ScanHandles(init).entries + HandleEntries(last);
    } else {
      assert init[i] == hs[i];
      ScanHandlesIncludeEvery(init, i, e);
      assert e in ScanHandles(init).entries + HandleEntries(last);
    }
  }

  /** `loader_scan`: the listing of file-system handles ends the scan quietly when
      there are none (`NotFound`), with one transcript line on any other error,
      and otherwise scans every handle. */
  function LoaderScan(locateStatus: Status, hs: seq<FsHandle>): (d: Discovered)
    ensures locateStatus == NotFound ==> d == Discovered([], [])
    ensures IsError(locateStatus) && locateStatus != NotFound ==>
      d == Discovered([], [ErrorReport(locateStatus, "while listing all file systems")])
    ensures forall e :: e in d.entries ==>
      && !IsError(locateStatus)
      && e.row == 0 && e.action.Loader? && e.submenu.None?
      && exists h :: h in hs && h.root.Some? && e.action.volName == VolumeName(h)
  {
    if locateStatus == NotFound then Discovered([], [])
    else if IsError(locateStatus) then Discovered([], CheckError(locateStatus, "while listing all file systems"))
    else ScanHandles(hs)
  }

  /** After a successful listing, every handle's entries appear in the scan. */
  lemma LoaderScanIncludesEvery(locateStatus: Status, hs: seq<FsHandle>, i: nat, e: MenuEntry)
    requires !IsError(locateStatus) && i < |hs| && e in HandleEntries(hs[i])
    ensures e in LoaderScan(locateStatus, hs).entries
  {
    ScanHandlesIncludeEvery(hs, i, e);
  }

  /** After a successful listing, the handles' entries and transcript lines come in
      handle order. */
  lemma LoaderScanHandleOrder(locateStatus: Status, a: seq<FsHandle>, b: seq<FsHandle>)
    requires !IsError(locateStatus)
    ensures var d := LoaderScan(locateStatus, a + b);
      d.entries == LoaderScan(locateStatus, a).entries + LoaderScan(locateStatus, b).entries
      && d.errors == LoaderScan(locateStatus, a).errors + LoaderScan(locateStatus, b).errors
  {
    ScanHandlesConcat(a, b);
  }

  // ---------------------------------------------------------------------------
  // tool_scan

  /** The directory part of the boot manager's own path: everything before its
      last backslash, or nothing when that backslash is the first character or
      there is none. */
  function BaseDirectory(path: string): (base: string)
    ensures |base| < |path| || base == path == ""
    ensures base == path[..|base|]
    ensures |base| > 0 ==> path[|base|] == '\\' && '\\' !in path[|base| + 1..]
    ensures |base| == 0 ==> forall k :: 0 < k < |path| ==> path[k] != '\\'
  {
    BasenameIsSuffix(path);
    var name := Basename(path);
    if |name| == |path| then ""
    else
      assert forall k :: |path| - |name| <= k < |path| ==> path[k] == name[k - (|path| - |name|)];
      path[..|path| - |name| - 1]
  }

  /** A path with a backslash past its first character is its base directory, a
      backslash and its file name. */
  lemma BaseDirectoryJoin(path: string)
    requires |BaseDirectory(path)| > 0
    ensures path == BaseDirectory(path) + "\\" + Basename(path)
  {
    var base, name := BaseDirectory(path), Basename(path);
    BasenameIsSuffix(path);
    assert |base| == |path| - |name| - 1;
    assert path == path[..|base|] + [path[|base|]] + path[|base| + 1..];
  }

  /** The truncation loop as the source writes it: scan back from the terminator
      (which is not a backslash) while above index 0, then cut. */
  method TruncateAtLastBackslash(path: string) returns (base: string)
    ensures base == BaseDirectory(path)
  {
    var i := |path|;
    while i > 0 && (i == |path| || path[i] != '\\')
      invariant 0 <= i <= |path|
      invariant forall k :: i < k < |path| ==> path[k] != '\\'
    {
      i := i - 1;
    }
    base := path[..i];
    BaseDirectoryUnique(path, base);
  }

  /** The three properties of `BaseDirectory` pin its result down. */
  lemma BaseDirectoryUnique(path: string, base: string)
    requires |base| < |path| || base == path == ""
    requires base == path[..|base|]
    requires |base| > 0 ==> path[|base|] == '\\'
    requires forall k :: |base| < k < |path| ==> path[k] != '\\'
    ensures base == BaseDirectory(path)
  {
  }

  /** What the running trunk image knows about itself: its device, the text form
      of its own file path (absent when the conversion fails), and that device's
      file system (absent when it cannot be opened). */
  datatype TrunkSelf = TrunkSelf(device: DeviceHandle, filePath: Option<string>, rootFs: Option<FileSystem>)

  function ShellPath(self: TrunkSelf): string {
    (if self.filePath.Some? then BaseDirectory(self.filePath.value) else "") + "\\apps\\shell.efi"
  }

  /** `tool_scan`: at most one tool, the shell under the base directory, on row 1. */
  function ToolScan(self: TrunkSelf): (es: seq<MenuEntry>)
    ensures |es| <= 1
    ensures |es| == 1 <==> self.rootFs.Some? && ShellPath(self) in self.rootFs.value.files
    ensures |es| == 1 ==>
      && es[0].title == "Start EFI Shell" && es[0].row == 1 && es[0].submenu.None?
      && es[0].action == Tool(ShellPath(self), FileDevicePath(self.device, ShellPath(self)), false)
  {
    if self.rootFs.None? || ShellPath(self) !in self.rootFs.value.files then []
    else
      var path := ShellPath(self);
      [MenuEntry("Start EFI Shell", Tool(path, FileDevicePath(self.device, path), false), 1,
                 NamedImage("tool_shell"), None)]
  }

  /** The trunk shell entry is the release's primary shell entry when the release
      is given the trunk's base directory, apart from the image. */
  lemma ShellAgreesWithRelease(self: TrunkSelf, base: string)
    requires self.filePath.Some? && base == BaseDirectory(self.filePath.value)
    requires self.rootFs.Some? && ShellPath(self) in self.rootFs.value.files
    ensures var rel := Discovery.ToolScan(Discovery.SelfImage(self.device, base, self.rootFs.value));
      && |rel| == 1
      && rel[0].title == ToolScan(self)[0].title
      && rel[0].action == ToolScan(self)[0].action
      && rel[0].row == ToolScan(self)[0].row
  {
  }
}

=== FILE: trunk_loop.dfy ===
/**
  * Dispatch, main menu and main loop of the trunk snapshot. Loaders and tools
  * are loaded and started but never unloaded, there is no legacy boot, the main
  * menu ends with an exit entry, and the menu's timeout is cleared after the
  * first round so only the first presentation can time out.
  */
module TrunkLoop {
  import opened Wrappers
  import opened Firmware
  import opened Menu
  import opened Scan
  import opened Trunk
  import Dispatch
  import Discovery
  import MainLoop

  // ---------------------------------------------------------------------------
  // Dispatch

  /** Trunk `start_loader`: the status of `StartImage` is not examined. */
  function StartLoader(loaderPath: string, volName: string, dp: DevicePath, load: Status): (o: Dispatch.Outcome)
    ensures |o.trace| >= 1 && o.trace[0] == LoadImage(dp)
    ensures IsError(load) ==>
      o.trace == [LoadImage(dp)] && o.errors == [ErrorReport(load, "while loading " + loaderPath + " on " + volName)]
    ensures !IsError(load) ==> o.trace == [LoadImage(dp), StartImage] && o.errors == []
  {
    Dispatch.Outcome([LoadImage(dp)] + (if IsError(load) then [] else [StartImage]),
                     CheckError(load, "while loading " + loaderPath + " on " + volName))
  }

  /** Trunk `start_tool`. */
  function StartTool(toolPath: string, dp: DevicePath, load: Status): (o: Dispatch.Outcome)
    ensures |o.trace| >= 1 && o.trace[0] == LoadImage(dp)
    ensures IsError(load) ==>
      o.trace == [LoadImage(dp)] && o.errors == [ErrorReport(load, "while loading " + toolPath)]
    ensures !IsError(load) ==> o.trace == [LoadImage(dp), StartImage] && o.errors == []
  {
    Dispatch.Outcome([LoadImage(dp)] + (if IsError(load) then [] else [StartImage]),
                     CheckError(load, "while loading " + toolPath))
  }

  /** Release 0.5 makes the trunk's calls and then unloads the image; the trunk
      never unloads. */
  lemma ReleaseAddsUnload(loaderPath: string, volName: string, dp: DevicePath, r: Dispatch.LoaderReplies)
    requires !IsError(r.load)
    ensures Dispatch.StartLoader(loaderPath, volName, dp, None, r).trace
      == StartLoader(loaderPath, volName, dp, r.load).trace + [UnloadImage]
    ensures UnloadImage !in StartLoader(loaderPath, volName, dp, r.load).trace
  {
  }

  // ---------------------------------------------------------------------------
  // Main menu

  const AboutEntry: MenuEntry := MenuEntry("About rEFIt", About, 1, NamedImage("tool_about"), None)
  const ExitEntry: MenuEntry := MenuEntry("Exit to built-in Boot Manager", Exit, 1, NamedImage("tool_exit"), None)
  const ResetEntry: MenuEntry := MenuEntry("Restart Computer", Reset, 1, NamedImage("tool_reset"), None)

  const MainMenuTimeout: nat := 20

  /** The trunk main menu: loaders, tools, then About, Exit and Restart. */
  function MainMenu(locateStatus: Status, hs: seq<FsHandle>, self: TrunkSelf): (m: MenuScreen)
    ensures m.title == "rEFIt - Main Menu" && m.timeoutSeconds == MainMenuTimeout
    ensures m.timeoutText == Some("Automatic boot")
    ensures var n := |m.entries|; n >= 3 && m.entries[n - 3..] == [AboutEntry, ExitEntry, ResetEntry]
  {
    var loaders := Trunk.LoaderScan(locateStatus, hs).entries;
    MenuScreen("rEFIt - Main Menu", NoIcon, [],
               loaders + ToolScan(self) + [AboutEntry, ExitEntry, ResetEntry],
               MainMenuTimeout, Some("Automatic boot"))
  }

  /** The trunk main menu holds exactly the loader scan's entries, then the shell
      when it was found, then About, Exit and Restart, and nothing else. */
  lemma MainMenuParts(locateStatus: Status, hs: seq<FsHandle>, self: TrunkSelf)
    ensures MainMenu(locateStatus, hs, self).entries ==
      Trunk.LoaderScan(locateStatus, hs).entries + ToolScan(self) + [AboutEntry, ExitEntry, ResetEntry]
    ensures |MainMenu(locateStatus, hs, self).entries| ==
      |Trunk.LoaderScan(locateStatus, hs).entries| + |ToolScan(self)| + 3
  {
  }

  /** After a successful handle listing, every entry of every handle that opens
      is offered in the main menu. */
  lemma MainMenuOffersLoaders(locateStatus: Status, hs: seq<FsHandle>, self: TrunkSelf, i: nat, e: MenuEntry)
    requires !IsError(locateStatus)
    requires i < |hs| && e in HandleEntries(hs[i])
    ensures e in MainMenu(locateStatus, hs, self).entries
  {
    LoaderScanIncludesEvery(locateStatus, hs, i, e);
    MainMenuParts(locateStatus, hs, self);
  }

  /** The EFI shell, when it was found next to the boot manager, is offered,
      right after the loaders. */
  lemma MainMenuOffersShell(locateStatus: Status, hs: seq<FsHandle>, self: TrunkSelf)
    requires self.rootFs.Some? && ShellPath(self) in self.rootFs.value.files
    ensures var es, n := MainMenu(locateStatus, hs, self).entries, |Trunk.LoaderScan(locateStatus, hs).entries|;
      n < |es| && es[n] == ToolScan(self)[0] && es[n].title == "Start EFI Shell"
  {
    MainMenuParts(locateStatus, hs, self);
  }

  /** Loader entries (row 0) come first, then the tool and fixed entries (row 1). */
  lemma MainMenuRows(locateStatus: Status, hs: seq<FsHandle>, self: TrunkSelf)
    ensures Discovery.InRowOrder(MainMenu(locateStatus, hs, self).entries)
  {
    var l := Trunk.LoaderScan(locateStatus, hs).entries;
    var fixed: seq<MenuEntry> := [AboutEntry, ExitEntry, ResetEntry];
    var t := ToolScan(self);
    SecondRow(t, fixed);
    Discovery.RowsOfParts(l, t + fixed);
    ConcatAssoc(l, t, fixed);
  }

  lemma SecondRow(t: seq<MenuEntry>, fixed: seq<MenuEntry>)
    requires |t| <= 1 && (|t| == 1 ==> t[0].row == 1)
    requires fixed == [AboutEntry, ExitEntry, ResetEntry]
    ensures forall e :: e in t + fixed ==> e.row == 1
  {
    if |t| == 1 {
      assert t == [t[0]];
    }
  }

  /** Unlike release 0.5, the trunk offers a way back to the firmware's boot
      manager, and picking it ends the loop. */
  lemma ExitOffered(locateStatus: Status, hs: seq<FsHandle>, self: TrunkSelf)
    ensures ExitEntry in MainMenu(locateStatus, hs, self).entries
    ensures MainLoop.EndingOf(MainLoop.Choose(ExitEntry)) == Some(MainLoop.ExitChosen)
  {
    var es := MainMenu(locateStatus, hs, self).entries;
    assert es[|es| - 2] == ExitEntry;
  }

  // ---------------------------------------------------------------------------
  // Main loop

  /** One round: the choice and the status `LoadImage` returns if it is called. */
  datatype Round = Round(choice: MainLoop.Choice, load: Status)

  /** The calls and transcript, the timeout each presentation of the menu ran
      with, and why the loop stopped. */
  datatype Session = Session(trace: seq<FwCall>, errors: seq<ErrorReport>, timeouts: seq<nat>,
                             ending: MainLoop.Ending)

  /** The `switch`: there is no legacy case. */
  function RunRound(r: Round): (o: Dispatch.Outcome)
    // leaving the menu, the entries that do nothing and a legacy entry make no calls
    ensures (|| r.choice.Escape? || r.choice.entry.action.About? || r.choice.entry.action.Exit?
             || r.choice.entry.action.ReturnToParent? || r.choice.entry.action.Legacy?) ==>
      o == Dispatch.Outcome([], [])
    ensures r.choice.Choose? && r.choice.entry.action.Reset? ==>
      o == Dispatch.Outcome([ResetSystem(ResetCold)], [])
    // a loader or a tool is loaded from its device path, then started unless loading failed
    ensures r.choice.Choose? && (r.choice.entry.action.Loader? || r.choice.entry.action.Tool?) ==>
      && |o.trace| >= 1 && o.trace[0] == LoadImage(r.choice.entry.action.devicePath)
      && (StartImage in o.trace <==> !IsError(r.load))
  {
    if r.choice.Escape? then Dispatch.Outcome([], [])
    else match r.choice.entry.action
      case Reset => Dispatch.Outcome([ResetSystem(ResetCold)], [])
      case Loader(path, vol, dp, _, _) => StartLoader(path, vol, dp, r.load)
      case Tool(path, dp, _) => StartTool(path, dp, r.load)
      case _ => Dispatch.Outcome([], [])
  }

  /** The loop, starting with the menu's timeout at `timeout`; each round presents
      the menu once. */
  function Run(rounds: seq<Round>, timeout: nat): (s: Session)
    ensures |s.timeouts| <= |rounds|
    ensures s.ending == MainLoop.InputExhausted ==> |s.timeouts| == |rounds|
  {
    if |rounds| == 0 then Session([], [], [], MainLoop.InputExhausted)
    else
      var o := RunRound(rounds[0]);
      var stop := MainLoop.EndingOf(rounds[0].choice);
      if stop.Some? then Session(o.trace, o.errors, [timeout], stop.value)
      else
        var rest := Run(rounds[1..], 0);
        Session(o.trace + rest.trace, o.errors + rest.errors, [timeout] + rest.timeouts, rest.ending)
  }

  /** Only the first presentation can time out: every later one runs with 0. */
  lemma {:induction false} TimeoutOneShot(rounds: seq<Round>, timeout: nat)
    ensures var ts := Run(rounds, timeout).timeouts;
      && (|rounds| > 0 ==> |ts| >= 1 && ts[0] == timeout)
      && forall i :: 1 <= i < |ts| ==> ts[i] == 0
  {
    if |rounds| > 0 && MainLoop.EndingOf(rounds[0].choice).None? {
      TimeoutOneShot(rounds[1..], 0);
    }
  }

  /** The loop stops at the first round that leaves it, and only there. */
  lemma {:induction false} RunStopsAtFirstEnding(rounds: seq<Round>, timeout: nat)
    ensures var s := Run(rounds, timeout);
      s.ending == MainLoop.InputExhausted <==>
        forall i :: 0 <= i < |rounds| ==> MainLoop.EndingOf(rounds[i].choice).None?
    ensures var s := Run(rounds, timeout);
      s.ending != MainLoop.InputExhausted ==>
        && |s.timeouts| >= 1
        && MainLoop.EndingOf(rounds[|s.timeouts| - 1].choice) == Some(s.ending)
        && forall i :: 0 <= i < |s.timeouts| - 1 ==> MainLoop.EndingOf(rounds[i].choice).None?
  {
    if |rounds| > 0 && MainLoop.EndingOf(rounds[0].choice).None? {
      var rest := rounds[1..];
      RunStopsAtFirstEnding(rest, 0);
      assert forall i :: 1 <= i < |rounds| ==> rounds[i] == rest[i - 1];
    }
  }

  /** The trunk never unloads an image and never resets warm. */
  lemma {:induction false} TrunkNeverUnloads(rounds: seq<Round>, timeout: nat)
    ensures UnloadImage !in Run(rounds, timeout).trace
    ensures ResetSystem(ResetWarm) !in Run(rounds, timeout).trace
  {
    if |rounds| > 0 {
      var o := RunRound(rounds[0]);
      assert UnloadImage !in o.trace && ResetSystem(ResetWarm) !in o.trace;
      if MainLoop.EndingOf(rounds[0].choice).None? {
        TrunkNeverUnloads(rounds[1..], 0);
      }
    }
  }

  /** The rounds from `i` on: round `i`, then, unless it ends the loop, the rest
      with the timeout cleared. */
  lemma RunFrom(rounds: seq<Round>, i: nat, timeout: nat)
    requires i < |rounds|
    ensures var o, stop, s := RunRound(rounds[i]), MainLoop.EndingOf(rounds[i].choice), Run(rounds[i..], timeout);
      if stop.Some? then s == Session(o.trace, o.errors, [timeout], stop.value)
      else s == Session(o.trace + Run(rounds[i + 1..], 0).trace, o.errors + Run(rounds[i + 1..], 0).errors,
                        [timeout] + Run(rounds[i + 1..], 0).timeouts, Run(rounds[i + 1..], 0).ending)
  {
    assert rounds[i..][0] == rounds[i] && rounds[i..][1..] == rounds[i + 1..];
  }

  /** `RefitMain`'s loop with `main_menu.TimeoutSeconds = 0` at the end of each
      round that does not leave it. */
  method RunLoop(rounds: seq<Round>) returns (s: Session)
    ensures s == Run(rounds, MainMenuTimeout)
  {
    var trace: seq<FwCall> := [];
    var errors: seq<ErrorReport> := [];
    var timeouts: seq<nat> := [];
    var timeoutSeconds := MainMenuTimeout;
    var i := 0;
    var ending := MainLoop.InputExhausted;
    while i < |rounds|
      invariant 0 <= i <= |rounds|
      invariant ending == MainLoop.InputExhausted
      invariant i > 0 ==> timeoutSeconds == 0
      invariant i == 0 ==> timeoutSeconds == MainMenuTimeout
      invariant var rest := Run(rounds[i..], timeoutSeconds);
        Run(rounds, MainMenuTimeout)
          == Session(trace + rest.trace, errors + rest.errors, timeouts + rest.timeouts, rest.ending)
    {
      var o := RunRound(rounds[i]);
      var stop := MainLoop.EndingOf(rounds[i].choice);
      RunFrom(rounds, i, timeoutSeconds);
      if stop.None? {
        var next := Run(rounds[i + 1..], 0);
        ConcatAssoc(trace, o.trace, next.trace);
        ConcatAssoc(errors, o.errors, next.errors);
        ConcatAssoc(timeouts, [timeoutSeconds], next.timeouts);
      }
      trace := trace + o.trace;
      errors := errors + o.errors;
      timeouts := timeouts + [timeoutSeconds];
      i := i + 1;
      if stop.Some? {
        ending := stop.value;
        break;
      }
      timeoutSeconds := 0;
    }
    s := Session(trace, errors, timeouts, ending);
  }
}

=== FILE: wrappers.dfy ===
/** The optional value used wherever the firmware code passes a reference that
    may be NULL, and a sequence fact the loop proofs share. */
module Wrappers {

  datatype Option<+T> = None | Some(value: T) {

    /** Returns the value held in Some, or `default` for None. */
    function GetOr(default: T): T {
      match this
      case Some(v) => v
      case None => default
    }
  }

  /** Concatenation is associative; the loop proofs regroup their traces with it. */
  lemma ConcatAssoc<T>(x: seq<T>, y: seq<T>, z: seq<T>)
    ensures x + (y + z) == (x + y) + z
  {
  }
}
